=== FILE: README.md ===
# Guest records and invitations, modelled in Dafny

This project models the core of an event-guest manager. A Flask backend keeps
guest records ("invitados"), and a browser frontend lists, filters, counts,
edits and deletes them. A document generator turns each guest into a PDF
dossier, and a one-shot script migrates the SQLite table to its newer layout.
The model covers the pure rules underneath those parts:

- **Backend** (`backend.dfy`). The record table is a map from id to record.
  - the jury-flag truth table;
  - the `to_dict` projection with its `puestos` list;
  - create-time validation;
  - partial-update merge semantics;
  - delete;
  - the four role-filter routes.
- **Dossier** (`dossier.dfy`).
  - the dossier file name, with its nine deleted characters and the organisation fallback chain;
  - the output folder;
  - the template `puestos` list and the render context;
  - the step order of `generate_full_dossier` and its result.
- **Migration** (`migration.dfy`). The `puesto_completo` migration is a
  function over a table, given as a set of column names and a sequence of
  rows, plus the environment the script meets.
- **Api** (`api.js`, in `api.dfy`).
  - the bounded retry of `obtenerInvitados`, over an abstract function from attempt number to fetch outcome;
  - the single-attempt calls.
- **Roster** (`roster.dfy`). The list logic shared by `invitados-lista.js` and
  `app.js`:
  - role filters as order-preserving subsequences;
  - the counter text;
  - the badge row;
  - the error text with its connection hint.
- **Lista** (`invitados-lista.js`, in `lista.dfy`).
  - cards;
  - rendering and the counter;
  - loading;
  - edit lookup;
  - delete;
  - filter clicks.
- **Form** (`invitados-form.js`, in `form.dfy`).
  - the submit payload;
  - the edit-mode state;
  - `cargarParaEdicion`;
  - the create/update choice.
- **App** (`app.js`, in `app.dfy`).
  - the older form normalisation;
  - the promise-chain retry;
  - `puestos` lines;
  - create and delete handlers.
- **Estadisticas** (`estadisticas.js`, in `estadisticas.dfy`). The six counts
  and the statistics panel.
- **Invitaciones** (`invitaciones.js`, in `invitaciones.dfy`). The invitation
  workflow:
  - upload staging;
  - reset;
  - the ordered checks and dispatch of `generarInvitaciones`;
  - the folder-name display;
  - the generation mode.

Each of these files is a module of the same name. `text.dfy` (trimming,
number rendering, substring predicates), `json.dfy` (JSON values with
Python/JavaScript truthiness, dictionaries, the `Puesto` pair) and `seqs.dfy`
(an order-preserving filter with its lemmas) are shared helpers.

Conventions:

- A JSON value is `Null`, `Bool` or `Str`.
- The backend stores a text column as the JSON value the client sent, with
  one change made by SQLite's TEXT column affinity: a boolean is committed
  as the text "1" or "0" (`Backend.Commit`). It always stores the four flags
  as booleans.
- The network, the file system, the console prompt and the external document
  libraries are parameters of the functions that use them: the function takes
  the reply or the step outcome as an argument.
- Points of the code's behaviour worth knowing before reading the model:
  - `_create_safe_filename` only deletes nine characters. The dossier file
    name is neither trimmed nor whitespace-collapsed.
  - `generarInvitaciones` keeps the staged files after a generation. Only
    `limpiarFormularioInvitaciones` forgets them.
  - `invitaciones.js` uploads to `/api/upload-files` and generates through
    `/api/generate-all-invitations`. `backend/main.py` defines neither route,
    so their replies are parameters.
  - In individual mode `generarInvitaciones` calls
    `window.API.generateSingleInvitation`, which the `window.API` object of
    `frontend/js/api.js` does not define. The call throws a `TypeError`, so
    individual mode always ends in the error modal.

## Model

| member | source | states |
|---|---|---|
| Backend.ComputeJuradoFlags | backend/main.py:39-64 | protocol jury = not T1 advisor and report jury = not T2 advisor for all four combinations; only the two jury fields change; a consistent record is left as it is |
| Backend.ComputeJuradoFlagsIdempotent | backend/main.py:50-64 | recomputing the jury flags a second time changes nothing |
| Backend.CollectPuestos | backend/main.py:76-81 | the loop from slot i keeps exactly the slots from i on whose cargo or organizacion is truthy, in slot order |
| Backend.ToDict | backend/main.py:66-97 | fields copied; `puestos` absent iff no slot is occupied, else the occupied slots in order (1 to 4 of them); advisor flags as stored; jury flags consistent with the advisor flags whatever was stored |
| Backend.ToDictListsOccupiedSlots | backend/main.py:76-84 | slot i is listed iff it is occupied, and every listed entry is an occupied slot of the record |
| Backend.TextColumnsComplete | backend/main.py:172-183 | the update loop tests the key of every text column of the table |
| Backend.SetTextField | backend/main.py:180-183 | setting one column changes that column only; id and flags stay |
| Backend.MergeText | backend/main.py:172-183 | after the `if key in data` chain each listed column holds the payload value when its key is present and its old value otherwise |
| Backend.NewInvitado | backend/main.py:138-155 | the new row copies each text column from its key (null when absent), takes the truthiness of the advisor flags (false when absent) and has consistent jury flags |
| Backend.TextAffinity | backend/main.py:20-31 | a boolean written to a text column comes back as the text "1" or "0"; every other value is stored as sent; the result is never a boolean |
| Backend.Commit | backend/main.py:157-160 | committing applies TEXT affinity to each text column and keeps the id and flags; the committed record holds no boolean text value |
| Backend.CommitKeepsCommitted | backend/main.py:157-160 | committing a record that holds no boolean text value changes nothing |
| Backend.FalseCargoIsListed | backend/main.py:76-84 | a create with `cargo_1` false stores "0", a truthy text, so `to_dict` lists a position with cargo "0" |
| Backend.CreateInvitado | backend/main.py:125-160 | a falsy name gives 400 "nombre_completo es requerido"; else a falsy caracter gives 400 "caracter_invitacion es requerido"; both leave the store unchanged; otherwise the committed row is stored and returned with 201 |
| Backend.CreatedRecordShape | backend/main.py:138-160 | after a 201 the store gains exactly the new id, keeps every other record, the name and caracter are truthy, and missing advisor flags default to false with the matching jury flag set |
| Backend.ApplyUpdate | backend/main.py:171-191 | a column or advisor flag changes exactly when its key is in the payload; the id never changes; the jury flags are recomputed |
| Backend.UpdateInvitado | backend/main.py:164-194 | an unknown id gives 404; a merge that makes a NOT NULL column null fails the commit (500, store unchanged); otherwise the committed merged record is stored and returned with 200 |
| Backend.UpdateChangesOnlyPayloadKeys | backend/main.py:168-194 | a successful update keeps every other record and the id; a text column named in the payload holds the payload value after TEXT affinity; on a committed store every other field keeps its value |
| Backend.UpdateCommitFailsOnNull | backend/main.py:172-193 | the update succeeds iff the resulting name and caracter are both non-null; a failed one leaves the store as it was |
| Backend.DeleteInvitado | backend/main.py:198-203 | an unknown id gives 404; otherwise exactly that id is removed and every other record stays |
| Backend.RoleRoute | backend/main.py:205-227 | each role route returns exactly the stored records whose stored flag for that role is true, each as `to_dict` renders it |
| Backend.CreatePreservesConsistency | backend/main.py:154-158 | create keeps every record under its own id with consistent jury flags |
| Backend.UpdatePreservesConsistency | backend/main.py:190-193 | update keeps every record under its own id with consistent jury flags |
| Backend.DeletePreservesConsistency | backend/main.py:198-203 | delete keeps every record under its own id with consistent jury flags |
| Backend.RoleRouteMatchesReportedFlag | backend/main.py:205-227 | on a consistent store a route returns exactly the records whose reported flag for that role is true |
| Backend.JuryRoutesComplementAdvisors | backend/main.py:205-227 | on a consistent store the protocol-jury route is the complement of the T1-advisor route, and the report-jury route of the T2-advisor route |
| Dossier.Sanitize | backend/document_generator.py:30-33 | the result has none of the nine characters, and a string without them is returned unchanged |
| Dossier.SanitizeKeepsOthers | backend/document_generator.py:30 | sanitising keeps every other character, in order and in number |
| Dossier.SanitizeIdempotent | backend/document_generator.py:30 | sanitising twice equals sanitising once |
| Dossier.OrgChoice | backend/document_generator.py:32 | the organisation is `abreviacion_org_1` if truthy, else `organizacion_1` if truthy, else "INVITADO" |
| Dossier.SafeFilename | backend/document_generator.py:25-36 | the name is `{anio}.{periodo}-FPiT-DOSSIER-{org}-{nombre}.pdf` with both segments sanitised; it fails exactly when the name or the chosen organisation is not a string |
| Dossier.MissingNameAndOrg | backend/document_generator.py:30-36 | a guest without name or organisation gets an empty name segment and the "INVITADO" segment |
| Dossier.NullNameFails | backend/document_generator.py:30 | a null name is a type error, not an empty segment |
| Dossier.ForbiddenOnlyOrgGivesEmptySegment | backend/document_generator.py:32-33 | the organisation is chosen before sanitising, so an abbreviation made only of deleted characters gives an empty segment |
| Dossier.FileNameFree | backend/document_generator.py:36 | a name assembled from segments free of the nine characters is free of them |
| Dossier.SafeFilenameIsSafe | backend/document_generator.py:30-36 | a produced file name is free of the nine characters when the year and period are |
| Dossier.RawSlots | backend/document_generator.py:51-53 | the template loop reads `cargo_i`/`organizacion_i` for i = 1 to 4 in order |
| Dossier.DefaultOrg | backend/document_generator.py:55-58 | each listed entry keeps its cargo and defaults a falsy organisation to "" |
| Dossier.CargoIndices | backend/document_generator.py:51-54 | the positions from `from` on whose cargo is truthy, each once, in increasing order |
| Dossier.TemplateList | backend/document_generator.py:50-58 | one entry per slot with a truthy cargo, in slot order: entry j is the slot at the j-th such position, with its cargo and its organisation or "" |
| Dossier.TemplateListComplete | backend/document_generator.py:50-58 | every slot with a truthy cargo is listed, and every entry comes from such a slot |
| Dossier.TemplatePuestos | backend/document_generator.py:49-58 | the template list has at most four entries, each with a truthy cargo |
| Dossier.TemplatePuestosInSlotOrder | backend/document_generator.py:51-58 | entry j is slot `idx[j]+1` with its organisation defaulted, the slot numbers increase, and slot i is among them iff its cargo is truthy |
| Dossier.TemplatePuestosComplete | backend/document_generator.py:51-58 | slot i (1 to 4) is listed iff its cargo is truthy |
| Dossier.RenderContext | backend/document_generator.py:61-68 | the context has the guest keys and the event keys; event keys override guest keys of the same name |
| Dossier.GenerateFullDossier | backend/document_generator.py:76-141 | a dossier is generated iff every requirement holds: template and attachments present, render, convert, append, mkdir and write complete, `id`, `anio` and `periodo` present, file name buildable; then the folder is `{anio}.{periodo}-invitaciones`, the file name is the safe file name, and the parts are letter, convocatoria, cronograma; otherwise the error names a requirement that really failed |
| Dossier.TemplateCheckedFirst | backend/document_generator.py:43-96 | a missing template is reported before anything else, a render failure before a missing `id`, a missing `id` before the conversion, and a failed conversion before the attachment check, the append and the event data |
| Dossier.AttachmentsCheckedBeforeEventData | backend/document_generator.py:103-112 | once the letter is converted, missing attachments and then a failed append are reported before the event data is read |
| Dossier.OutputStepsInOrder | backend/document_generator.py:112-124 | after the merge, a missing `anio`, then a missing `periodo`, then a failed mkdir, then an unbuildable file name is the error, in that order |
| Dossier.FileNameStartsWithKey | backend/document_generator.py:36 | a dossier file name starts with its period key |
| Dossier.FileAndFolderSharePeriod | backend/document_generator.py:112-120 | the folder and the file name of a generated dossier share the `{anio}.{periodo}` prefix |
| Migration.Read | backend/migrate_db_puesto_completo.py:112-116 | a column the SELECT replaces by NULL reads as NULL |
| Migration.CombinePuesto | backend/migrate_db_puesto_completo.py:126-132 | both truthy gives "{cargo} del {organizacion}", as long as both texts and " del " together; only one gives that one; neither gives ""; the result is truthy iff either input is |
| Migration.CombineIsCargoDelOrg | backend/migrate_db_puesto_completo.py:127-128 | with both halves truthy the position is exactly the cargo's text, " del ", and the organisation's text |
| Migration.CombineNeverNull | backend/migrate_db_puesto_completo.py:126-132 | the combined position is never NULL |
| Migration.TextAffinity | backend/migrate_db_puesto_completo.py:83-87 | an integer written to a TEXT column is stored as its decimal text; other values unchanged; the printed form is preserved |
| Migration.AbbreviationSource | backend/migrate_db_puesto_completo.py:101-170 | the flat branch reads `abreviacion_org` and the legacy branch `abreviacion_org_1`, each only when the table has it |
| Migration.MigrateRow | backend/migrate_db_puesto_completo.py:120-143 | each new row keeps id and the four role flags as read; name, caracter, nota and the abbreviation keep their text, are NULL iff the old value is, and an integer is stored as its decimal text; the position is the never-NULL combined text; the abbreviation is NULL when there is no such column; `es_invitado_especial` = 0 |
| Migration.InsertEach | backend/migrate_db_puesto_completo.py:120-143 | the INSERT loop fails iff some mapped row violates a NOT NULL column; otherwise one new row per old row, in order |
| Migration.MigrateRows | backend/migrate_db_puesto_completo.py:118-143 | one new row per old row in order, or failure iff some row violates a NOT NULL column |
| Migration.MigrateRowsSucceeds | backend/migrate_db_puesto_completo.py:134-143 | the INSERT loop succeeds iff every row has a name and a caracter, and then maps every row in order |
| Migration.CopyRows | backend/migrate_db_puesto_completo.py:100-202 | the flat layout copies through `cargo`/`organizacion`, else an older layout (or the corrected script) through `cargo_1`/`organizacion_1`, succeeding iff the base columns exist and every row has a name and a caracter; as written, a table with neither layout copies nothing |
| Migration.MigrateWith | backend/migrate_db_puesto_completo.py:17-261 | a missing database or a failed backup returns False untouched; only a True return can replace the table, and only when the old table exists and no stale `invitado_new` blocks the rebuild |
| Migration.Migrate | backend/migrate_db_puesto_completo.py:17-261 | the script as written, with the same guarantees |
| Migration.FlatTableIsMigrated | backend/migrate_db_puesto_completo.py:97-207 | a flat table with the base columns and named rows is replaced, with True, by its rows mapped through `cargo` and `organizacion` |
| Migration.LegacyTableIsMigrated | backend/migrate_db_puesto_completo.py:148-207 | a not yet migrated table of the older layout with the base columns and named rows is replaced, with True, by its rows mapped through `cargo_1` and `organizacion_1` |
| Migration.EmptyTableIsRebuilt | backend/migrate_db_puesto_completo.py:96-207 | a not yet migrated table without rows is rebuilt empty in the new layout, with True |
| Migration.AlreadyMigratedIsNoOp | backend/migrate_db_puesto_completo.py:56-60 | `puesto_completo` present and `cargo` absent returns True and changes nothing |
| Migration.SecondRunIsNoOp | backend/migrate_db_puesto_completo.py:56-94 | the table the script builds is recognised as migrated, so a second run is a no-op |
| Migration.PartialNeedsConfirmation | backend/migrate_db_puesto_completo.py:62-68 | a half-migrated table is left alone, with False, unless the answer is "s" or "S" |
| Migration.MigratedRowsMatchSource | backend/migrate_db_puesto_completo.py:106-197 | in both copy branches each old row becomes exactly one new row, in order, through the row mapping of that branch |
| Migration.NullNameAbortsMigration | backend/migrate_db_puesto_completo.py:134-143 | a row with a NULL name makes the INSERT fail, so the migration is rolled back and returns False |
| Migration.MigrateDropsGuestsWithoutPositionColumns | backend/migrate_db_puesto_completo.py:148-207 | as written, a populated table without any position column is replaced by an empty one and the script reports success |
| Migration.FixedMigrationKeepsEveryGuest | backend/migrate_db_puesto_completo.py:148-207 | corrected, a replaced populated table always keeps as many rows as it had |
| Api.Settle | frontend/js/api.js:28-33 | an ok response resolves with its body; a non-ok status throws the status message; a rejection throws its own message |
| Api.Retry | frontend/js/api.js:22-50 | the reply is the first ok attempt; every earlier attempt failed; at most `MAX_RETRIES - retryCount + 1` fetches; after the last failure that error is thrown |
| Api.RetryFindsFirstOk | frontend/js/api.js:28-46 | when attempt k is the first ok one within the budget, the call resolves with its body after exactly k - retryCount + 1 fetches |
| Api.ObtenerInvitados | frontend/js/api.js:22-50 | from 0 there are at most six fetches, and a resolved reply is the body of the last fetch |
| Api.ObtenerInvitadosGivesUp | frontend/js/api.js:38-48 | six failures in a row make six fetches and throw the sixth failure's error |
| Api.HttpErrorIsRetried | frontend/js/api.js:28-46 | a non-ok status followed by an ok response resolves on the second fetch |
| Api.RecordUrlsDistinct | frontend/js/api.js:83-84 | distinct ids address distinct record URLs |
| Api.Once | frontend/js/api.js:57-74 | a single-attempt call issues exactly its one request; it resolves to the parsed body iff the response is ok, and otherwise throws "HTTP error! status: N" or the rejection's own message |
| Api.CrearInvitado | frontend/js/api.js:57-74 | one POST of the JSON payload to the collection; the parsed body is returned, a non-ok status throws its status message, a rejection propagates its own message |
| Api.ActualizarInvitado | frontend/js/api.js:82-99 | one PUT of the JSON payload to the record URL; the parsed body is returned, a non-ok status throws its status message, a rejection propagates its own message |
| Api.EliminarInvitado | frontend/js/api.js:106-117 | one DELETE of the record URL; it resolves with no value when ok, a non-ok status throws its status message, a rejection propagates its own message |
| Api.GenerarInvitaciones | frontend/js/api.js:124-138 | one POST of the form data to the generate route; the parsed body is returned, a non-ok status throws its status message, a rejection propagates its own message |
| Api.SingleCallsDoNotRetry | frontend/js/api.js:57-138 | after a failure the four other calls have made exactly one request and throw |
| Roster.ParseFilter | frontend/js/invitados-lista.js:190-202 | each of the four filter names selects its role; "todos" and every other name select none |
| Roster.FiltrarInvitados | frontend/js/invitados-lista.js:189-203 | "todos" and unknown filters return the list; a role filter returns exactly the guests holding the role, as an order-preserving subsequence, never longer |
| Roster.FilterKeepsMultiplicity | frontend/js/invitados-lista.js:191-198 | a role filter keeps each guest as often as the input holds it if it holds the role, and never otherwise |
| Roster.FiltrarIdempotent | frontend/js/invitados-lista.js:189-203 | filtering twice with the same filter equals filtering once |
| Roster.CounterText | frontend/js/invitados-lista.js:233 | "Total: N invitado" with an "s" iff N is not 1 |
| Roster.CounterTextInjective | frontend/js/invitados-lista.js:233 | distinct counts give distinct counter texts |
| Roster.ActualizarContador | frontend/js/invitados-lista.js:228-234 | without an argument the count is the length of the stored list, else the given count |
| Roster.HeldBadges | frontend/js/invitados-lista.js:95-108 | one badge per held role, in the order T1, T2, Protocolo, Informe |
| Roster.RoleBadges | frontend/js/invitados-lista.js:95-152 | the badges are exactly the held roles, in order, and "Sin roles asignados" appears iff none is held |
| Roster.RoleBadgesUnique | frontend/js/invitados-lista.js:95-152 | any ascending badge row with exactly the held roles, and the default badge iff none is held, is the row the card draws |
| Roster.AscendingRowsEqual | frontend/js/invitados-lista.js:95-108 | two ascending badge rows with the same members are equal |
| Roster.AllRolesShowFourBadges | frontend/js/invitados-lista.js:95-108 | a guest with all four roles shows the four badges in full order |
| Roster.ErrorText | frontend/js/invitados-lista.js:32-42 | the message follows the fixed prefix, and the connection hint is appended iff the message contains "Failed to fetch" or "NetworkError"; the length is prefix plus message plus hint |
| Roster.ErrorTextIsPrefixMessageHint | frontend/js/invitados-lista.js:32-42 | the error text is exactly the prefix, the message, and the hint when the message shows a connection failure |
| Roster.NoHintWithoutCapitals | frontend/js/invitados-lista.js:36-42 | a message with no 'F' and no 'N' never gets the hint |
| Lista.NotaOf | frontend/js/invitados-lista.js:137-140 | the note is shown iff it is a string that is not blank after trimming; a truthy non-string note makes `trim` throw |
| Lista.BlankNoteHidden | frontend/js/invitados-lista.js:138 | a note of only whitespace is never shown |
| Lista.Line | frontend/js/invitados-lista.js:115-124 | a line is drawn iff its value is truthy |
| Lista.PuestoOf | frontend/js/invitados-lista.js:111-127 | the position block is absent iff neither `puesto_completo` nor `institucion` is truthy; otherwise it has at least one line, the `puesto_completo` line holding that field and the `institucion` line holding that one, each present iff its field is truthy |
| Lista.CrearCard | frontend/js/invitados-lista.js:89-184 | building fails iff the note throws; otherwise the card has the guest's id and `nombre_completo`, role badges, special flag and position block, the caracter or "Sin especificar", and a note iff it is shown, holding the note's text |
| Lista.EspecialKeepsDefaultBadge | frontend/js/invitados-lista.js:129-152 | the special-guest badge does not replace the "Sin roles asignados" default |
| Lista.AppendAll | frontend/js/invitados-lista.js:78-81 | a throwing `forEach` appends exactly the items built before the first element that throws |
| Lista.RenderAll | frontend/js/invitados-lista.js:78-81 | all cards in order when none throws; otherwise the cards before the first throwing guest |
| Lista.MostrarWith | frontend/js/invitados-lista.js:61-84 | the empty state iff the filtered list is empty, when the counter stays (as written) or reads 0 (corrected); otherwise the filtered cards and, if none threw, the counter for the filtered list |
| Lista.MostrarInvitados | frontend/js/invitados-lista.js:61-84 | the empty state iff the filtered list is empty, and then the counter keeps its text; a non-empty filtered list is drawn card by card in order up to the first guest whose card throws, and a fully drawn list has one card per shown guest and counts them |
| Lista.EmptyFilterLeavesStaleCounter | frontend/js/invitados-lista.js:67-74 | as written, a filter matching none of two guests leaves "Total: 2 invitados" on screen |
| Lista.FixedCounterMatchesShownList | frontend/js/invitados-lista.js:61-84 | corrected, the counter always counts the guests the filter shows |
| Lista.CargarInvitados | frontend/js/invitados-lista.js:10-27 | at most six fetches; a thrown error shows the error text; a loaded list is stored, and the error view appears iff a card of the filtered list throws; otherwise the view is the filtered list as `mostrarInvitados` draws it, counted whole and handed to the statistics |
| Lista.LoadCountsWholeList | frontend/js/invitados-lista.js:15-17 | after a load the stored list is the first ok body and the counter counts all of it, whatever the filter |
| Lista.HttpFailureHasNoHint | frontend/js/invitados-lista.js:32-42 | a load that ends in HTTP errors shows the status message without the connection hint |
| Lista.FindIndex | frontend/js/invitados-lista.js:241 | the index of the first guest with the id, or none iff no guest has it |
| Lista.FindById | frontend/js/invitados-lista.js:241 | the first guest with the id, or none iff no guest has it |
| Lista.EditarInvitado | frontend/js/invitados-lista.js:239-263 | an unknown id ends in the error notice with the form untouched; a known one holds that guest so the next submit updates it |
| Lista.EditFindsFirstMatch | frontend/js/invitados-lista.js:241-248 | editing the first guest's id holds exactly that guest |
| Lista.EliminarInvitado | frontend/js/invitados-lista.js:268-296 | nothing without confirmation; otherwise one DELETE, then a reload and the success notice iff it succeeded, else the error prefix followed by the failure's message: "HTTP error! status: N" for a non-ok status, the rejection's own message otherwise |
| Lista.DeleteTargetsClickedGuest | frontend/js/invitados-lista.js:268-275 | two confirmed deletes send the same request iff they name the same guest id |
| Lista.ClickFilter | frontend/js/invitados-lista.js:208-223 | a click stores the filter and redraws the stored list, counting the cards shown |
| Lista.TodosShowsEveryGuest | frontend/js/invitados-lista.js:199-201 | "todos" shows a card for every stored guest, in order |
| Form.LastNonBlank | frontend/js/invitados-form.js:19-24 | the text of the last entry for a key that is not blank, or none iff every such entry is blank |
| Form.Collect | frontend/js/invitados-form.js:19-24 | a key is in the payload iff some entry for it is not blank, and it holds the last such text, untrimmed |
| Form.BuildPayload | frontend/js/invitados-form.js:15-28 | both advisor keys are always present, as booleans saying whether their checkbox was submitted; every other key as `Collect` gives it |
| Form.PayloadKeepsOnlyNonBlank | frontend/js/invitados-form.js:19-24 | a field whose texts are all blank is absent; a present field holds submitted, non-blank, untrimmed text |
| Form.BlankNoteKeepsStoredNote | frontend/js/invitados-form.js:19-24 | a note blanked in the form is left out of the payload, so the backend update keeps the stored note |
| Form.UpdateFollowsCheckboxes | frontend/js/invitados-form.js:27-28 | an update from the form always sets both advisor flags to the checkbox states, and the jury flags follow |
| Form.LimpiarModoEdicion | frontend/js/invitados-form.js:191-197 | no guest is held, edit mode is off and the create label is back: the page's initial state |
| Form.ResetForm | frontend/js/invitados-form.js:42-44 | a form reset leaves edit mode, so the next submit creates |
| Form.TextInput | frontend/js/invitados-form.js:150-162 | a text input gets the field's text when truthy, "" otherwise (including a missing field) |
| Form.CheckInput | frontend/js/invitados-form.js:165-170 | a checkbox is checked iff the field is truthy |
| Form.CargarParaEdicion | frontend/js/invitados-form.js:144-186 | the guest is held, edit mode is on with the update label, each of the six text inputs holds its field's text or "", and each of the three checkboxes is checked iff its field is truthy |
| Form.FormEntries | frontend/js/invitados-form.js:15-19 | the form's entries are the six text inputs in page order, then a checked checkbox each; an advisor key is submitted iff its box is checked |
| Form.ReloadedFormKeepsFlags | frontend/js/invitados-form.js:15-28 | loading a guest and submitting unchanged sends both advisor flags as the guest's truthiness of them |
| Form.ReloadedFormKeepsText | frontend/js/invitados-form.js:15-28 | loading a guest and submitting unchanged sends back every text field that holds non-blank text, unchanged |
| Form.MissingFieldsLoadEmpty | frontend/js/invitados-form.js:150-170 | a guest without fields loads as empty texts and unchecked boxes |
| Form.SubmitAction | frontend/js/invitados-form.js:30-38 | submit updates iff edit mode is on and a guest is held, and then it updates that guest's id; otherwise it creates |
| Form.Submit | frontend/js/invitados-form.js:12-139 | one PUT to the held record or one POST to the collection with the payload; success leaves edit mode, failure keeps the state |
| Form.EditRoundTrip | frontend/js/invitados-form.js:97-108 | after loading a guest the submit updates it; once that succeeds the next submit creates |
| Form.FailedUpdateStaysInEditMode | frontend/js/invitados-form.js:130-138 | a failed update keeps the guest held, so submitting again retries the same update |
| App.LastValue | frontend/js/app.js:228-234 | the text of the last entry for a key, present iff the key was submitted |
| App.TrimmedOrNull | frontend/js/app.js:232 | null iff the text is blank; otherwise the trimmed text, non-empty and with no whitespace at either end |
| App.TrimmedOrNullIdempotent | frontend/js/app.js:232 | normalising an already normalised text gives it back unchanged |
| App.Normal | frontend/js/app.js:229-233 | keys starting with "es_asesor_" store true; the others store the trimmed text or null |
| App.Normalise | frontend/js/app.js:228-234 | every submitted key is present (a blank one as null) with the normalised value of its last entry |
| App.NormaliseForm | frontend/js/app.js:224-238 | the normalised entries, then both advisor flags set to whether their checkbox was submitted |
| App.BlankFieldBecomesNull | frontend/js/app.js:232 | a blank text field is sent as null by app.js, while the newer form leaves it out |
| App.BlankNameIsRejected | frontend/js/app.js:228-247 | a blank name reaches the backend as null, and the create is refused with 400 before anything is stored |
| App.NotOkPrefixHasNoCapitals | frontend/js/app.js:26 | the fixed part of the non-ok message has neither 'F' nor 'N' |
| App.Drawn | frontend/js/app.js:31-36 | an ok body whose drawing throws reaches the `.catch` as a failure with that error's message; every other attempt is as fetched |
| App.CargarInvitados | frontend/js/app.js:19-58 | at most `MAX_RETRIES - retryCount + 1` fetches; a list fetched and drawn without error is stored and counted whole; a final failure, of the fetch or of the drawing, shows the error text |
| App.ReloadRestartsBudget | frontend/js/app.js:81-84 | a reload starts again at 0, so one load makes at most six fetches and a failed one exactly six |
| App.HttpFailureHasNoHint | frontend/js/app.js:22-28 | a non-ok status is a failure like a network error, and it is shown without the connection hint |
| App.FirstOkIsStored | frontend/js/app.js:31-35 | the first attempt within the budget that is ok and draws without error is the list stored |
| App.RenderErrorIsRetried | frontend/js/app.js:31-53 | an ok list whose drawing throws is fetched again, and a second list that draws is stored after two fetches |
| App.RenderErrorsExhaustBudget | frontend/js/app.js:31-56 | when every list throws while drawn, the load gives up after six fetches and shows the last drawing error |
| App.ShowPuesto | frontend/js/app.js:143-144 | each half of a position shows its value when truthy and "N/A" otherwise |
| App.Lines | frontend/js/app.js:139-148 | one line per entry with a cargo or an organizacion, in order |
| App.RenderPuestos | frontend/js/app.js:136-150 | the block is absent iff the list is missing or empty; otherwise it holds the lines |
| App.BackendPuestosAllRendered | frontend/js/app.js:136-150 | every position the backend reports is drawn, one line each, in order |
| App.CrearCard | frontend/js/app.js:114-174 | an app.js card carries the guest's id and `nombre_completo`, its role badges and the rendered positions |
| App.SubmitCreate | frontend/js/app.js:221-271 | one POST of the normalised payload; success resets, reloads and notifies; failure notifies with the fixed text or the rejection's message |
| App.Eliminar | frontend/js/app.js:276-304 | nothing without confirmation; otherwise one DELETE, then a reload and the success notice iff it succeeded, else the error notice |
| App.EliminarTargetsClickedGuest | frontend/js/app.js:276-283 | two confirmed deletes send the same request iff they name the same guest id |
| App.StatusNotShown | frontend/js/app.js:249-251 | every non-ok status gives the same create error notice |
| Estadisticas.Resolve | frontend/js/estadisticas.js:70-74 | a given list, even an empty one, is used; only a missing one falls back to the list module |
| Estadisticas.Count | frontend/js/estadisticas.js:89 | a count is at most the list length |
| Estadisticas.CountAll | frontend/js/estadisticas.js:87-99 | total is the length; each role count is the length of that role's filter; `juradosAmbos` counts guests on both juries |
| Estadisticas.ObtenerEstadisticas | frontend/js/estadisticas.js:70-100 | a missing or empty list gives six zeros; otherwise the six counts |
| Estadisticas.CountsBounded | frontend/js/estadisticas.js:87-99 | every count is at most the total, and `juradosAmbos` is at most each jury count |
| Estadisticas.JuriesCoverAtMostTotal | frontend/js/estadisticas.js:91-98 | protocol plus report minus both is at most the total |
| Estadisticas.ActualizarWith | frontend/js/estadisticas.js:8-63 | a non-empty list shows what `obtenerEstadisticas` returns; a missing or empty one leaves the panel (as written) or shows zeros (corrected) |
| Estadisticas.ActualizarEstadisticas | frontend/js/estadisticas.js:8-63 | a non-empty list writes what `obtenerEstadisticas` returns for it; a missing or empty one leaves the panel as it was |
| Estadisticas.EmptyListLeavesStaleStatistics | frontend/js/estadisticas.js:15 | as written, after one guest is counted, updating with the empty list still shows a total of 1 although the statistics say 0 |
| Estadisticas.FixedPanelAgreesWithObtener | frontend/js/estadisticas.js:8-100 | corrected, the panel always shows what `obtenerEstadisticas` returns for the same input |
| Estadisticas.PanelAgreesOnNonEmptyList | frontend/js/estadisticas.js:15-62 | as written, the panel agrees with `obtenerEstadisticas` for every non-empty list |
| Invitaciones.CargarArchivos | frontend/js/invitaciones.js:57-168 | without all three files only a warning; otherwise one POST with the page locked and unlocked; the state changes iff the reply is a success with files, and then it stores the three handles and marks the files uploaded |
| Invitaciones.RefusedUploadReportsError | frontend/js/invitaciones.js:147-164 | a refused upload leaves the state unchanged and reports the server's error or the default text |
| Invitaciones.LimpiarFormulario | frontend/js/invitaciones.js:317-349 | the three handles become null, the uploaded flag false, and the edition and both dates empty |
| Invitaciones.FirstProblem | frontend/js/invitaciones.js:225-265 | the first failed check, in order: files uploaded, five event fields filled, then (individual mode only) a guest selected |
| Invitaciones.AllModal | frontend/js/invitaciones.js:282-300 | an ok generate-all reply shows its message and folder; a non-ok one shows the reply's truthy `error` or else "Error en el servidor"; a failed fetch or parse shows its own message |
| Invitaciones.GenerarInvitaciones | frontend/js/invitaciones.js:223-312 | a failed check shows its warning and calls nothing; individual mode locks and unlocks the page, sends nothing and shows the "is not a function" error; any other mode posts the event data and shows the reply's result; the page is unlocked afterwards |
| Invitaciones.IndividualModeAlwaysFails | frontend/js/invitaciones.js:278-280 | individual mode never completes and never sends a request, whatever the server would answer |
| Invitaciones.GenerationAlwaysUnlocks | frontend/js/invitaciones.js:307-311 | whenever a generation locks the page it ends with the button enabled and the overlay closed; it locks iff every check passes, and calls the server iff it also is not in individual mode |
| Invitaciones.ResetBlocksGeneration | frontend/js/invitaciones.js:225-231 | after the reset the next generation stops at the first check |
| Invitaciones.UploadEnablesGeneration | frontend/js/invitaciones.js:114-120 | a successful upload clears the first check, so a complete form in "todos" mode posts the event data |
| Invitaciones.FolderName | frontend/js/invitaciones.js:206-218 | `{anio}.{periodo}-invitaciones` when both are filled, the placeholder text otherwise |
| Invitaciones.FolderMatchesGenerator | frontend/js/invitaciones.js:213-214 | the displayed folder is the folder the document generator writes to |
| Invitaciones.CambiarModo | frontend/js/invitaciones.js:354-369 | the mode is stored and the guest selector is hidden iff the mode is not "individual" |
| Invitaciones.SelectorOnlyMattersInIndividualMode | frontend/js/invitaciones.js:256-265 | outside individual mode an empty guest selection does not stop the generation |

`frontend/js/app.js` repeats the filter (178-192) and error hint (60-70)
of `frontend/js/invitados-lista.js` and draws the same counter text
(210-214), so the `Roster` rows cover both files. Unlike
invitados-lista.js:230, app.js's `actualizarContador` has no guard for a
missing counter element: without it the call throws inside the load chain,
which then retries; the `render` parameter of `App.CargarInvitados` covers
that throw.

## Left out

- Electron shell, IPC bridge, navigation, modal and notification markup,
  timers (`RETRY_DELAY`, notification timeouts) and scrolling: desktop and DOM
  plumbing with no statable logic.
- `frontend/js/import-export.js`, `backend/migrate_db.py`,
  `backend/test_word_com.py`: a download wrapper, a single SQL statement, and
  an interactive diagnostic.
- The health route and the read routes `GET /api/invitados` and
  `GET /api/invitados/<id>`: they only serialise with `to_dict`, which is
  modelled.
- DOCX rendering, DOCX-to-PDF conversion, PDF merging, COM initialisation,
  temp-file cleanup and `generate_preview_image`: foreign libraries. They are
  steps that either finish or raise with a message.
- SQLite itself: the record table is a map, row ids are chosen by the caller,
  and column widths (`String(200)`) are not enforced, as SQLite does not
  enforce them.
- Numbers as JSON values: the model's JSON values are null, booleans and
  strings. Integer columns appear only where the migration needs them.
- The migration's backup copy, console output and `input()` prompts beyond the
  one confirmation answer: file system and console I/O.
- The upload and generate-all routes: `backend/main.py` does not define them,
  so their replies are parameters.
- `cargarInvitadosParaSelector`, `configurarPeriodo`, the file-status labels
  and the preview in `frontend/js/invitaciones.js`: selector and label
  rendering only.
- Printing: JavaScript prints `undefined` and `null` differently, and both are
  modelled as `Null`.
- The engine's exact exception texts: `Lista.NotaTypeErrorMessage`,
  `Invitaciones.FilesTypeError` and `Invitaciones.SingleNotAFunction` are
  representative texts, not version-exact ones.
- Dossier.ErrorText: the `TypeError` text is the one `re.sub` gives without
  the type suffix; current Python appends the offending type, as in
  "expected string or bytes-like object, got 'NoneType'".
- App.CargarInvitados: `invitadosData` is assigned before drawing, so after
  a final drawing error the page holds a list it did not draw; the model
  reports only the error view.
- Concurrency between overlapping handlers (two uploads, a reload during a
  load): the browser runs each handler to completion in the model.

## Findings

| source | as written | input that shows it | evidently intended | confidence | as-written member | corrected member |
|---|---|---|---|---|---|---|
| backend/migrate_db_puesto_completo.py:148-207 | when the table has rows but none of `cargo`/`organizacion`, `cargo_1` or `organizacion_1`, nothing is copied, the old table is dropped anyway and the script reports success | a populated `invitado` table with only the base columns | copy every guest (with an empty position) or stop without dropping the table | medium, not executed | Migration.MigrateDropsGuestsWithoutPositionColumns | Migration.FixedMigrationKeepsEveryGuest |
| frontend/js/estadisticas.js:15 | `actualizarEstadisticas` returns before writing anything when the list is empty, so deleting the last guest leaves the old numbers on the panel | count one guest, then update with `[]` | show six zeros, as `obtenerEstadisticas` returns for the same input | medium, not executed | Estadisticas.EmptyListLeavesStaleStatistics | Estadisticas.FixedPanelAgreesWithObtener |
| frontend/js/invitados-lista.js:67-74 | `mostrarInvitados` returns before `actualizarContador` when the filtered list is empty, so the counter keeps the previous count (app.js:95-102 is the same) | two guests without roles, counter "Total: 2 invitados", click the T1 filter | the counter reads "Total: 0 invitados" for an empty filtered list | medium, not executed | Lista.EmptyFilterLeavesStaleCounter | Lista.FixedCounterMatchesShownList |

=== FILE: api.dfy ===
/** The fetch wrappers of frontend/js/api.js. The network is a parameter:
    an attempt index maps to what `fetch` followed by `response.json()`
    produced for that attempt. Delays between attempts are not modelled. */
module Api {
  import Text

  /** One fetch: a parsed ok body, a non-ok HTTP status, or a rejection
      (network failure or unparsable body) with its message. */
  datatype Response<T> = Ok(body: T) | HttpError(status: int) | Rejected(message: string)

  /** A settled promise: its value or the message of the thrown error. */
  datatype Reply<T> = Resolved(value: T) | Thrown(message: string)

  const BaseUrl: string := "http://127.0.0.1:5000"
  const InvitadosPath: string := "/api/invitados"
  const GenerarPath: string := "/api/invitaciones/generar"
  const MaxRetries: nat := 5

  /** `HTTP error! status: ${response.status}`. */
  function HttpErrorMessage(status: int): string {
    "HTTP error! status: " + Text.IntToString(status)
  }

  /** The HTTP error message has no 'F' and no 'N', whatever the status. */
  lemma HttpErrorMessageHasNoCapitals(status: int)
    ensures Text.Lacks(HttpErrorMessage(status), 'F') && Text.Lacks(HttpErrorMessage(status), 'N')
  {
    var digits := Text.IntToString(status);
    var a, b := "HTTP error! ", "status: ";
    assert HttpErrorMessage(status) == a + b + digits;
    assert Text.Lacks(a, 'F') && Text.Lacks(a, 'N');
    assert Text.Lacks(b, 'F') && Text.Lacks(b, 'N');
    assert Text.Lacks(digits, 'F') && Text.Lacks(digits, 'N');
    Text.LacksConcat(a, b, 'F');
    Text.LacksConcat(a + b, digits, 'F');
    Text.LacksConcat(a, b, 'N');
    Text.LacksConcat(a + b, digits, 'N');
  }

  /** One attempt: the ok body resolves; a non-ok status throws the given
      message, exactly as a rejection throws its own. */
  function Settle<T>(resp: Response<T>, httpMessage: int -> string): (r: Reply<T>)
    ensures r.Resolved? <==> resp.Ok?
    ensures resp.Ok? ==> r.value == resp.body
    ensures resp.HttpError? ==> r.message == httpMessage(resp.status)
    ensures resp.Rejected? ==> r.message == resp.message
  {
    match resp
    case Ok(b) => Resolved(b)
    case HttpError(s) => Thrown(httpMessage(s))
    case Rejected(m) => Thrown(m)
  }

  /** The settled reply of a retrying call and how many fetches it made. */
  datatype Attempts<T> = Attempts(reply: Reply<T>, fetches: nat)

  /** The last attempt index a call starting at `retryCount` can reach. */
  function LastAttempt(retryCount: nat, maxRetries: nat): nat {
    if retryCount < maxRetries then maxRetries else retryCount
  }

  /** Retry while `retryCount < maxRetries`, one more each time: the first
      ok body wins; after the last failure its error is rethrown. */
  function Retry<T>(outcome: nat -> Response<T>, retryCount: nat, maxRetries: nat, httpMessage: int -> string): (r: Attempts<T>)
    ensures 1 <= r.fetches <= LastAttempt(retryCount, maxRetries) - retryCount + 1
    ensures forall k :: retryCount <= k < retryCount + r.fetches - 1 ==> !outcome(k).Ok?
    ensures r.reply.Resolved? ==> outcome(retryCount + r.fetches - 1) == Ok(r.reply.value)
    ensures r.reply.Thrown? ==>
              && r.fetches == LastAttempt(retryCount, maxRetries) - retryCount + 1
              && r.reply == Settle(outcome(LastAttempt(retryCount, maxRetries)), httpMessage)
    decreases if retryCount < maxRetries then maxRetries - retryCount else 0
  {
    match Settle(outcome(retryCount), httpMessage)
    case Resolved(v) => Attempts(Resolved(v), 1)
    case Thrown(m) =>
      if retryCount < maxRetries then
        var rest := Retry(outcome, retryCount + 1, maxRetries, httpMessage);
        Attempts(rest.reply, rest.fetches + 1)
      else Attempts(Thrown(m), 1)
  }

  /** When attempt `k` is the first ok one within the budget, the call
      resolves with its body after exactly `k - retryCount + 1` fetches. */
  lemma {:induction false} RetryFindsFirstOk<T>(outcome: nat -> Response<T>, retryCount: nat, maxRetries: nat,
                                                httpMessage: int -> string, k: nat)
    requires retryCount <= k <= LastAttempt(retryCount, maxRetries)
    requires outcome(k).Ok?
    requires forall j :: retryCount <= j < k ==> !outcome(j).Ok?
    ensures Retry(outcome, retryCount, maxRetries, httpMessage) == Attempts(Resolved(outcome(k).body), k - retryCount + 1)
    decreases k - retryCount
  {
    if k > retryCount {
      assert !outcome(retryCount).Ok?;
      RetryFindsFirstOk(outcome, retryCount + 1, maxRetries, httpMessage, k);
    }
  }

  /** `obtenerInvitados(retryCount)`. */
  function ObtenerInvitados<T>(outcome: nat -> Response<T>, retryCount: nat): (r: Attempts<T>)
    ensures 1 <= r.fetches && (retryCount == 0 ==> r.fetches <= MaxRetries + 1)
    ensures r.reply.Resolved? ==> outcome(retryCount + r.fetches - 1) == Ok(r.reply.value)
  {
    Retry(outcome, retryCount, MaxRetries, HttpErrorMessage)
  }

  /** From the default start, six failures in a row exhaust the budget and
      the sixth error is rethrown; a non-ok status is retried like a
      network error. */
  lemma ObtenerInvitadosGivesUp<T>(outcome: nat -> Response<T>)
    requires forall k :: 0 <= k <= MaxRetries ==> !outcome(k).Ok?
    ensures ObtenerInvitados(outcome, 0) == Attempts(Settle(outcome(MaxRetries), HttpErrorMessage), MaxRetries + 1)
  {
  }

  /** A non-ok status followed by an ok body resolves on the second fetch. */
  lemma HttpErrorIsRetried<T>(outcome: nat -> Response<T>)
    requires outcome(0).HttpError? && outcome(1).Ok?
    ensures ObtenerInvitados(outcome, 0) == Attempts(Resolved(outcome(1).body), 2)
  {
    RetryFindsFirstOk(outcome, 0, MaxRetries, HttpErrorMessage, 1);
  }

  datatype Method = GET | POST | PUT | DELETE

  /** A request: method, URL, and whether the body is `JSON.stringify(data)`
      (as opposed to form data or no body). */
  datatype Request = Request(verb: Method, url: string, jsonBody: bool)

  /** A single-attempt call: the requests it issued and its reply. */
  datatype Exchange<T> = Exchange(requests: seq<Request>, reply: Reply<T>)

  function InvitadosUrl(): string {
    BaseUrl + InvitadosPath
  }

  /** `${BASE_URL}/api/invitados/${id}`. */
  function RecordUrl(id: int): string {
    InvitadosUrl() + "/" + Text.IntToString(id)
  }

  /** Distinct ids address distinct URLs. */
  lemma RecordUrlsDistinct(m: int, n: int)
    ensures m != n ==> RecordUrl(m) != RecordUrl(n)
  {
    if RecordUrl(m) == RecordUrl(n) {
      var p := InvitadosUrl() + "/";
      assert RecordUrl(m)[|p|..] == Text.IntToString(m);
      assert RecordUrl(n)[|p|..] == Text.IntToString(n);
      Text.IntToStringInjective(m, n);
    }
  }

  /** One request, no retry: the reply settles that request's response. */
  function Once<T>(req: Request, resp: Response<T>): (x: Exchange<T>)
    ensures x.requests == [req]
    ensures x.reply.Resolved? <==> resp.Ok?
    ensures resp.HttpError? ==> x.reply == Thrown(HttpErrorMessage(resp.status))
    ensures resp.Ok? ==> x.reply == Resolved(resp.body)
    ensures resp.Rejected? ==> x.reply == Thrown(resp.message)
  {
    Exchange([req], Settle(resp, HttpErrorMessage))
  }

  /** `crearInvitado(data)`: POST of the JSON payload to the collection. */
  function CrearInvitado<T>(resp: Response<T>): (x: Exchange<T>)
    ensures x.requests == [Request(POST, InvitadosUrl(), true)]
    ensures x.reply.Resolved? <==> resp.Ok?
    ensures resp.HttpError? ==> x.reply == Thrown(HttpErrorMessage(resp.status))
    ensures resp.Ok? ==> x.reply == Resolved(resp.body)
    ensures resp.Rejected? ==> x.reply == Thrown(resp.message)
  {
    Once(Request(POST, InvitadosUrl(), true), resp)
  }

  /** `actualizarInvitado(id, data)`: PUT of the JSON payload to the record. */
  function ActualizarInvitado<T>(id: int, resp: Response<T>): (x: Exchange<T>)
    ensures x.requests == [Request(PUT, RecordUrl(id), true)]
    ensures x.reply.Resolved? <==> resp.Ok?
    ensures resp.HttpError? ==> x.reply == Thrown(HttpErrorMessage(resp.status))
    ensures resp.Ok? ==> x.reply == Resolved(resp.body)
    ensures resp.Rejected? ==> x.reply == Thrown(resp.message)
  {
    Once(Request(PUT, RecordUrl(id), true), resp)
  }

  /** `eliminarInvitado(id)`: DELETE of the record; the body is ignored. */
  function EliminarInvitado<T>(id: int, resp: Response<T>): (x: Exchange<()>)
    ensures x.requests == [Request(DELETE, RecordUrl(id), false)]
    ensures x.reply.Resolved? <==> resp.Ok?
    ensures resp.HttpError? ==> x.reply == Thrown(HttpErrorMessage(resp.status))
    ensures resp.Ok? ==> x.reply == Resolved(())
    ensures resp.Rejected? ==> x.reply == Thrown(resp.message)
  {
    var reply: Reply<()> := match resp
      case Ok(_) => Resolved(())
      case HttpError(s) => Thrown(HttpErrorMessage(s))
      case Rejected(m) => Thrown(m);
    Exchange([Request(DELETE, RecordUrl(id), false)], reply)
  }

  /** `generarInvitaciones(formData)`: POST of form data to the generate-all route. */
  function GenerarInvitaciones<T>(resp: Response<T>): (x: Exchange<T>)
    ensures x.requests == [Request(POST, BaseUrl + GenerarPath, false)]
    ensures x.reply.Resolved? <==> resp.Ok?
    ensures resp.HttpError? ==> x.reply == Thrown(HttpErrorMessage(resp.status))
    ensures resp.Ok? ==> x.reply == Resolved(resp.body)
    ensures resp.Rejected? ==> x.reply == Thrown(resp.message)
  {
    Once(Request(POST, BaseUrl + GenerarPath, false), resp)
  }

  /** Unlike `obtenerInvitados`, the other calls give up on the first
      non-ok status. */
  lemma SingleCallsDoNotRetry<T>(id: int, resp: Response<T>)
    requires resp.HttpError?
    ensures CrearInvitado(resp).reply.Thrown? && |CrearInvitado(resp).requests| == 1
    ensures ActualizarInvitado(id, resp).reply.Thrown? && |ActualizarInvitado(id, resp).requests| == 1
    ensures EliminarInvitado(id, resp).reply.Thrown? && |EliminarInvitado(id, resp).requests| == 1
    ensures GenerarInvitaciones(resp).reply.Thrown? && |GenerarInvitaciones(resp).requests| == 1
  {
  }
}

=== FILE: app.dfy ===
/** The single-page script frontend/js/app.js: its own form normalisation,
    its retrying list load built on promise callbacks, the `puestos` lines
    of its cards, and its create and delete handlers. Filtering, the
    counter and the error text are the ones in `Roster`. */
module App {
  import Text
  import Seqs
  import opened Json
  import Roster
  import Form
  import Api
  import Backend

  const CheckboxPrefix: string := "es_asesor_"

  /** The text of the last entry named `key`. */
  function LastValue(entries: seq<Form.Entry>, key: string): (r: Option<string>)
    ensures r.Some? <==> Form.Has(entries, key)
    ensures r.Some? ==> exists i :: 0 <= i < |entries| && entries[i] == (key, r.value) &&
                                    forall j :: i < j < |entries| ==> entries[j].0 != key
  {
    if entries == [] then None
    else
      var n := |entries| - 1;
      if entries[n].0 == key then Some(entries[n].1)
      else
        var r := LastValue(entries[..n], key);
        assert forall i :: 0 <= i < n ==> entries[..n][i] == entries[i];
        assert Form.Has(entries, key) ==> Form.Has(entries[..n], key) by {
          if Form.Has(entries, key) {
            var i :| 0 <= i < |entries| && entries[i].0 == key;
            assert entries[..n][i].0 == key;
          }
        }
        r
  }

  /** `value.trim() || null`. */
  function TrimmedOrNull(value: string): (v: Value)
    ensures v == Null <==> Text.Blank(value)
    ensures v.Str? ==> v.s == Text.Trim(value) && v.s != ""
    ensures v.Str? ==> !Text.IsSpace(v.s[0]) && !Text.IsSpace(v.s[|v.s| - 1])
    ensures !v.Bool?
  {
    assert Text.Trim(value) == "" <==> Text.Blank(value) by {
      Text.TrimEmptyIffBlank(value);
    }
    if Text.Trim(value) != "" then Str(Text.Trim(value)) else Null
  }

  /** Normalising an already normalised text changes nothing. */
  lemma TrimmedOrNullIdempotent(value: string)
    ensures TrimmedOrNull(value).Str? ==> TrimmedOrNull(TrimmedOrNull(value).s) == TrimmedOrNull(value)
  {
    var t := Text.Trim(value);
    if t != "" {
      Text.TrimIdempotent(value);
      Text.TrimEmptyIffBlank(t);
    }
  }

  /** What one entry stores: `true` for a checkbox, else the trimmed text,
      or `null` when nothing is left after trimming. */
  function Normal(key: string, value: string): (v: Value)
    ensures Text.StartsWith(key, CheckboxPrefix) ==> v == Bool(true)
    ensures !Text.StartsWith(key, CheckboxPrefix) ==> v == TrimmedOrNull(value)
  {
    if Text.StartsWith(key, CheckboxPrefix) then Bool(true) else TrimmedOrNull(value)
  }

  /** One more entry: its key becomes submitted, and it is the last entry
      for its key while the other keys keep their last entry. */
  lemma LastValueSnoc(entries: seq<Form.Entry>, k: string)
    requires entries != []
    ensures var n := |entries| - 1;
            && (Form.Has(entries, k) <==> Form.Has(entries[..n], k) || k == entries[n].0)
            && LastValue(entries, k) == if k == entries[n].0 then Some(entries[n].1) else LastValue(entries[..n], k)
  {
    var n := |entries| - 1;
    if Form.Has(entries, k) && k != entries[n].0 {
      var i :| 0 <= i < |entries| && entries[i].0 == k;
      assert entries[..n][i].0 == k;
    }
    if Form.Has(entries[..n], k) {
      var i :| 0 <= i < n && entries[..n][i].0 == k;
      assert entries[i].0 == k;
    }
  }

  /** The `formData.forEach` loop: every entry writes its key, later ones
      overwriting earlier ones. */
  function Normalise(entries: seq<Form.Entry>): (data: Dict)
    ensures forall k :: k in data <==> Form.Has(entries, k)
    ensures forall k :: k in data ==> data[k] == Normal(k, LastValue(entries, k).value)
  {
    if entries == [] then map[]
    else
      var n := |entries| - 1;
      var prev := Normalise(entries[..n]);
      assert forall k :: (Form.Has(entries, k) <==> Form.Has(entries[..n], k) || k == entries[n].0) &&
                         LastValue(entries, k) == if k == entries[n].0 then Some(entries[n].1) else LastValue(entries[..n], k) by {
        forall k {
          LastValueSnoc(entries, k);
        }
      }
      prev[entries[n].0 := Normal(entries[n].0, entries[n].1)]
  }

  /** The create payload of app.js: the normalised entries, then both
      advisor flags set to whether their checkbox was submitted. */
  function NormaliseForm(entries: seq<Form.Entry>): (data: Dict)
    ensures "es_asesor_t1" in data && data["es_asesor_t1"] == Bool(Form.Has(entries, "es_asesor_t1"))
    ensures "es_asesor_t2" in data && data["es_asesor_t2"] == Bool(Form.Has(entries, "es_asesor_t2"))
    ensures forall k :: k != "es_asesor_t1" && k != "es_asesor_t2" ==>
              (k in data <==> Form.Has(entries, k)) &&
              (k in data ==> data[k] == Normal(k, LastValue(entries, k).value))
  {
    Normalise(entries)["es_asesor_t1" := Bool(Form.Has(entries, "es_asesor_t1"))]
                      ["es_asesor_t2" := Bool(Form.Has(entries, "es_asesor_t2"))]
  }

  /** Unlike the newer form, app.js keeps a blank text field as `null`
      instead of dropping it. */
  lemma BlankFieldBecomesNull(entries: seq<Form.Entry>, k: string)
    requires !Text.StartsWith(k, CheckboxPrefix)
    requires Form.Has(entries, k)
    requires forall i :: 0 <= i < |entries| && entries[i].0 == k ==> Text.Blank(entries[i].1)
    ensures k in NormaliseForm(entries) && NormaliseForm(entries)[k] == Null
    ensures k !in Form.BuildPayload(entries)
  {
    assert k != "es_asesor_t1" && k != "es_asesor_t2" by {
      assert Text.StartsWith("es_asesor_t1", CheckboxPrefix);
      assert Text.StartsWith("es_asesor_t2", CheckboxPrefix);
    }
    forall i | 0 <= i < |entries| && entries[i].0 == k ensures !Form.NonBlank(entries[i].1) {
      Text.TrimEmptyIffBlank(entries[i].1);
    }
    Form.PayloadKeepsOnlyNonBlank(entries, k);
  }

  /** A name left blank reaches the backend as `null` and the create is
      refused with 400 before anything is stored. */
  lemma BlankNameIsRejected(store: Backend.Store, entries: seq<Form.Entry>, newId: int)
    requires newId !in store
    requires forall i :: 0 <= i < |entries| && entries[i].0 == "nombre_completo" ==> Text.Blank(entries[i].1)
    ensures Backend.CreateInvitado(store, NormaliseForm(entries), newId) ==
              Backend.Outcome(store, 400, Backend.ErrorMessage(Backend.NombreRequerido))
  {
    var data := NormaliseForm(entries);
    assert !Text.StartsWith("nombre_completo", CheckboxPrefix) by {
      assert "nombre_completo"[..|CheckboxPrefix|] != CheckboxPrefix by {
        assert "nombre_completo"[1] != CheckboxPrefix[1];
      }
    }
    if "nombre_completo" in data {
      var v := LastValue(entries, "nombre_completo").value;
      var i :| 0 <= i < |entries| && entries[i] == ("nombre_completo", v) &&
               forall j :: i < j < |entries| ==> entries[j].0 != "nombre_completo";
      assert Text.Blank(v);
      assert data["nombre_completo"] == Null;
    }
    assert !Truthy(Get(data, "nombre_completo"));
  }

  /** "La respuesta de la red no fue exitosa. Código: ", in three pieces
      short enough to inspect character by character. */
  const NotOkPrefix: string := "La respuesta de " + "la red no fue ex" + "itosa. Código: "

  /** The error a non-ok list response throws in app.js. */
  function NotOkMessage(status: int): string {
    NotOkPrefix + Text.IntToString(status)
  }

  /** The fixed part of the message has neither of the letters that start
      the connection-failure markers. */
  lemma NotOkPrefixHasNoCapitals()
    ensures Text.Lacks(NotOkPrefix, 'F') && Text.Lacks(NotOkPrefix, 'N')
  {
    var a, b, c := "La respuesta de ", "la red no fue ex", "itosa. Código: ";
    assert Text.Lacks(a, 'F') && Text.Lacks(a, 'N');
    assert Text.Lacks(b, 'F') && Text.Lacks(b, 'N');
    assert Text.Lacks(c, 'F') && Text.Lacks(c, 'N');
    Text.LacksConcat(a, b, 'F');
    Text.LacksConcat(a + b, c, 'F');
    Text.LacksConcat(a, b, 'N');
    Text.LacksConcat(a + b, c, 'N');
  }

  /** The end of one `cargarInvitados(retryCount)` chain: the list that was
      stored and drawn, or the error text shown with the reload button. */
  datatype AppLoad<T> = AppLoad(data: Option<seq<T>>, errorText: Option<string>, counter: Option<string>, fetches: nat)

  /** An attempt as the chain's `.catch` sees it. Drawing an ok body
      (`mostrarInvitados` and `actualizarContador`) runs inside the chain,
      so when `render` says it threw, the attempt fails with that error's
      message like a failed fetch. */
  function Drawn<T>(outcome: nat -> Api.Response<seq<T>>, render: seq<T> -> Option<string>): (d: nat -> Api.Response<seq<T>>)
    ensures forall k :: outcome(k).Ok? && render(outcome(k).body).None? ==> d(k) == outcome(k)
    ensures forall k :: outcome(k).Ok? && render(outcome(k).body).Some? ==> d(k) == Api.Rejected(render(outcome(k).body).value)
    ensures forall k :: !outcome(k).Ok? ==> d(k) == outcome(k)
  {
    (k: nat) => if outcome(k).Ok? && render(outcome(k).body).Some? then Api.Rejected(render(outcome(k).body).value) else outcome(k)
  }

  /** `cargarInvitados(retryCount)`: on a failure while `retryCount` is below
      5 a new chain starts with one more; past that the error view shows.
      A failure is a failed fetch, a non-ok status, a body that does not
      parse, or an error thrown while drawing the list. A list drawn
      without error is stored and counted whole. */
  function CargarInvitados<T>(outcome: nat -> Api.Response<seq<T>>, render: seq<T> -> Option<string>, retryCount: nat): (l: AppLoad<T>)
    ensures var a := Api.Retry(Drawn(outcome, render), retryCount, Api.MaxRetries, NotOkMessage);
            && l.fetches == a.fetches
            && (l.data.Some? <==> a.reply.Resolved?)
            && (l.data.Some? ==> l.data.value == a.reply.value && l.errorText.None? &&
                                 l.counter == Some(Roster.CounterText(|a.reply.value|)))
            && (l.data.None? ==> l.errorText == Some(Roster.ErrorText(a.reply.message)) && l.counter.None?)
    ensures l.data.Some? ==> render(l.data.value).None?
  {
    var a := Api.Retry(Drawn(outcome, render), retryCount, Api.MaxRetries, NotOkMessage);
    match a.reply
    case Resolved(gs) => AppLoad(Some(gs), None, Some(Roster.CounterText(|gs|)), a.fetches)
    case Thrown(m) => AppLoad(None, Some(Roster.ErrorText(m)), None, a.fetches)
  }

  /** The reload button starts a fresh chain at 0, so each load makes at
      most six fetches, and a failed one makes exactly six. */
  lemma ReloadRestartsBudget<T>(outcome: nat -> Api.Response<seq<T>>, render: seq<T> -> Option<string>)
    ensures 1 <= CargarInvitados(outcome, render, 0).fetches <= Api.MaxRetries + 1
    ensures CargarInvitados(outcome, render, 0).data.None? ==> CargarInvitados(outcome, render, 0).fetches == Api.MaxRetries + 1
  {
  }

  /** A load that ends in HTTP errors shows the status message without the
      connection hint. */
  lemma HttpFailureHasNoHint<T>(outcome: nat -> Api.Response<seq<T>>, render: seq<T> -> Option<string>)
    requires forall k :: 0 <= k <= Api.MaxRetries ==> outcome(k).HttpError?
    ensures CargarInvitados(outcome, render, 0).errorText ==
              Some(Roster.ErrorPrefix + NotOkMessage(outcome(Api.MaxRetries).status))
  {
    var m := NotOkMessage(outcome(Api.MaxRetries).status);
    var digits := Text.IntToString(outcome(Api.MaxRetries).status);
    assert m == NotOkPrefix + digits;
    NotOkPrefixHasNoCapitals();
    Text.LacksConcat(NotOkPrefix, digits, 'F');
    Text.LacksConcat(NotOkPrefix, digits, 'N');
    Roster.NoHintWithoutCapitals(m);
  }

  /** The first attempt within the budget whose list is fetched and drawn
      without error is the one stored. */
  lemma FirstOkIsStored<T>(outcome: nat -> Api.Response<seq<T>>, render: seq<T> -> Option<string>, k: nat)
    requires k <= Api.MaxRetries && outcome(k).Ok? && render(outcome(k).body).None?
    requires forall j :: 0 <= j < k ==> !outcome(j).Ok? || render(outcome(j).body).Some?
    ensures CargarInvitados(outcome, render, 0).data == Some(outcome(k).body)
    ensures CargarInvitados(outcome, render, 0).fetches == k + 1
  {
    var d := Drawn(outcome, render);
    forall j | 0 <= j < k
      ensures !d(j).Ok?
    {
    }
    Api.RetryFindsFirstOk(d, 0, Api.MaxRetries, NotOkMessage, k);
  }

  /** An ok body whose drawing throws is fetched again: when the second
      list draws, it is the one stored. */
  lemma RenderErrorIsRetried<T>(outcome: nat -> Api.Response<seq<T>>, render: seq<T> -> Option<string>)
    requires outcome(0).Ok? && render(outcome(0).body).Some?
    requires outcome(1).Ok? && render(outcome(1).body).None?
    ensures CargarInvitados(outcome, render, 0).data == Some(outcome(1).body)
    ensures CargarInvitados(outcome, render, 0).fetches == 2
  {
    FirstOkIsStored(outcome, render, 1);
  }

  /** When every fetched list throws while drawn, the load gives up after
      six fetches and shows the last drawing error. */
  lemma RenderErrorsExhaustBudget<T>(outcome: nat -> Api.Response<seq<T>>, render: seq<T> -> Option<string>)
    requires forall k :: 0 <= k <= Api.MaxRetries ==> outcome(k).Ok? && render(outcome(k).body).Some?
    ensures var l := CargarInvitados(outcome, render, 0);
            && l.data.None? && l.fetches == Api.MaxRetries + 1
            && l.errorText == Some(Roster.ErrorText(render(outcome(Api.MaxRetries).body).value))
  {
    var d := Drawn(outcome, render);
    forall k | 0 <= k <= Api.MaxRetries
      ensures !d(k).Ok?
    {
    }
  }

  /** One rendered position: the cargo or "N/A", the organisation or "N/A". */
  datatype PuestoLine = PuestoLine(cargo: Value, organizacion: Value)

  const NotAvailable: string := "N/A"

  function ShowPuesto(p: Puesto): (l: PuestoLine)
    ensures Truthy(p.cargo) ==> l.cargo == p.cargo
    ensures !Truthy(p.cargo) ==> l.cargo == Str(NotAvailable)
    ensures Truthy(p.organizacion) ==> l.organizacion == p.organizacion
    ensures !Truthy(p.organizacion) ==> l.organizacion == Str(NotAvailable)
  {
    PuestoLine(Or(p.cargo, Str(NotAvailable)), Or(p.organizacion, Str(NotAvailable)))
  }

  /** The lines of the occupied entries, in order. */
  function Lines(ps: seq<Puesto>): (r: seq<PuestoLine>)
    ensures |r| == |Seqs.Filter(ps, Occupied)|
    ensures forall i :: 0 <= i < |r| ==> r[i] == ShowPuesto(Seqs.Filter(ps, Occupied)[i])
  {
    if ps == [] then []
    else if Occupied(ps[0]) then [ShowPuesto(ps[0])] + Lines(ps[1..])
    else Lines(ps[1..])
  }

  /** The `puestos` block of a card: absent without a non-empty list;
      otherwise a line for each entry with a cargo or an organisation. */
  function RenderPuestos(puestos: Option<seq<Puesto>>): (r: Option<seq<PuestoLine>>)
    ensures r.None? <==> puestos.None? || puestos.value == []
    ensures r.Some? ==> r.value == Lines(puestos.value)
  {
    if puestos.Some? && puestos.value != [] then Some(Lines(puestos.value)) else None
  }

  /** Every position the backend reports is drawn, and none reads "N/A"
      on both halves. */
  lemma BackendPuestosAllRendered(inv: Backend.Invitado)
    ensures var d := Backend.ToDict(inv);
            var r := RenderPuestos(d.puestos);
            && (r.None? <==> d.puestos.None?)
            && (r.Some? ==> (|r.value| == |d.puestos.value| &&
                  forall i :: 0 <= i < |r.value| ==> r.value[i] == ShowPuesto(d.puestos.value[i])))
  {
    var d := Backend.ToDict(inv);
    if d.puestos.Some? {
      Seqs.FilterIdempotent(inv.Slots(), Occupied);
    }
  }

  /** A card of app.js. */
  datatype AppCard = AppCard(id: int, nombre: Value, badges: seq<Roster.Badge>, puestos: Option<seq<PuestoLine>>)

  /** `crearCardInvitado` of app.js, given the guest's `puestos` list. */
  function CrearCard(g: Roster.Guest, puestos: Option<seq<Puesto>>): (c: AppCard)
    ensures c.id == g.id && c.nombre == Get(g.fields, "nombre_completo")
    ensures c.badges == Roster.RoleBadges(g) && c.puestos == RenderPuestos(puestos)
  {
    AppCard(g.id, Get(g.fields, "nombre_completo"), Roster.RoleBadges(g), RenderPuestos(puestos))
  }

  const CreatedNotice: string := "✅ Invitado agregado correctamente"
  const CreateErrorPrefix: string := "❌ Error al agregar invitado: "
  const CreateFailed: string := "Error al crear el invitado"
  const DeleteFailed: string := "Error al eliminar el invitado"

  /** What the create or delete handler did: its requests, whether it reset
      the form and reloaded the list, and the notification. */
  datatype Handled = Handled(requests: seq<Api.Request>, payload: Option<Dict>, resets: bool, reloads: bool, notice: Option<string>)

  /** The text of a failed fetch: the fixed message for a non-ok status,
      the rejection's own message otherwise. */
  function Failure<T>(resp: Api.Response<T>, notOk: string): string {
    match resp
    case Ok(_) => ""
    case HttpError(_) => notOk
    case Rejected(m) => m
  }

  /** The submit handler: POST the normalised payload; a success resets the
      form, reloads and notifies; a failure only notifies. */
  function SubmitCreate<T>(entries: seq<Form.Entry>, resp: Api.Response<T>): (h: Handled)
    ensures h.requests == [Api.Request(Api.POST, Api.InvitadosUrl(), true)]
    ensures h.payload == Some(NormaliseForm(entries))
    ensures h.resets <==> resp.Ok?
    ensures h.reloads <==> resp.Ok?
    ensures resp.Ok? ==> h.notice == Some(CreatedNotice)
    ensures resp.HttpError? ==> h.notice == Some(CreateErrorPrefix + CreateFailed)
    ensures resp.Rejected? ==> h.notice == Some(CreateErrorPrefix + resp.message)
  {
    var req := Api.Request(Api.POST, Api.InvitadosUrl(), true);
    if resp.Ok? then Handled([req], Some(NormaliseForm(entries)), true, true, Some(CreatedNotice))
    else Handled([req], Some(NormaliseForm(entries)), false, false, Some(CreateErrorPrefix + Failure(resp, CreateFailed)))
  }

  const DeletedNotice: string := "✅ Invitado eliminado correctamente"
  const DeleteErrorPrefix: string := "❌ Error al eliminar invitado: "

  /** `eliminarInvitado` of app.js: nothing without confirmation; otherwise
      one DELETE, then a reload and a notice. */
  function Eliminar<T>(confirmed: bool, id: int, resp: Api.Response<T>): (h: Handled)
    ensures !confirmed ==> h == Handled([], None, false, false, None)
    ensures confirmed ==> h.requests == [Api.Request(Api.DELETE, Api.RecordUrl(id), false)] && !h.resets
    ensures confirmed ==> (h.reloads <==> resp.Ok?)
    ensures confirmed && resp.Ok? ==> h.notice == Some(DeletedNotice)
    ensures confirmed && resp.HttpError? ==> h.notice == Some(DeleteErrorPrefix + DeleteFailed)
    ensures confirmed && resp.Rejected? ==> h.notice == Some(DeleteErrorPrefix + resp.message)
  {
    if !confirmed then Handled([], None, false, false, None)
    else
      var req := Api.Request(Api.DELETE, Api.RecordUrl(id), false);
      if resp.Ok? then Handled([req], None, false, true, Some(DeletedNotice))
      else Handled([req], None, false, false, Some(DeleteErrorPrefix + Failure(resp, DeleteFailed)))
  }

  /** A confirmed delete of app.js addresses exactly the clicked guest: two
      clicks send the same request iff they name the same id. */
  lemma EliminarTargetsClickedGuest<T>(m: int, n: int, rm: Api.Response<T>, rn: Api.Response<T>)
    ensures Eliminar(true, m, rm).requests == Eliminar(true, n, rn).requests <==> m == n
  {
    Api.RecordUrlsDistinct(m, n);
  }

  /** Whatever status the server answers, app.js shows the same create
      error, so two different statuses are indistinguishable to the user. */
  lemma StatusNotShown<T>(entries: seq<Form.Entry>, s1: int, s2: int)
    ensures SubmitCreate<T>(entries, Api.HttpError(s1)).notice == SubmitCreate<T>(entries, Api.HttpError(s2)).notice
  {
  }
}

=== FILE: backend.dfy ===
/** The guest record rules of the Flask backend (backend/main.py): the jury
    flag truth table, the JSON projection of a record, create-time validation,
    partial updates and the role routes. The SQLite table is a map from id to
    record. A text column keeps the string or null the client sent; a JSON
    boolean sent for one is committed as the integer 1 or 0, which the
    column's TEXT affinity stores as "1" or "0", and the reply reloads that.
    The four flags are always stored as booleans. */
module Backend {
  import opened Json
  import Seqs

  datatype Invitado = Invitado(
    id: int,
    nombreCompleto: Value,
    caracterInvitacion: Value,
    nota: Value,
    puesto1: Puesto,   // cargo_1 / organizacion_1
    puesto2: Puesto,
    puesto3: Puesto,
    puesto4: Puesto,
    esAsesorT1: bool,
    esAsesorT2: bool,
    juradoProtocolo: bool,
    juradoInforme: bool)
  {
    /** The four `cargo_i`/`organizacion_i` column pairs, slot 1 first. */
    function Slots(): (r: seq<Puesto>)
      ensures |r| == 4
    {
      [puesto1, puesto2, puesto3, puesto4]
    }

    /** `getattr(self, f'cargo_{i}')` paired with `organizacion_{i}`. */
    function Slot(i: int): (p: Puesto)
      requires 1 <= i <= 4
      ensures p == Slots()[i - 1]
    {
      if i == 1 then puesto1 else if i == 2 then puesto2 else if i == 3 then puesto3 else puesto4
    }
  }

  type Store = map<int, Invitado>

  /** The jury flags agree with the advisor flags: an advisor of a phase may
      not judge it. */
  predicate JuryConsistent(inv: Invitado) {
    inv.juradoProtocolo == !inv.esAsesorT1 && inv.juradoInforme == !inv.esAsesorT2
  }

  /** `Invitado.compute_jurado_flags`, the four-row truth table over the
      advisor flags. */
  function ComputeJuradoFlags(inv: Invitado): (r: Invitado)
    ensures r.juradoProtocolo == !inv.esAsesorT1
    ensures r.juradoInforme == !inv.esAsesorT2
    ensures r == inv.(juradoProtocolo := r.juradoProtocolo, juradoInforme := r.juradoInforme)
    ensures JuryConsistent(inv) ==> r == inv
  {
    var a := inv.esAsesorT1;
    var b := inv.esAsesorT2;
    if !a && !b then inv.(juradoProtocolo := true, juradoInforme := true)
    else if a && !b then inv.(juradoProtocolo := false, juradoInforme := true)
    else if !a && b then inv.(juradoProtocolo := true, juradoInforme := false)
    else inv.(juradoProtocolo := false, juradoInforme := false)
  }

  /** Recomputing the jury flags a second time changes nothing. */
  lemma ComputeJuradoFlagsIdempotent(inv: Invitado)
    ensures ComputeJuradoFlags(ComputeJuradoFlags(inv)) == ComputeJuradoFlags(inv)
  {
  }

  /** The dictionary `to_dict` returns; `puestos == None` means the key is absent. */
  datatype InvitadoDict = InvitadoDict(
    id: int,
    nombreCompleto: Value,
    caracterInvitacion: Value,
    nota: Value,
    puestos: Option<seq<Puesto>>,
    esAsesorT1: bool,
    esAsesorT2: bool,
    juradoProtocolo: bool,
    juradoInforme: bool)

  /** The `for i in range(i, 5)` loop of `to_dict`, from slot `i` on. */
  function CollectPuestos(inv: Invitado, i: int): (r: seq<Puesto>)
    requires 1 <= i <= 5
    ensures r == Seqs.Filter(inv.Slots()[i - 1..], Occupied)
    decreases 5 - i
  {
    if i == 5 then []
    else
      var rest := CollectPuestos(inv, i + 1);
      assert inv.Slots()[i - 1..][1..] == inv.Slots()[i..];
      if Occupied(inv.Slot(i)) then [inv.Slot(i)] + rest else rest
  }

  /** `Invitado.to_dict`: the stored fields, the occupied position slots in
      slot order (key omitted when there are none), and jury flags recomputed
      from the advisor flags whatever was stored. */
  function ToDict(inv: Invitado): (d: InvitadoDict)
    ensures d.id == inv.id && d.nombreCompleto == inv.nombreCompleto
    ensures d.caracterInvitacion == inv.caracterInvitacion && d.nota == inv.nota
    ensures d.puestos == None <==> forall i :: 0 <= i < 4 ==> !Occupied(inv.Slots()[i])
    ensures d.puestos.Some? ==> d.puestos.value == Seqs.Filter(inv.Slots(), Occupied)
    ensures d.puestos.Some? ==> 1 <= |d.puestos.value| <= 4
    ensures d.esAsesorT1 == inv.esAsesorT1 && d.esAsesorT2 == inv.esAsesorT2
    ensures d.juradoProtocolo == !inv.esAsesorT1 && d.juradoInforme == !inv.esAsesorT2
  {
    var puestos := CollectPuestos(inv, 1);
    assert inv.Slots()[0..] == inv.Slots();
    var j := ComputeJuradoFlags(inv);
    InvitadoDict(inv.id, inv.nombreCompleto, inv.caracterInvitacion, inv.nota,
                 if |puestos| > 0 then Some(puestos) else None,
                 inv.esAsesorT1, inv.esAsesorT2, j.juradoProtocolo, j.juradoInforme)
  }

  /** Slot `i` appears in the `puestos` list exactly when one of its halves is
      truthy, and every listed entry is an occupied slot. */
  lemma ToDictListsOccupiedSlots(inv: Invitado, i: int)
    requires 1 <= i <= 4
    ensures var d := ToDict(inv);
            Occupied(inv.Slot(i)) <==> d.puestos.Some? && inv.Slot(i) in d.puestos.value
    ensures var d := ToDict(inv);
            d.puestos.Some? ==> forall p :: p in d.puestos.value ==> Occupied(p) && p in inv.Slots()
  {
    assert inv.Slot(i) in inv.Slots();
  }

  /** HTTP reply bodies of the guest routes. */
  datatype Body =
    | Record(record: InvitadoDict)
    | Records(records: map<int, InvitadoDict>)
    | ErrorMessage(message: string)
    | NotFound
    | Deleted
    | CommitFailed

  /** The store after the request, the HTTP status and the reply body. */
  datatype Outcome = Outcome(store: Store, status: int, body: Body)

  const NombreRequerido: string := "nombre_completo es requerido"
  const CaracterRequerido: string := "caracter_invitacion es requerido"

  /** Which of the four position slots a `cargo_i`/`organizacion_i` column belongs to. */
  datatype SlotNo = S1 | S2 | S3 | S4

  /** A text column of the `invitado` table. */
  datatype Column = NombreCompleto | CaracterInvitacion | Nota | Cargo(slot: SlotNo) | Organizacion(slot: SlotNo)

  /** The payload key (and column name) of a text column. */
  function ColumnName(c: Column): string {
    match c
    case NombreCompleto => "nombre_completo"
    case CaracterInvitacion => "caracter_invitacion"
    case Nota => "nota"
    case Cargo(s) => "cargo_" + SlotDigit(s)
    case Organizacion(s) => "organizacion_" + SlotDigit(s)
  }

  function SlotDigit(s: SlotNo): string {
    match s
    case S1 => "1"
    case S2 => "2"
    case S3 => "3"
    case S4 => "4"
  }

  /** The text columns in the order `update_invitado` tests their keys. */
  const TextColumns: seq<Column> := [
    NombreCompleto, CaracterInvitacion, Nota,
    Cargo(S1), Organizacion(S1), Cargo(S2), Organizacion(S2),
    Cargo(S3), Organizacion(S3), Cargo(S4), Organizacion(S4)]

  lemma TextColumnsComplete(c: Column)
    ensures c in TextColumns
  {
    match c
    case Cargo(s) => assert s == S1 || s == S2 || s == S3 || s == S4;
    case Organizacion(s) => assert s == S1 || s == S2 || s == S3 || s == S4;
    case _ =>
  }

  function SlotOf(inv: Invitado, s: SlotNo): Puesto {
    match s
    case S1 => inv.puesto1
    case S2 => inv.puesto2
    case S3 => inv.puesto3
    case S4 => inv.puesto4
  }

  /** The value stored in a text column. */
  function TextField(inv: Invitado, c: Column): Value {
    match c
    case NombreCompleto => inv.nombreCompleto
    case CaracterInvitacion => inv.caracterInvitacion
    case Nota => inv.nota
    case Cargo(s) => SlotOf(inv, s).cargo
    case Organizacion(s) => SlotOf(inv, s).organizacion
  }

  /** Records that agree on the text columns agree on every `TextField`. */
  lemma SameText(a: Invitado, b: Invitado)
    requires a.nombreCompleto == b.nombreCompleto && a.caracterInvitacion == b.caracterInvitacion && a.nota == b.nota
    requires a.puesto1 == b.puesto1 && a.puesto2 == b.puesto2 && a.puesto3 == b.puesto3 && a.puesto4 == b.puesto4
    ensures forall c :: TextField(a, c) == TextField(b, c)
  {
    forall c ensures TextField(a, c) == TextField(b, c) {
      match c
      case Cargo(s) =>
      case Organizacion(s) =>
      case _ =>
    }
  }

  function WithSlot(inv: Invitado, s: SlotNo, p: Puesto): (r: Invitado)
    ensures forall s' :: SlotOf(r, s') == if s' == s then p else SlotOf(inv, s')
    ensures r == inv.(puesto1 := r.puesto1, puesto2 := r.puesto2, puesto3 := r.puesto3, puesto4 := r.puesto4)
  {
    match s
    case S1 => inv.(puesto1 := p)
    case S2 => inv.(puesto2 := p)
    case S3 => inv.(puesto3 := p)
    case S4 => inv.(puesto4 := p)
  }

  /** `setattr(invitado, column, v)` for one text column. */
  function SetTextField(inv: Invitado, c: Column, v: Value): (r: Invitado)
    ensures forall c' :: TextField(r, c') == if c' == c then v else TextField(inv, c')
    ensures r.id == inv.id
    ensures r.esAsesorT1 == inv.esAsesorT1 && r.esAsesorT2 == inv.esAsesorT2
    ensures r.juradoProtocolo == inv.juradoProtocolo && r.juradoInforme == inv.juradoInforme
  {
    match c
    case NombreCompleto => inv.(nombreCompleto := v)
    case CaracterInvitacion => inv.(caracterInvitacion := v)
    case Nota => inv.(nota := v)
    case Cargo(s) => WithSlot(inv, s, SlotOf(inv, s).(cargo := v))
    case Organizacion(s) => WithSlot(inv, s, SlotOf(inv, s).(organizacion := v))
  }

  /** The `if key in data: setattr(...)` chain over `cols`. */
  function MergeText(inv: Invitado, data: Dict, cols: seq<Column>): (r: Invitado)
    ensures forall c :: TextField(r, c) ==
              if c in cols && ColumnName(c) in data then data[ColumnName(c)] else TextField(inv, c)
    ensures r.id == inv.id
    ensures r.esAsesorT1 == inv.esAsesorT1 && r.esAsesorT2 == inv.esAsesorT2
    ensures r.juradoProtocolo == inv.juradoProtocolo && r.juradoInforme == inv.juradoInforme
    decreases |cols|
  {
    if |cols| == 0 then inv
    else
      var c := cols[|cols| - 1];
      var prev := MergeText(inv, data, cols[..|cols| - 1]);
      assert forall c' :: c' in cols <==> c' in cols[..|cols| - 1] || c' == c by {
        assert cols == cols[..|cols| - 1] + [c];
      }
      if ColumnName(c) in data then SetTextField(prev, c, data[ColumnName(c)]) else prev
  }

  /** SQLite's TEXT affinity on a value written to a text column: Python
      hands a boolean over as the integer 1 or 0, and the column stores its
      decimal text. Strings and null are stored as they are. */
  function TextAffinity(v: Value): (r: Value)
    ensures !r.Bool?
    ensures v.Bool? ==> r.Str? && r.s == (if v.b then "1" else "0")
    ensures !v.Bool? ==> r == v
  {
    match v
    case Bool(b) => Str(if b then "1" else "0")
    case _ => v
  }

  /** Every text column holds a string or null, as a committed row does. */
  ghost predicate Committed(inv: Invitado) {
    forall c :: !TextField(inv, c).Bool?
  }

  /** `db.session.commit()` followed by the reload `to_dict` triggers: every
      text column passes through TEXT affinity; id and flags are kept. */
  function Commit(inv: Invitado): (r: Invitado)
    ensures forall c :: TextField(r, c) == TextAffinity(TextField(inv, c))
    ensures Committed(r)
    ensures r.id == inv.id
    ensures r.esAsesorT1 == inv.esAsesorT1 && r.esAsesorT2 == inv.esAsesorT2
    ensures r.juradoProtocolo == inv.juradoProtocolo && r.juradoInforme == inv.juradoInforme
  {
    var p1, p2, p3, p4 := inv.puesto1, inv.puesto2, inv.puesto3, inv.puesto4;
    var r := inv.(
      nombreCompleto := TextAffinity(inv.nombreCompleto),
      caracterInvitacion := TextAffinity(inv.caracterInvitacion),
      nota := TextAffinity(inv.nota),
      puesto1 := Puesto(TextAffinity(p1.cargo), TextAffinity(p1.organizacion)),
      puesto2 := Puesto(TextAffinity(p2.cargo), TextAffinity(p2.organizacion)),
      puesto3 := Puesto(TextAffinity(p3.cargo), TextAffinity(p3.organizacion)),
      puesto4 := Puesto(TextAffinity(p4.cargo), TextAffinity(p4.organizacion)));
    assert forall c :: TextField(r, c) == TextAffinity(TextField(inv, c)) by { AffinityFieldwise(inv, r); }
    r
  }

  /** Column by column, `r` holds `inv`'s text values after TEXT affinity. */
  lemma AffinityFieldwise(inv: Invitado, r: Invitado)
    requires r.nombreCompleto == TextAffinity(inv.nombreCompleto)
    requires r.caracterInvitacion == TextAffinity(inv.caracterInvitacion) && r.nota == TextAffinity(inv.nota)
    requires r.puesto1 == Puesto(TextAffinity(inv.puesto1.cargo), TextAffinity(inv.puesto1.organizacion))
    requires r.puesto2 == Puesto(TextAffinity(inv.puesto2.cargo), TextAffinity(inv.puesto2.organizacion))
    requires r.puesto3 == Puesto(TextAffinity(inv.puesto3.cargo), TextAffinity(inv.puesto3.organizacion))
    requires r.puesto4 == Puesto(TextAffinity(inv.puesto4.cargo), TextAffinity(inv.puesto4.organizacion))
    ensures forall c :: TextField(r, c) == TextAffinity(TextField(inv, c))
  {
    forall c ensures TextField(r, c) == TextAffinity(TextField(inv, c)) {
      match c
      case Cargo(s) =>
      case Organizacion(s) =>
      case _ =>
    }
  }

  /** Committing a committed row changes nothing. */
  lemma CommitKeepsCommitted(inv: Invitado)
    requires Committed(inv)
    ensures Commit(inv) == inv
  {
    var r := Commit(inv);
    forall c ensures TextField(r, c) == TextField(inv, c) {
      assert !TextField(inv, c).Bool?;
    }
    SameTextBack(r, inv);
  }

  /** Records that agree on every `TextField` and on the other fields are equal. */
  lemma SameTextBack(a: Invitado, b: Invitado)
    requires forall c :: TextField(a, c) == TextField(b, c)
    requires a.id == b.id && a.esAsesorT1 == b.esAsesorT1 && a.esAsesorT2 == b.esAsesorT2
    requires a.juradoProtocolo == b.juradoProtocolo && a.juradoInforme == b.juradoInforme
    ensures a == b
  {
    assert TextField(a, NombreCompleto) == TextField(b, NombreCompleto);
    assert TextField(a, CaracterInvitacion) == TextField(b, CaracterInvitacion);
    assert TextField(a, Nota) == TextField(b, Nota);
    assert TextField(a, Cargo(S1)) == TextField(b, Cargo(S1)) && TextField(a, Organizacion(S1)) == TextField(b, Organizacion(S1));
    assert TextField(a, Cargo(S2)) == TextField(b, Cargo(S2)) && TextField(a, Organizacion(S2)) == TextField(b, Organizacion(S2));
    assert TextField(a, Cargo(S3)) == TextField(b, Cargo(S3)) && TextField(a, Organizacion(S3)) == TextField(b, Organizacion(S3));
    assert TextField(a, Cargo(S4)) == TextField(b, Cargo(S4)) && TextField(a, Organizacion(S4)) == TextField(b, Organizacion(S4));
  }

  /** A boolean sent for a text column comes back as text that is always
      truthy: `false` in `cargo_1` is stored as "0" and lists a position. */
  lemma FalseCargoIsListed(store: Store, newId: int)
    requires newId !in store
    ensures var data := map["nombre_completo" := Str("A"), "caracter_invitacion" := Str("B"), "cargo_1" := Bool(false)];
            var o := CreateInvitado(store, data, newId);
            && o.status == 201
            && o.store[newId].puesto1 == Puesto(Str("0"), Null)
            && o.body.Record? && o.body.record.puestos == Some([Puesto(Str("0"), Null)])
  {
    var data := map["nombre_completo" := Str("A"), "caracter_invitacion" := Str("B"), "cargo_1" := Bool(false)];
    var inv := NewInvitado(data, newId);
    assert ColumnName(Cargo(S1)) == "cargo_1";
    assert ColumnName(Organizacion(S1)) == "organizacion_1";
    assert TextField(inv, Cargo(S1)) == Bool(false);
    assert "organizacion_1" !in data;
    assert TextField(inv, Organizacion(S1)) == Null;
    assert "cargo_2" !in data && "organizacion_2" !in data && "cargo_3" !in data;
    assert "organizacion_3" !in data && "cargo_4" !in data && "organizacion_4" !in data;
    assert ColumnName(Cargo(S2)) == "cargo_2" && ColumnName(Organizacion(S2)) == "organizacion_2";
    assert ColumnName(Cargo(S3)) == "cargo_3" && ColumnName(Organizacion(S3)) == "organizacion_3";
    assert ColumnName(Cargo(S4)) == "cargo_4" && ColumnName(Organizacion(S4)) == "organizacion_4";
    var c := Commit(inv);
    assert TextField(c, Cargo(S1)) == Str("0");
    assert TextField(c, Organizacion(S1)) == Null;
    assert TextField(c, Cargo(S2)) == Null && TextField(c, Organizacion(S2)) == Null;
    assert TextField(c, Cargo(S3)) == Null && TextField(c, Organizacion(S3)) == Null;
    assert TextField(c, Cargo(S4)) == Null && TextField(c, Organizacion(S4)) == Null;
    assert c.Slots() == [Puesto(Str("0"), Null), Puesto(Null, Null), Puesto(Null, Null), Puesto(Null, Null)];
    var sl := c.Slots();
    assert Seqs.Filter(sl[3..], Occupied) == [];
    assert Seqs.Filter(sl[2..], Occupied) == [];
    assert Seqs.Filter(sl[1..], Occupied) == [];
    assert Seqs.Filter(sl, Occupied) == [sl[0]];
  }

  /** The row `create_invitado` builds from a validated payload: text columns
      copied from their keys, advisor flags `bool(data.get(k, False))`, jury
      flags computed before the insert. */
  function NewInvitado(data: Dict, newId: int): (inv: Invitado)
    ensures inv.id == newId
    ensures forall c :: TextField(inv, c) == Get(data, ColumnName(c))
    ensures inv.esAsesorT1 == Truthy(Get(data, "es_asesor_t1"))
    ensures inv.esAsesorT2 == Truthy(Get(data, "es_asesor_t2"))
    ensures JuryConsistent(inv)
  {
    var inv := Invitado(
      newId, Get(data, "nombre_completo"), Get(data, "caracter_invitacion"), Get(data, "nota"),
      Puesto(Get(data, ColumnName(Cargo(S1))), Get(data, ColumnName(Organizacion(S1)))),
      Puesto(Get(data, ColumnName(Cargo(S2))), Get(data, ColumnName(Organizacion(S2)))),
      Puesto(Get(data, ColumnName(Cargo(S3))), Get(data, ColumnName(Organizacion(S3)))),
      Puesto(Get(data, ColumnName(Cargo(S4))), Get(data, ColumnName(Organizacion(S4)))),
      Truthy(GetOr(data, "es_asesor_t1", Bool(false))),
      Truthy(GetOr(data, "es_asesor_t2", Bool(false))),
      false, false);
    ComputeJuradoFlags(inv)
  }

  /** `create_invitado`: a falsy `nombre_completo` is rejected first, then a
      falsy `caracter_invitacion`, both with 400 and nothing stored; otherwise
      the new row is stored under `newId` (the row id SQLite assigns) and
      returned with 201. */
  function CreateInvitado(store: Store, data: Dict, newId: int): (o: Outcome)
    requires newId !in store
    ensures !Truthy(Get(data, "nombre_completo")) ==>
              o == Outcome(store, 400, ErrorMessage(NombreRequerido))
    ensures Truthy(Get(data, "nombre_completo")) && !Truthy(Get(data, "caracter_invitacion")) ==>
              o == Outcome(store, 400, ErrorMessage(CaracterRequerido))
    ensures Truthy(Get(data, "nombre_completo")) && Truthy(Get(data, "caracter_invitacion")) ==>
              var inv := Commit(NewInvitado(data, newId));
              o == Outcome(store[newId := inv], 201, Record(ToDict(inv)))
  {
    var nombre := Get(data, "nombre_completo");
    var caracter := Get(data, "caracter_invitacion");
    if !Truthy(nombre) then Outcome(store, 400, ErrorMessage(NombreRequerido))
    else if !Truthy(caracter) then Outcome(store, 400, ErrorMessage(CaracterRequerido))
    else
      var inv := Commit(NewInvitado(data, newId));
      Outcome(store[newId := inv], 201, Record(ToDict(inv)))
  }

  /** A created record never has null NOT NULL columns, keeps every other
      record, and reports advisor flags that default to false. */
  lemma CreatedRecordShape(store: Store, data: Dict, newId: int)
    requires newId !in store
    ensures var o := CreateInvitado(store, data, newId);
            o.status == 201 ==>
              && o.store.Keys == store.Keys + {newId}
              && (forall k :: k in store ==> o.store[k] == store[k])
              && Truthy(o.store[newId].nombreCompleto) && Truthy(o.store[newId].caracterInvitacion)
              && ("es_asesor_t1" !in data ==> !o.store[newId].esAsesorT1 && o.store[newId].juradoProtocolo)
              && ("es_asesor_t2" !in data ==> !o.store[newId].esAsesorT2 && o.store[newId].juradoInforme)
  {
    var inv := NewInvitado(data, newId);
    var c := Commit(inv);
    assert TextField(inv, NombreCompleto) == inv.nombreCompleto;
    assert TextField(inv, CaracterInvitacion) == inv.caracterInvitacion;
    assert TextField(c, NombreCompleto) == TextAffinity(inv.nombreCompleto);
    assert TextField(c, CaracterInvitacion) == TextAffinity(inv.caracterInvitacion);
    assert ColumnName(NombreCompleto) == "nombre_completo";
    assert ColumnName(CaracterInvitacion) == "caracter_invitacion";
  }

  /** The field assignments of `update_invitado` followed by the jury
      recomputation: a column or advisor flag changes exactly when its key is
      in the payload. */
  function ApplyUpdate(inv: Invitado, data: Dict): (r: Invitado)
    ensures r.id == inv.id
    ensures forall c :: TextField(r, c) ==
              if ColumnName(c) in data then data[ColumnName(c)] else TextField(inv, c)
    ensures r.esAsesorT1 == if "es_asesor_t1" in data then Truthy(data["es_asesor_t1"]) else inv.esAsesorT1
    ensures r.esAsesorT2 == if "es_asesor_t2" in data then Truthy(data["es_asesor_t2"]) else inv.esAsesorT2
    ensures JuryConsistent(r)
  {
    var merged := MergeText(inv, data, TextColumns);
    assert forall c :: c in TextColumns by { forall c { TextColumnsComplete(c); } }
    var t1 := if "es_asesor_t1" in data then merged.(esAsesorT1 := Truthy(Get(data, "es_asesor_t1"))) else merged;
    var t2 := if "es_asesor_t2" in data then t1.(esAsesorT2 := Truthy(Get(data, "es_asesor_t2"))) else t1;
    var r := ComputeJuradoFlags(t2);
    assert forall c :: TextField(r, c) == TextField(merged, c) by { SameText(r, merged); }
    r
  }

  /** `update_invitado`: an unknown id is a 404; otherwise the payload is
      applied, and the commit fails (500, nothing stored) when a NOT NULL
      column became null. */
  function UpdateInvitado(store: Store, id: int, data: Dict): (o: Outcome)
    ensures id !in store ==> o == Outcome(store, 404, NotFound)
    ensures id in store ==>
              var inv := ApplyUpdate(store[id], data);
              if inv.nombreCompleto == Null || inv.caracterInvitacion == Null
              then o == Outcome(store, 500, CommitFailed)
              else o == Outcome(store[id := Commit(inv)], 200, Record(ToDict(Commit(inv))))
  {
    if id !in store then Outcome(store, 404, NotFound)
    else
      var updated := ApplyUpdate(store[id], data);
      if updated.nombreCompleto == Null || updated.caracterInvitacion == Null then
        Outcome(store, 500, CommitFailed)
      else
        var stored := Commit(updated);
        Outcome(store[id := stored], 200, Record(ToDict(stored)))
  }

  /** A successful update leaves every other record, and the record's id,
      as it was; a column whose key is in the payload holds the sent value
      after TEXT affinity, and every other column of a committed row keeps
      its value. */
  lemma UpdateChangesOnlyPayloadKeys(store: Store, id: int, data: Dict)
    requires id in store
    ensures var o := UpdateInvitado(store, id, data);
            o.status == 200 ==>
              && o.store.Keys == store.Keys
              && (forall k :: k in store && k != id ==> o.store[k] == store[k])
              && o.store[id].id == store[id].id
              && (forall c :: ColumnName(c) in data ==> TextField(o.store[id], c) == TextAffinity(data[ColumnName(c)]))
              && (Committed(store[id]) ==>
                    forall c :: ColumnName(c) !in data ==> TextField(o.store[id], c) == TextField(store[id], c))
              && ("es_asesor_t1" !in data ==> o.store[id].esAsesorT1 == store[id].esAsesorT1)
              && ("es_asesor_t2" !in data ==> o.store[id].esAsesorT2 == store[id].esAsesorT2)
  {
    var o := UpdateInvitado(store, id, data);
    if o.status == 200 && Committed(store[id]) {
      forall c | ColumnName(c) !in data ensures TextField(o.store[id], c) == TextField(store[id], c) {
        assert !TextField(store[id], c).Bool?;
      }
    }
  }

  /** The commit succeeds exactly when neither NOT NULL column ends up null. */
  lemma UpdateCommitFailsOnNull(store: Store, id: int, data: Dict)
    requires id in store
    ensures var o := UpdateInvitado(store, id, data);
            var nombre := if "nombre_completo" in data then data["nombre_completo"] else store[id].nombreCompleto;
            var caracter := if "caracter_invitacion" in data then data["caracter_invitacion"] else store[id].caracterInvitacion;
            (o.status == 200 <==> nombre != Null && caracter != Null) &&
            (o.status != 200 ==> o.store == store)
  {
    var inv := ApplyUpdate(store[id], data);
    assert TextField(inv, NombreCompleto) == inv.nombreCompleto;
    assert TextField(inv, CaracterInvitacion) == inv.caracterInvitacion;
    assert ColumnName(NombreCompleto) == "nombre_completo";
    assert ColumnName(CaracterInvitacion) == "caracter_invitacion";
  }

  /** `delete_invitado`. */
  function DeleteInvitado(store: Store, id: int): (o: Outcome)
    ensures id !in store ==> o == Outcome(store, 404, NotFound)
    ensures id in store ==> o.status == 200 && o.body == Deleted
    ensures id in store ==> o.store.Keys == store.Keys - {id}
    ensures forall k :: k in o.store ==> k in store && o.store[k] == store[k]
  {
    if id !in store then Outcome(store, 404, NotFound)
    else Outcome(store - {id}, 200, Deleted)
  }

  /** The flag each role route filters on. */
  datatype Role = AsesorT1 | AsesorT2 | JuradoProtocolo | JuradoInforme

  function StoredFlag(inv: Invitado, role: Role): bool {
    match role
    case AsesorT1 => inv.esAsesorT1
    case AsesorT2 => inv.esAsesorT2
    case JuradoProtocolo => inv.juradoProtocolo
    case JuradoInforme => inv.juradoInforme
  }

  function ReportedFlag(d: InvitadoDict, role: Role): bool {
    match role
    case AsesorT1 => d.esAsesorT1
    case AsesorT2 => d.esAsesorT2
    case JuradoProtocolo => d.juradoProtocolo
    case JuradoInforme => d.juradoInforme
  }

  /** The routes `/api/invitados/asesores_t1`, `asesores_t2`,
      `jurados_protocolo` and `jurados_informe`: `filter_by(flag=True)` on the
      stored column, each row serialised by `to_dict`. */
  function RoleRoute(store: Store, role: Role): (r: map<int, InvitadoDict>)
    ensures forall id :: id in r <==> id in store && StoredFlag(store[id], role)
    ensures forall id :: id in r ==> r[id] == ToDict(store[id])
  {
    map id | id in store && StoredFlag(store[id], role) :: ToDict(store[id])
  }

  /** Every stored row is keyed by its own id, has consistent jury flags and
      holds only strings and nulls in its text columns. */
  ghost predicate Consistent(store: Store) {
    forall id :: id in store ==> store[id].id == id && JuryConsistent(store[id]) && Committed(store[id])
  }

  /** Create, update and delete keep the store consistent. */
  lemma CreatePreservesConsistency(store: Store, data: Dict, newId: int)
    requires Consistent(store)
    requires newId !in store
    ensures Consistent(CreateInvitado(store, data, newId).store)
  {
  }

  lemma UpdatePreservesConsistency(store: Store, id: int, data: Dict)
    requires Consistent(store)
    ensures Consistent(UpdateInvitado(store, id, data).store)
  {
  }

  lemma DeletePreservesConsistency(store: Store, id: int)
    requires Consistent(store)
    ensures Consistent(DeleteInvitado(store, id).store)
  {
  }

  /** On a consistent store each role route returns exactly the records whose
      reported flag for that role is set. */
  lemma RoleRouteMatchesReportedFlag(store: Store, role: Role)
    requires Consistent(store)
    ensures forall id :: id in RoleRoute(store, role) <==>
              id in store && ReportedFlag(ToDict(store[id]), role)
  {
    forall id | id in store
      ensures StoredFlag(store[id], role) == ReportedFlag(ToDict(store[id]), role)
    {
      assert JuryConsistent(store[id]);
    }
  }

  /** The jury routes on a consistent store are the complements of the advisor
      routes. */
  lemma JuryRoutesComplementAdvisors(store: Store)
    requires Consistent(store)
    ensures forall id :: id in RoleRoute(store, JuradoProtocolo) <==>
              id in store && id !in RoleRoute(store, AsesorT1)
    ensures forall id :: id in RoleRoute(store, JuradoInforme) <==>
              id in store && id !in RoleRoute(store, AsesorT2)
  {
    forall id | id in store
      ensures store[id].juradoProtocolo == !store[id].esAsesorT1
      ensures store[id].juradoInforme == !store[id].esAsesorT2
    {
      assert JuryConsistent(store[id]);
    }
  }
}

=== FILE: dossier.dfy ===
/** Dossier naming and template context of backend/document_generator.py.
    The guest arrives as a JSON dictionary (this file reads
    `abreviacion_org_1`, `organizacion_1` and `cargo_1..4`); the event data is
    a second dictionary. DOCX rendering, PDF conversion and writing are
    external steps that either finish or raise. */
module Dossier {
  import opened Json
  import Seqs
  import Text

  /** The nine characters the file-name pattern deletes: backslash, slash,
      star, question mark, colon, double quote, both angle brackets and bar. */
  const Forbidden: set<char> := {'\\', '/', '*', '?', ':', '"', '<', '>', '|'}

  predicate Allowed(c: char) {
    c !in Forbidden
  }

  predicate FreeOfForbidden(s: string) {
    forall i :: 0 <= i < |s| ==> s[i] !in Forbidden
  }

  /** The `re.sub` of `_create_safe_filename`: deletes the nine forbidden
      characters and nothing else; it neither trims nor collapses whitespace. */
  function Sanitize(s: string): (r: string)
    ensures FreeOfForbidden(r)
    ensures FreeOfForbidden(s) ==> r == s
  {
    var r := Seqs.Filter(s, Allowed);
    assert forall i :: 0 <= i < |r| ==> r[i] in r;
    assert FreeOfForbidden(s) ==> r == s by {
      if FreeOfForbidden(s) { Seqs.FilterKeepsAll(s, Allowed); }
    }
    r
  }

  /** Sanitising keeps the other characters in their order and number. */
  lemma SanitizeKeepsOthers(s: string)
    ensures Seqs.IsSubsequence(Sanitize(s), s)
    ensures forall c :: c !in Forbidden ==> multiset(Sanitize(s))[c] == multiset(s)[c]
  {
    assert Sanitize(s) == Seqs.Filter(s, Allowed);
    Seqs.FilterPreserves(s, Allowed);
  }

  /** Sanitising twice equals sanitising once. */
  lemma SanitizeIdempotent(s: string)
    ensures Sanitize(Sanitize(s)) == Sanitize(s)
  {
  }

  /** Why a dossier could not be produced; `str(e)` of the exception. */
  datatype DossierError =
    | TemplateMissing       // FileNotFoundError: plantilla_base.docx not uploaded
    | AttachmentsMissing    // FileNotFoundError: convocatoria and/or cronograma missing
    | MissingKey(key: string)  // KeyError on a required dictionary key
    | TypeError             // re.sub applied to a value that is not a string
    | Raised(message: string)  // an external step raised

  /** The text `{"success": False, "error": str(e)}` carries, for the errors
      the module raises itself. */
  function ErrorText(e: DossierError): string {
    match e
    case TemplateMissing => "La plantilla 'plantilla_base.docx' no ha sido cargada."
    case AttachmentsMissing => "Faltan los archivos PDF de convocatoria y/o cronograma."
    case MissingKey(k) => "'" + k + "'"
    case TypeError => "expected string or bytes-like object"
    case Raised(m) => m
  }

  datatype Result<T> = Success(value: T) | Failure(error: DossierError)

  const Sentinel: string := "INVITADO"

  /** `invitado_data.get('abreviacion_org_1') or invitado_data.get('organizacion_1') or 'INVITADO'`,
      chosen before sanitising. */
  function OrgChoice(g: Dict): (v: Value)
    ensures Truthy(Get(g, "abreviacion_org_1")) ==> v == g["abreviacion_org_1"]
    ensures !Truthy(Get(g, "abreviacion_org_1")) && Truthy(Get(g, "organizacion_1")) ==> v == g["organizacion_1"]
    ensures !Truthy(Get(g, "abreviacion_org_1")) && !Truthy(Get(g, "organizacion_1")) ==> v == Str(Sentinel)
  {
    Or(Or(Get(g, "abreviacion_org_1"), Get(g, "organizacion_1")), Str(Sentinel))
  }

  /** `{anio}.{periodo}`, the period key shared by the folder and the file names. */
  function PeriodKey(anio: Value, periodo: Value): string {
    PyStr(anio) + "." + PyStr(periodo)
  }

  /** `{key}-FPiT-DOSSIER-{org}-{nombre}.pdf`. */
  function FileName(key: string, org: string, nombre: string): string {
    key + "-FPiT-DOSSIER-" + org + "-" + nombre + ".pdf"
  }

  /** The name value `invitado_data.get('nombre_completo', '')`. */
  function NameOf(g: Dict): Value {
    GetOr(g, "nombre_completo", Str(""))
  }

  /** `_create_safe_filename`: the dossier name for the period with the chosen
      organisation and the guest name, each sanitised; a name or organisation
      that is not a string makes `re.sub` raise. */
  function SafeFilename(g: Dict, anio: Value, periodo: Value): (r: Result<string>)
    ensures r.Success? <==> NameOf(g).Str? && OrgChoice(g).Str?
    ensures r.Failure? ==> r.error == TypeError
    ensures r.Success? ==>
              r.value == FileName(PeriodKey(anio, periodo), Sanitize(OrgChoice(g).s), Sanitize(NameOf(g).s))
  {
    var nombre := GetOr(g, "nombre_completo", Str(""));
    if !nombre.Str? then Failure(TypeError)
    else
      var nombreSeguro := Sanitize(nombre.s);
      var org := Or(Or(Get(g, "abreviacion_org_1"), Get(g, "organizacion_1")), Str(Sentinel));
      if !org.Str? then Failure(TypeError)
      else
        var orgSegura := Sanitize(org.s);
        Success(PyStr(anio) + "." + PyStr(periodo) + "-FPiT-DOSSIER-" + orgSegura + "-" + nombreSeguro + ".pdf")
  }

  /** A guest without a `nombre_completo` key gets an empty name segment, not
      an error, and one without any organisation gets the sentinel segment. */
  lemma MissingNameAndOrg(anio: Value, periodo: Value)
    ensures SafeFilename(map[], anio, periodo) == Success(FileName(PeriodKey(anio, periodo), Sentinel, ""))
  {
    var g: Dict := map[];
    assert NameOf(g) == Str("");
    assert OrgChoice(g) == Str(Sentinel);
    SentinelAndEmptyKept();
  }

  /** Neither the sentinel nor the empty name has a character to delete. */
  lemma SentinelAndEmptyKept()
    ensures Sanitize(Sentinel) == Sentinel && Sanitize("") == ""
  {
    assert FreeOfForbidden(Sentinel) && FreeOfForbidden("");
  }

  /** A null name is an error, not an empty segment. */
  lemma NullNameFails(g: Dict, anio: Value, periodo: Value)
    requires "nombre_completo" in g && g["nombre_completo"] == Null
    ensures SafeFilename(g, anio, periodo) == Failure(TypeError)
  {
  }

  /** The organisation is chosen before sanitising: an abbreviation made only
      of forbidden characters yields an empty segment, not the fallback. */
  lemma ForbiddenOnlyOrgGivesEmptySegment(anio: Value, periodo: Value)
    ensures SafeFilename(map["nombre_completo" := Str("Ana"), "abreviacion_org_1" := Str("<|>")], anio, periodo) ==
              Success(FileName(PeriodKey(anio, periodo), "", "Ana"))
  {
    var g := map["nombre_completo" := Str("Ana"), "abreviacion_org_1" := Str("<|>")];
    assert OrgChoice(g) == Str("<|>");
    assert FreeOfForbidden("Ana");
    var s: string := "<|>";
    assert !Allowed(s[0]) && !Allowed(s[1]) && !Allowed(s[2]);
    Seqs.FilterDropsAll(s, Allowed);
    assert Sanitize(s) == [];
  }

  /** A file name assembled from safe segments is safe. */
  lemma FileNameFree(key: string, org: string, nombre: string)
    requires FreeOfForbidden(key) && FreeOfForbidden(org) && FreeOfForbidden(nombre)
    ensures FreeOfForbidden(FileName(key, org, nombre))
  {
    var sep1: string := "-FPiT-DOSSIER-";
    var sep2: string := "-";
    var ext: string := ".pdf";
    assert FreeOfForbidden(sep1) && FreeOfForbidden(sep2) && FreeOfForbidden(ext);
    ConcatFree(key, sep1);
    ConcatFree(key + sep1, org);
    ConcatFree(key + sep1 + org, sep2);
    ConcatFree(key + sep1 + org + sep2, nombre);
    ConcatFree(key + sep1 + org + sep2 + nombre, ext);
  }

  /** The name and org segments never contain a forbidden character, so the
      whole filename is free of them whenever the period values are. */
  lemma SafeFilenameIsSafe(g: Dict, anio: Value, periodo: Value)
    requires FreeOfForbidden(PeriodKey(anio, periodo))
    ensures SafeFilename(g, anio, periodo).Success? ==> FreeOfForbidden(SafeFilename(g, anio, periodo).value)
  {
    if SafeFilename(g, anio, periodo).Success? {
      FileNameFree(PeriodKey(anio, periodo), Sanitize(OrgChoice(g).s), Sanitize(NameOf(g).s));
    }
  }

  lemma ConcatFree(a: string, b: string)
    requires FreeOfForbidden(a) && FreeOfForbidden(b)
    ensures FreeOfForbidden(a + b)
  {
    forall i | 0 <= i < |a + b| ensures (a + b)[i] !in Forbidden {
      if i < |a| { assert (a + b)[i] == a[i]; } else { assert (a + b)[i] == b[i - |a|]; }
    }
  }

  /** Slot `i` of the guest dictionary as the template loop reads it:
      `cargo_{i}` and `organizacion_{i}`. */
  function RawSlot(g: Dict, i: int): Puesto
    requires 1 <= i <= 4
  {
    if i == 1 then Puesto(Get(g, "cargo_1"), Get(g, "organizacion_1"))
    else if i == 2 then Puesto(Get(g, "cargo_2"), Get(g, "organizacion_2"))
    else if i == 3 then Puesto(Get(g, "cargo_3"), Get(g, "organizacion_3"))
    else Puesto(Get(g, "cargo_4"), Get(g, "organizacion_4"))
  }

  /** The four slots in loop order. */
  function RawSlots(g: Dict): (r: seq<Puesto>)
    ensures |r| == 4
    ensures forall i :: 1 <= i <= 4 ==> r[i - 1] == RawSlot(g, i)
  {
    [RawSlot(g, 1), RawSlot(g, 2), RawSlot(g, 3), RawSlot(g, 4)]
  }

  predicate HasCargo(p: Puesto) {
    Truthy(p.cargo)
  }

  /** The entry a listed slot contributes: `organizacion or ''`. */
  function Listed(p: Puesto): Puesto {
    Puesto(p.cargo, Or(p.organizacion, Str("")))
  }

  /** `Listed` applied to every entry. */
  function DefaultOrg(ps: seq<Puesto>): (r: seq<Puesto>)
    ensures |r| == |ps|
    ensures forall j :: 0 <= j < |r| ==> r[j] == Listed(ps[j])
  {
    if ps == [] then [] else [Listed(ps[0])] + DefaultOrg(ps[1..])
  }

  /** The positions in `raw[from..]` of the slots with a truthy cargo, in
      increasing order: the slots the template loop appends. */
  function CargoIndices(raw: seq<Puesto>, from: nat): (idx: seq<nat>)
    requires from <= |raw|
    ensures forall j :: 0 <= j < |idx| ==> from <= idx[j] < |raw| && HasCargo(raw[idx[j]])
    ensures forall j, k :: 0 <= j < k < |idx| ==> idx[j] < idx[k]
    ensures forall i :: from <= i < |raw| && HasCargo(raw[i]) ==> i in idx
    decreases |raw| - from
  {
    if from == |raw| then []
    else
      var rest := CargoIndices(raw, from + 1);
      if HasCargo(raw[from]) then [from] + rest else rest
  }

  /** Keeping the slots with a truthy cargo picks exactly the slots at
      `CargoIndices`, one each, in that order. */
  lemma {:induction false} KeptAtCargoIndices(raw: seq<Puesto>, from: nat)
    requires from <= |raw|
    ensures var idx := CargoIndices(raw, from);
            var kept := Seqs.Filter(raw[from..], HasCargo);
            |kept| == |idx| && forall j :: 0 <= j < |kept| ==> kept[j] == raw[idx[j]]
    decreases |raw| - from
  {
    if from < |raw| {
      KeptAtCargoIndices(raw, from + 1);
      var rest := CargoIndices(raw, from + 1);
      var keptRest := Seqs.Filter(raw[from + 1..], HasCargo);
      assert raw[from..][0] == raw[from];
      assert raw[from..][1..] == raw[from + 1..];
      if HasCargo(raw[from]) {
        var kept := [raw[from]] + keptRest;
        var idx := [from] + rest;
        assert Seqs.Filter(raw[from..], HasCargo) == kept;
        assert CargoIndices(raw, from) == idx;
        ConsKeepsPairing(raw, from, keptRest, rest);
      } else {
        assert Seqs.Filter(raw[from..], HasCargo) == keptRest;
      }
    }
  }

  /** Putting slot `f` in front of a kept list and of its positions keeps
      them paired. */
  lemma ConsKeepsPairing(raw: seq<Puesto>, f: nat, kept: seq<Puesto>, idx: seq<nat>)
    requires f < |raw| && |kept| == |idx|
    requires forall j :: 0 <= j < |idx| ==> idx[j] < |raw|
    requires forall j :: 0 <= j < |kept| ==> kept[j] == raw[idx[j]]
    ensures forall j :: 0 <= j < |kept| + 1 ==> ([raw[f]] + kept)[j] == raw[([f] + idx)[j]]
  {
    forall j | 1 <= j < |kept| + 1 ensures ([raw[f]] + kept)[j] == raw[([f] + idx)[j]] {
      assert ([raw[f]] + kept)[j] == kept[j - 1] && ([f] + idx)[j] == idx[j - 1];
    }
  }

  /** The `puestos_lista` loop body over given slots: one entry per slot
      with a truthy cargo, in slot order, each with `organizacion or ''`. */
  function TemplateList(raw: seq<Puesto>): (r: seq<Puesto>)
    ensures |r| == |CargoIndices(raw, 0)|
    ensures forall j :: 0 <= j < |r| ==> r[j] == Listed(raw[CargoIndices(raw, 0)[j]])
    ensures forall j :: 0 <= j < |r| ==>
              Truthy(r[j].cargo) && (Truthy(r[j].organizacion) || r[j].organizacion == Str(""))
  {
    var kept := Seqs.Filter(raw, HasCargo);
    assert forall j :: 0 <= j < |kept| ==> kept[j] in kept;
    KeptAtCargoIndices(raw, 0);
    assert raw[0..] == raw;
    DefaultOrg(kept)
  }

  /** Every slot with a truthy cargo is listed, and every listed entry comes
      from such a slot. */
  lemma TemplateListComplete(raw: seq<Puesto>)
    ensures forall i :: 0 <= i < |raw| && HasCargo(raw[i]) ==> Listed(raw[i]) in TemplateList(raw)
    ensures forall p :: p in TemplateList(raw) ==> exists i :: 0 <= i < |raw| && HasCargo(raw[i]) && p == Listed(raw[i])
  {
    forall i | 0 <= i < |raw| && HasCargo(raw[i]) ensures Listed(raw[i]) in TemplateList(raw) {
      CargoSlotListed(raw, i);
    }
    forall p | p in TemplateList(raw) ensures exists i :: 0 <= i < |raw| && HasCargo(raw[i]) && p == Listed(raw[i]) {
      ListedFromCargoSlot(raw, p);
    }
  }

  lemma CargoSlotListed(raw: seq<Puesto>, i: int)
    requires 0 <= i < |raw| && HasCargo(raw[i])
    ensures Listed(raw[i]) in TemplateList(raw)
  {
    var idx := CargoIndices(raw, 0);
    var j :| 0 <= j < |idx| && idx[j] == i;
    assert TemplateList(raw)[j] == Listed(raw[i]);
  }

  lemma ListedFromCargoSlot(raw: seq<Puesto>, p: Puesto)
    requires p in TemplateList(raw)
    ensures exists i :: 0 <= i < |raw| && HasCargo(raw[i]) && p == Listed(raw[i])
  {
    var idx := CargoIndices(raw, 0);
    var r := TemplateList(raw);
    var j :| 0 <= j < |r| && r[j] == p;
    assert HasCargo(raw[idx[j]]) && p == Listed(raw[idx[j]]);
  }

  /** The `puestos_lista` of `_render_template`: one entry per slot `1..4`
      whose cargo is truthy, in increasing slot order, so at most four. */
  function TemplatePuestos(g: Dict): (r: seq<Puesto>)
    ensures |r| <= 4
    ensures forall j :: 0 <= j < |r| ==>
              Truthy(r[j].cargo) && (Truthy(r[j].organizacion) || r[j].organizacion == Str(""))
  {
    TemplateList(RawSlots(g))
  }

  /** Slot by slot: the listed entries are those of the slots `1..4` with a
      truthy cargo (slot `idx[j] + 1` for entry `j`), each once and in
      increasing slot order. */
  lemma TemplatePuestosInSlotOrder(g: Dict)
    ensures var idx := CargoIndices(RawSlots(g), 0);
            && |TemplatePuestos(g)| == |idx|
            && (forall j :: 0 <= j < |idx| ==> idx[j] < 4 && TemplatePuestos(g)[j] == Listed(RawSlot(g, idx[j] + 1)))
            && (forall j, k :: 0 <= j < k < |idx| ==> idx[j] < idx[k])
            && (forall i :: 1 <= i <= 4 ==> (HasCargo(RawSlot(g, i)) <==> i - 1 in idx))
  {
    var raw := RawSlots(g);
    var idx := CargoIndices(raw, 0);
    var r := TemplatePuestos(g);
    assert r == TemplateList(raw);
    forall j | 0 <= j < |idx| ensures idx[j] < 4 && r[j] == Listed(RawSlot(g, idx[j] + 1)) {
      assert r[j] == Listed(raw[idx[j]]);
      assert raw[idx[j]] == RawSlot(g, idx[j] + 1);
    }
    forall i | 1 <= i <= 4 ensures HasCargo(RawSlot(g, i)) <==> i - 1 in idx {
      SlotListedIffCargo(raw, idx, i - 1);
      assert raw[i - 1] == RawSlot(g, i);
    }
  }

  /** A position is among `CargoIndices` iff its slot has a truthy cargo. */
  lemma SlotListedIffCargo(raw: seq<Puesto>, idx: seq<nat>, i: nat)
    requires i < |raw| && idx == CargoIndices(raw, 0)
    ensures HasCargo(raw[i]) <==> i in idx
  {
    if i in idx {
      var j :| 0 <= j < |idx| && idx[j] == i;
      assert HasCargo(raw[idx[j]]);
    }
  }

  /** Slot by slot: slot `i` is listed iff its cargo is truthy. */
  lemma TemplatePuestosComplete(g: Dict)
    ensures forall i :: 1 <= i <= 4 && HasCargo(RawSlot(g, i)) ==> Listed(RawSlot(g, i)) in TemplatePuestos(g)
    ensures forall p :: p in TemplatePuestos(g) ==>
              exists i :: 1 <= i <= 4 && HasCargo(RawSlot(g, i)) && p == Listed(RawSlot(g, i))
  {
    var raw := RawSlots(g);
    TemplateListComplete(raw);
    forall p | p in TemplatePuestos(g)
      ensures exists i :: 1 <= i <= 4 && HasCargo(RawSlot(g, i)) && p == Listed(RawSlot(g, i))
    {
      var k :| 0 <= k < |raw| && HasCargo(raw[k]) && p == Listed(raw[k]);
      assert raw[k] == RawSlot(g, k + 1);
    }
  }

  /** A value of the render context: a plain value or the `puestos` list. */
  datatype CtxValue = Scalar(v: Value) | PuestoList(items: seq<Puesto>)

  /** The guest-derived part of the context. */
  function GuestContext(g: Dict): map<string, CtxValue> {
    map[
      "nombre_completo" := Scalar(GetOr(g, "nombre_completo", Str(""))),
      "cargo_1" := Scalar(GetOr(g, "cargo_1", Str(""))),
      "organizacion_1" := Scalar(GetOr(g, "organizacion_1", Str(""))),
      "caracter_invitacion" := Scalar(GetOr(g, "caracter_invitacion", Str(""))),
      "puestos" := PuestoList(TemplatePuestos(g))]
  }

  /** The `context` dictionary of `_render_template`: the guest part followed
      by `**context_general`, so event keys override guest keys. */
  function RenderContext(g: Dict, general: Dict): (ctx: map<string, CtxValue>)
    ensures ctx.Keys == GuestContext(g).Keys + general.Keys
    ensures forall k :: k in general ==> ctx[k] == Scalar(general[k])
    ensures forall k :: k in GuestContext(g) && k !in general ==> ctx[k] == GuestContext(g)[k]
  {
    GuestContext(g) + map k | k in general :: Scalar(general[k])
  }

  /** An external step: it completes or raises with a message. */
  datatype Step = Done | Raises(message: string)

  /** What the file system and the external libraries do on this call. */
  datatype Env = Env(
    templateExists: bool,      // assets/plantilla_base.docx
    render: Step,              // DocxTemplate load and render
    convert: Step,             // save of the filled DOCX and docx2pdf
    convocatoriaExists: bool,  // assets/convocatoria.pdf
    cronogramaExists: bool,    // assets/cronograma.pdf
    append: Step,              // merger.append of the three PDFs
    makeFolder: Step,          // mkdir of the Desktop folder
    write: Step)               // merge write and temp-file cleanup

  /** The documents merged into one dossier. */
  datatype Part = Letter | Convocatoria | Cronograma

  /** `{"success": True, "path": Desktop/folder/filename}` or `{"success": False, "error": ...}`. */
  datatype DossierResult = Generated(folder: string, filename: string, parts: seq<Part>) | NotGenerated(error: DossierError)

  /** `{anio}.{periodo}-invitaciones`. */
  function OutputFolder(anio: Value, periodo: Value): string {
    PeriodKey(anio, periodo) + "-invitaciones"
  }

  /** Every requirement of a dossier holds, in no particular order: the
      template and both attachments exist, every external step completes,
      the guest has an `id`, the event data has `anio` and `periodo`, and
      the file name can be built. */
  predicate Succeeds(g: Dict, general: Dict, env: Env) {
    && env.templateExists && env.convocatoriaExists && env.cronogramaExists
    && env.render.Done? && env.convert.Done? && env.append.Done? && env.makeFolder.Done? && env.write.Done?
    && "id" in g && "anio" in general && "periodo" in general
    && SafeFilename(g, general["anio"], general["periodo"]).Success?
  }

  /** `e` reports a requirement that really failed. */
  predicate Explains(g: Dict, general: Dict, env: Env, e: DossierError) {
    match e
    case TemplateMissing => !env.templateExists
    case AttachmentsMissing => !(env.convocatoriaExists && env.cronogramaExists)
    case MissingKey(k) => (k == "id" && "id" !in g) || ((k == "anio" || k == "periodo") && k !in general)
    case TypeError =>
      "anio" in general && "periodo" in general && SafeFilename(g, general["anio"], general["periodo"]).Failure?
    case Raised(m) =>
      env.render == Raises(m) || env.convert == Raises(m) || env.append == Raises(m) ||
      env.makeFolder == Raises(m) || env.write == Raises(m)
  }

  /** `generate_full_dossier`: renders, converts, checks the attachments,
      appends letter, convocatoria and cronograma, names the folder and the
      file, and writes; any exception becomes the error reply. A dossier is
      produced exactly when every requirement holds, and an error always
      names a requirement that failed. */
  function GenerateFullDossier(g: Dict, general: Dict, env: Env): (r: DossierResult)
    ensures r.Generated? <==> Succeeds(g, general, env)
    ensures r.NotGenerated? ==> Explains(g, general, env, r.error)
    ensures r.Generated? ==>
              && r.parts == [Letter, Convocatoria, Cronograma]
              && r.folder == OutputFolder(general["anio"], general["periodo"])
              && r.filename == SafeFilename(g, general["anio"], general["periodo"]).value
  {
    if !env.templateExists then NotGenerated(TemplateMissing)
    else if env.render.Raises? then NotGenerated(Raised(env.render.message))
    else if "id" !in g then NotGenerated(MissingKey("id"))
    else if env.convert.Raises? then NotGenerated(Raised(env.convert.message))
    else if !(env.convocatoriaExists && env.cronogramaExists) then NotGenerated(AttachmentsMissing)
    else if env.append.Raises? then NotGenerated(Raised(env.append.message))
    else
      var parts := [Letter, Convocatoria, Cronograma];
      if "anio" !in general then NotGenerated(MissingKey("anio"))
      else if "periodo" !in general then NotGenerated(MissingKey("periodo"))
      else
        var folder := OutputFolder(general["anio"], general["periodo"]);
        if env.makeFolder.Raises? then NotGenerated(Raised(env.makeFolder.message))
        else
          match SafeFilename(g, general["anio"], general["periodo"])
          case Failure(e) => NotGenerated(e)
          case Success(filename) =>
            if env.write.Raises? then NotGenerated(Raised(env.write.message))
            else Generated(folder, filename, parts)
  }

  /** The template step comes first: a missing template wins over every
      later problem, a render failure over a missing `id`, and a missing
      `id` over a failed conversion or missing attachments. */
  lemma TemplateCheckedFirst(g: Dict, general: Dict, env: Env)
    ensures !env.templateExists ==> GenerateFullDossier(g, general, env) == NotGenerated(TemplateMissing)
    ensures env.templateExists && env.render.Raises? ==>
              GenerateFullDossier(g, general, env) == NotGenerated(Raised(env.render.message))
    ensures env.templateExists && env.render.Done? && "id" !in g ==>
              GenerateFullDossier(g, general, env) == NotGenerated(MissingKey("id"))
    ensures env.templateExists && env.render.Done? && "id" in g && env.convert.Raises? ==>
              GenerateFullDossier(g, general, env) == NotGenerated(Raised(env.convert.message))
  {
  }

  /** The PDFs are checked and appended before the event data is read: with
      the letter converted, missing attachments or a failed append are
      reported even when `anio` and `periodo` are missing too. */
  lemma AttachmentsCheckedBeforeEventData(g: Dict, general: Dict, env: Env)
    requires env.templateExists && env.render.Done? && "id" in g && env.convert.Done?
    ensures !(env.convocatoriaExists && env.cronogramaExists) ==>
              GenerateFullDossier(g, general, env) == NotGenerated(AttachmentsMissing)
    ensures env.convocatoriaExists && env.cronogramaExists && env.append.Raises? ==>
              GenerateFullDossier(g, general, env) == NotGenerated(Raised(env.append.message))
  {
  }

  /** After the merge, the event keys are read before the folder is made,
      the folder is made before the name is built, and the name is built
      before anything is written. */
  lemma OutputStepsInOrder(g: Dict, general: Dict, env: Env)
    requires env.templateExists && env.render.Done? && "id" in g && env.convert.Done?
    requires env.convocatoriaExists && env.cronogramaExists && env.append.Done?
    ensures "anio" !in general ==> GenerateFullDossier(g, general, env) == NotGenerated(MissingKey("anio"))
    ensures "anio" in general && "periodo" !in general ==>
              GenerateFullDossier(g, general, env) == NotGenerated(MissingKey("periodo"))
    ensures "anio" in general && "periodo" in general && env.makeFolder.Raises? ==>
              GenerateFullDossier(g, general, env) == NotGenerated(Raised(env.makeFolder.message))
    ensures "anio" in general && "periodo" in general && env.makeFolder.Done? &&
            SafeFilename(g, general["anio"], general["periodo"]).Failure? ==>
              GenerateFullDossier(g, general, env) == NotGenerated(TypeError)
  {
  }

  /** A file name starts with its period key. */
  lemma FileNameStartsWithKey(key: string, org: string, nombre: string)
    ensures Text.StartsWith(FileName(key, org, nombre), key)
  {
    assert FileName(key, org, nombre)[..|key|] == key;
  }

  /** The dossier file and its folder share the `{anio}.{periodo}` prefix. */
  lemma FileAndFolderSharePeriod(g: Dict, general: Dict, env: Env)
    ensures var r := GenerateFullDossier(g, general, env);
            r.Generated? ==>
              var key := PeriodKey(general["anio"], general["periodo"]);
              Text.StartsWith(r.folder, key) && Text.StartsWith(r.filename, key)
  {
    var r := GenerateFullDossier(g, general, env);
    if r.Generated? {
      var key := PeriodKey(general["anio"], general["periodo"]);
      FileNameStartsWithKey(key, Sanitize(OrgChoice(g).s), Sanitize(NameOf(g).s));
      assert r.folder == key + "-invitaciones";
      assert r.folder[..|key|] == key;
    }
  }
}

=== FILE: estadisticas.dfy ===
/** The statistics panel of frontend/js/estadisticas.js: six counts over
    the guest list, computed on request or written to the panel. */
module Estadisticas {
  import Seqs
  import opened Json
  import Roster

  /** `{ total, asesoresT1, asesoresT2, juradosProtocolo, juradosInforme,
      juradosAmbos }`. */
  datatype Stats = Stats(total: nat, asesoresT1: nat, asesoresT2: nat,
                         juradosProtocolo: nat, juradosInforme: nat, juradosAmbos: nat)

  const Zero: Stats := Stats(0, 0, 0, 0, 0, 0)

  /** `invitados ?? InvitadosLista.obtenerInvitados()`: only a missing
      argument falls back to the list page's data (an empty array is
      truthy), and only when that module is loaded. */
  function Resolve(invitados: Option<seq<Roster.Guest>>, lista: Option<seq<Roster.Guest>>): (r: Option<seq<Roster.Guest>>)
    ensures invitados.Some? ==> r == invitados
    ensures invitados.None? ==> r == lista
  {
    if invitados.Some? then invitados else lista
  }

  /** Both jury flags at once. */
  predicate BothJuries(g: Roster.Guest) {
    Roster.HasRole(g, Roster.JuradoProtocolo) && Roster.HasRole(g, Roster.JuradoInforme)
  }

  /** `invitadosData.filter(test).length`. */
  function Count(gs: seq<Roster.Guest>, test: Roster.Guest -> bool): (n: nat)
    ensures n <= |gs|
  {
    |Seqs.Filter(gs, test)|
  }

  /** The six counts over a list. */
  function CountAll(gs: seq<Roster.Guest>): (s: Stats)
    ensures s.total == |gs|
    ensures s.asesoresT1 == |Roster.FiltrarInvitados(gs, "asesor_t1")|
    ensures s.asesoresT2 == |Roster.FiltrarInvitados(gs, "asesor_t2")|
    ensures s.juradosProtocolo == |Roster.FiltrarInvitados(gs, "jurado_protocolo")|
    ensures s.juradosInforme == |Roster.FiltrarInvitados(gs, "jurado_informe")|
    ensures s.juradosAmbos == Count(gs, BothJuries)
  {
    Stats(|gs|,
          Count(gs, Roster.RoleTest(Roster.AsesorT1)), Count(gs, Roster.RoleTest(Roster.AsesorT2)),
          Count(gs, Roster.RoleTest(Roster.JuradoProtocolo)), Count(gs, Roster.RoleTest(Roster.JuradoInforme)),
          Count(gs, BothJuries))
  }

  /** `obtenerEstadisticas`: zeros without a list or for an empty one,
      otherwise the six counts. */
  function ObtenerEstadisticas(invitados: Option<seq<Roster.Guest>>, lista: Option<seq<Roster.Guest>>): (s: Stats)
    ensures var d := Resolve(invitados, lista);
            && (d.None? || d.value == [] ==> s == Zero)
            && (d.Some? ==> s == CountAll(d.value))
  {
    var d := Resolve(invitados, lista);
    if d.None? || d.value == [] then Zero else CountAll(d.value)
  }

  /** Every count is bounded by the total, and guests on both juries are
      counted in each jury. */
  lemma CountsBounded(gs: seq<Roster.Guest>)
    ensures var s := CountAll(gs);
            && s.asesoresT1 <= s.total && s.asesoresT2 <= s.total
            && s.juradosProtocolo <= s.total && s.juradosInforme <= s.total && s.juradosAmbos <= s.total
            && s.juradosAmbos <= s.juradosProtocolo && s.juradosAmbos <= s.juradosInforme
  {
    Seqs.FilterMonotone(gs, BothJuries, Roster.RoleTest(Roster.JuradoProtocolo));
    Seqs.FilterMonotone(gs, BothJuries, Roster.RoleTest(Roster.JuradoInforme));
  }

  /** Inclusion and exclusion: the guests on at least one jury are no more
      than the whole list. */
  lemma JuriesCoverAtMostTotal(gs: seq<Roster.Guest>)
    ensures var s := CountAll(gs);
            s.juradosProtocolo + s.juradosInforme - s.juradosAmbos <= s.total
  {
    Seqs.FilterUnionBound(gs, Roster.RoleTest(Roster.JuradoProtocolo), Roster.RoleTest(Roster.JuradoInforme), BothJuries);
  }

  /** What the panel shows: nothing written yet, or six numbers. */
  type Panel = Option<Stats>

  /** `actualizarEstadisticas` with what the panel shows before: without a
      list or for an empty one it returns before writing anything; `fixed`
      writes zeros instead. */
  function ActualizarWith(shown: Panel, invitados: Option<seq<Roster.Guest>>, lista: Option<seq<Roster.Guest>>,
                          fixed: bool): (p: Panel)
    ensures var d := Resolve(invitados, lista);
            && (d.Some? && d.value != [] ==> p == Some(ObtenerEstadisticas(invitados, lista)))
            && ((d.None? || d.value == []) && !fixed ==> p == shown)
            && ((d.None? || d.value == []) && fixed ==> p == Some(Zero))
  {
    var d := Resolve(invitados, lista);
    if d.None? || d.value == [] then (if fixed then Some(Zero) else shown)
    else Some(CountAll(d.value))
  }

  /** `actualizarEstadisticas` as written: a non-empty list writes what
      `obtenerEstadisticas` returns for it; without a list or for an empty
      one the panel keeps what it showed. */
  function ActualizarEstadisticas(shown: Panel, invitados: Option<seq<Roster.Guest>>,
                                  lista: Option<seq<Roster.Guest>>): (p: Panel)
    ensures var d := Resolve(invitados, lista);
            && (d.Some? && d.value != [] ==> p == Some(ObtenerEstadisticas(invitados, lista)))
            && (d.None? || d.value == [] ==> p == shown)
  {
    ActualizarWith(shown, invitados, lista, false)
  }

  /** As written, deleting the last guest leaves the old numbers on the
      panel: after one guest was counted, updating with the empty list still
      shows a total of 1 although the statistics say 0. */
  lemma EmptyListLeavesStaleStatistics()
    ensures var one := [Roster.Guest(1, map[])];
            var before := ActualizarEstadisticas(None, Some(one), None);
            var after := ActualizarEstadisticas(before, Some([]), None);
            && after == before && after.Some? && after.value.total == 1
            && ObtenerEstadisticas(Some([]), None).total == 0
  {
  }

  /** With the correction the panel always shows what
      `obtenerEstadisticas` returns for the same input. */
  lemma FixedPanelAgreesWithObtener(shown: Panel, invitados: Option<seq<Roster.Guest>>,
                                    lista: Option<seq<Roster.Guest>>)
    ensures ActualizarWith(shown, invitados, lista, true) == Some(ObtenerEstadisticas(invitados, lista))
  {
  }

  /** As written the panel agrees with `obtenerEstadisticas` whenever the
      list is not empty. */
  lemma PanelAgreesOnNonEmptyList(shown: Panel, gs: seq<Roster.Guest>, lista: Option<seq<Roster.Guest>>)
    requires gs != []
    ensures ActualizarEstadisticas(shown, Some(gs), lista) == Some(ObtenerEstadisticas(Some(gs), lista))
  {
  }
}

=== FILE: form.dfy ===
/** The guest form of frontend/js/invitados-form.js: how the submitted form
    fields become a JSON payload, and the edit mode that decides between
    creating and updating. The page's form is a sequence of `FormData`
    entries; the edit mode lives in the held guest and the submit button's
    `data-edit-mode` attribute. */
module Form {
  import Text
  import opened Json
  import Roster
  import Api
  import Backend

  /** One `FormData` entry: field name and submitted text. */
  type Entry = (string, string)

  /** `formData.has(key)`. */
  predicate Has(entries: seq<Entry>, key: string) {
    exists i :: 0 <= i < |entries| && entries[i].0 == key
  }

  /** `value.trim() !== ""`. */
  predicate NonBlank(value: string) {
    Text.Trim(value) != ""
  }

  /** The value of the last entry named `key` whose text is not blank. */
  function LastNonBlank(entries: seq<Entry>, key: string): (r: Option<string>)
    ensures r.Some? ==> exists i :: 0 <= i < |entries| && entries[i] == (key, r.value) && NonBlank(r.value)
    ensures r.None? ==> forall i :: 0 <= i < |entries| && entries[i].0 == key ==> !NonBlank(entries[i].1)
  {
    if entries == [] then None
    else
      var last := entries[|entries| - 1];
      if last.0 == key && NonBlank(last.1) then Some(last.1)
      else
        var r := LastNonBlank(entries[..|entries| - 1], key);
        assert forall i :: 0 <= i < |entries| - 1 ==> entries[..|entries| - 1][i] == entries[i];
        r
  }

  /** The `formData.forEach` loop: each entry with non-blank text writes its
      untrimmed text under its name, later entries overwriting earlier ones. */
  function Collect(entries: seq<Entry>): (data: Dict)
    ensures forall k :: k in data <==> LastNonBlank(entries, k).Some?
    ensures forall k :: k in data ==> data[k] == Str(LastNonBlank(entries, k).value)
  {
    if entries == [] then map[]
    else
      var (k, v) := entries[|entries| - 1];
      var prev := Collect(entries[..|entries| - 1]);
      if NonBlank(v) then prev[k := Str(v)] else prev
  }

  /** The submit handler's payload: the collected fields, then both advisor
      checkboxes as booleans saying whether they were submitted. */
  function BuildPayload(entries: seq<Entry>): (data: Dict)
    ensures "es_asesor_t1" in data && data["es_asesor_t1"] == Bool(Has(entries, "es_asesor_t1"))
    ensures "es_asesor_t2" in data && data["es_asesor_t2"] == Bool(Has(entries, "es_asesor_t2"))
    ensures forall k :: k != "es_asesor_t1" && k != "es_asesor_t2" ==>
              (k in data <==> LastNonBlank(entries, k).Some?) &&
              (k in data ==> data[k] == Str(LastNonBlank(entries, k).value))
  {
    Collect(entries)["es_asesor_t1" := Bool(Has(entries, "es_asesor_t1"))]
                    ["es_asesor_t2" := Bool(Has(entries, "es_asesor_t2"))]
  }

  /** A field whose every submitted text is blank is left out of the payload,
      and a field in the payload holds non-blank, untrimmed text that was
      submitted under that name. */
  lemma PayloadKeepsOnlyNonBlank(entries: seq<Entry>, k: string)
    requires k != "es_asesor_t1" && k != "es_asesor_t2"
    ensures (forall i :: 0 <= i < |entries| && entries[i].0 == k ==> !NonBlank(entries[i].1)) ==> k !in BuildPayload(entries)
    ensures k in BuildPayload(entries) ==>
              exists i :: 0 <= i < |entries| && entries[i].0 == k && BuildPayload(entries)[k] == Str(entries[i].1) &&
                          !Text.Blank(entries[i].1)
  {
    var data := BuildPayload(entries);
    if k in data {
      var v := LastNonBlank(entries, k).value;
      var i :| 0 <= i < |entries| && entries[i] == (k, v) && NonBlank(v);
      Text.TrimEmptyIffBlank(v);
    }
  }

  /** Because blank fields are dropped, blanking the note in the form does not
      clear it: the backend update keeps the stored note. */
  lemma BlankNoteKeepsStoredNote(inv: Backend.Invitado, entries: seq<Entry>)
    requires forall i :: 0 <= i < |entries| && entries[i].0 == "nota" ==> !NonBlank(entries[i].1)
    ensures Backend.ApplyUpdate(inv, BuildPayload(entries)).nota == inv.nota
  {
    PayloadKeepsOnlyNonBlank(entries, "nota");
    var r := Backend.ApplyUpdate(inv, BuildPayload(entries));
    assert Backend.ColumnName(Backend.Nota) == "nota";
    assert Backend.TextField(r, Backend.Nota) == Backend.TextField(inv, Backend.Nota);
  }

  /** The form always sends both advisor flags, so an update always rewrites
      them to the checkbox states, and the jury flags follow. */
  lemma UpdateFollowsCheckboxes(inv: Backend.Invitado, entries: seq<Entry>)
    ensures var r := Backend.ApplyUpdate(inv, BuildPayload(entries));
            && r.esAsesorT1 == Has(entries, "es_asesor_t1")
            && r.esAsesorT2 == Has(entries, "es_asesor_t2")
            && r.juradoProtocolo == !Has(entries, "es_asesor_t1")
            && r.juradoInforme == !Has(entries, "es_asesor_t2")
  {
  }

  const GuardarLabel: string := "✅ Guardar Invitado"
  const ActualizarLabel: string := "💾 Actualizar Invitado"

  /** `invitadoEnEdicion`, whether `submitBtn.dataset.editMode === "true"`,
      and the button text. */
  datatype EditState = EditState(held: Option<Roster.Guest>, editMode: bool, buttonText: string)

  /** The page's state when it loads. */
  const Initial: EditState := EditState(None, false, GuardarLabel)

  /** `limpiarModoEdicion`: nothing held, the edit-mode attribute deleted,
      the create label back. */
  function LimpiarModoEdicion(st: EditState): (r: EditState)
    ensures r.held.None? && !r.editMode && r.buttonText == GuardarLabel
    ensures r == Initial
  {
    EditState(None, false, GuardarLabel)
  }

  /** The `reset` listener: resetting the form leaves edit mode. */
  function ResetForm(st: EditState): (r: EditState)
    ensures r.held.None? && !r.editMode && r.buttonText == GuardarLabel
    ensures SubmitAction(r) == Create
  {
    LimpiarModoEdicion(st)
  }

  /** The values `cargarParaEdicion` writes into the inputs. */
  datatype Fields = Fields(
    nombreCompleto: string, caracterInvitacion: string, nota: string,
    puestoCompleto: string, institucion: string, abreviacionOrg: string,
    esInvitadoEspecial: bool, esAsesorT1: bool, esAsesorT2: bool)

  /** `input.value = invitado.<key> || ""`: the value as text when truthy,
      else the empty string. */
  function TextInput(g: Roster.Guest, key: string): (s: string)
    ensures key !in g.fields ==> s == ""
    ensures Truthy(Get(g.fields, key)) ==> s == JsStr(g.fields[key])
    ensures !Truthy(Get(g.fields, key)) ==> s == ""
  {
    var v := Or(Get(g.fields, key), Str(""));
    JsStr(v)
  }

  /** `checkbox.checked = invitado.<key> || false`. */
  function CheckInput(g: Roster.Guest, key: string): (b: bool)
    ensures key !in g.fields ==> !b
    ensures b <==> Truthy(Get(g.fields, key))
  {
    Truthy(Or(Get(g.fields, key), Bool(false)))
  }

  datatype Editing = Editing(state: EditState, fields: Fields)

  /** `cargarParaEdicion`: the guest is held, the inputs are filled from its
      fields, and the button switches to update mode. */
  function CargarParaEdicion(g: Roster.Guest): (e: Editing)
    ensures e.state == EditState(Some(g), true, ActualizarLabel)
    ensures e.fields.nombreCompleto == TextInput(g, "nombre_completo")
    ensures e.fields.caracterInvitacion == TextInput(g, "caracter_invitacion") && e.fields.nota == TextInput(g, "nota")
    ensures e.fields.puestoCompleto == TextInput(g, "puesto_completo") && e.fields.institucion == TextInput(g, "institucion")
    ensures e.fields.abreviacionOrg == TextInput(g, "abreviacion_org")
    ensures e.fields.esInvitadoEspecial == CheckInput(g, "es_invitado_especial")
    ensures e.fields.esAsesorT1 == CheckInput(g, "es_asesor_t1") && e.fields.esAsesorT2 == CheckInput(g, "es_asesor_t2")
  {
    Editing(
      EditState(Some(g), true, ActualizarLabel),
      Fields(
        TextInput(g, "nombre_completo"), TextInput(g, "caracter_invitacion"), TextInput(g, "nota"),
        TextInput(g, "puesto_completo"), TextInput(g, "institucion"), TextInput(g, "abreviacion_org"),
        CheckInput(g, "es_invitado_especial"), CheckInput(g, "es_asesor_t1"), CheckInput(g, "es_asesor_t2")))
  }

  /** The names of the form's text inputs, in page order. */
  const TextKeys: seq<string> := ["nombre_completo", "caracter_invitacion", "nota",
                                  "puesto_completo", "institucion", "abreviacion_org"]

  /** The text inputs' values, in the order of `TextKeys`. */
  function TextValues(f: Fields): seq<string> {
    [f.nombreCompleto, f.caracterInvitacion, f.nota, f.puestoCompleto, f.institucion, f.abreviacionOrg]
  }

  /** Every text input of a loaded guest holds `TextInput` of its name. */
  lemma LoadedTextInputs(g: Roster.Guest, i: int)
    requires 0 <= i < |TextKeys|
    ensures TextValues(CargarParaEdicion(g).fields)[i] == TextInput(g, TextKeys[i])
  {
  }

  /** The `FormData` of the filled form: every text input under its name,
      then each checked checkbox with the browser's value "on". */
  function FormEntries(f: Fields): (es: seq<Entry>)
    ensures |es| >= |TextKeys|
    ensures forall i :: 0 <= i < |TextKeys| ==> es[i] == (TextKeys[i], TextValues(f)[i])
    ensures forall i :: |TextKeys| <= i < |es| ==> es[i].0 !in TextKeys && es[i].1 == "on"
    ensures Has(es, "es_asesor_t1") <==> f.esAsesorT1
    ensures Has(es, "es_asesor_t2") <==> f.esAsesorT2
  {
    var text := [("nombre_completo", f.nombreCompleto), ("caracter_invitacion", f.caracterInvitacion), ("nota", f.nota),
                 ("puesto_completo", f.puestoCompleto), ("institucion", f.institucion), ("abreviacion_org", f.abreviacionOrg)];
    var e1: seq<Entry> := if f.esInvitadoEspecial then [("es_invitado_especial", "on")] else [];
    var e2: seq<Entry> := if f.esAsesorT1 then [("es_asesor_t1", "on")] else [];
    var e3: seq<Entry> := if f.esAsesorT2 then [("es_asesor_t2", "on")] else [];
    var es := text + e1 + e2 + e3;
    assert forall i :: 0 <= i < |text| ==> es[i] == text[i];
    assert f.esAsesorT1 ==> es[|text| + |e1|] == ("es_asesor_t1", "on");
    assert f.esAsesorT2 ==> es[|text| + |e1| + |e2|] == ("es_asesor_t2", "on");
    es
  }

  /** The single non-blank entry under a name is what is collected for it. */
  lemma OnlyEntryIsCollected(es: seq<Entry>, j: int, k: string, v: string)
    requires 0 <= j < |es| && es[j] == (k, v) && NonBlank(v)
    requires forall i :: 0 <= i < |es| && i != j ==> es[i].0 != k
    ensures LastNonBlank(es, k) == Some(v)
  {
  }

  /** Loading a guest and submitting the form unchanged sends back both
      advisor flags as they were loaded. */
  lemma ReloadedFormKeepsFlags(g: Roster.Guest)
    ensures var p := BuildPayload(FormEntries(CargarParaEdicion(g).fields));
            && p["es_asesor_t1"] == Bool(Truthy(Get(g.fields, "es_asesor_t1")))
            && p["es_asesor_t2"] == Bool(Truthy(Get(g.fields, "es_asesor_t2")))
  {
  }

  /** Loading a guest and submitting the form unchanged sends back every
      text field the guest holds as a non-blank string, unchanged. */
  lemma ReloadedFormKeepsText(g: Roster.Guest, j: int)
    requires 0 <= j < |TextKeys|
    requires TextKeys[j] in g.fields && g.fields[TextKeys[j]].Str? && NonBlank(g.fields[TextKeys[j]].s)
    ensures var p := BuildPayload(FormEntries(CargarParaEdicion(g).fields));
            TextKeys[j] in p && p[TextKeys[j]] == g.fields[TextKeys[j]]
  {
    var k := TextKeys[j];
    var es := FormEntries(CargarParaEdicion(g).fields);
    var v := g.fields[k].s;
    NonBlankIsOwnInput(g, k);
    LoadedTextInputs(g, j);
    assert es[j] == (k, v);
    OnlyEntryNamed(CargarParaEdicion(g).fields, j);
    OnlyEntryIsCollected(es, j, k, v);
    assert k != "es_asesor_t1" && k != "es_asesor_t2";
  }

  /** Each text input is the only entry under its name. */
  lemma OnlyEntryNamed(f: Fields, j: int)
    requires 0 <= j < |TextKeys|
    ensures var es := FormEntries(f);
            forall i :: 0 <= i < |es| && i != j ==> es[i].0 != TextKeys[j]
  {
    var es := FormEntries(f);
    TextKeysDistinct();
    forall i | 0 <= i < |es| && i != j
      ensures es[i].0 != TextKeys[j]
    {
      if i >= |TextKeys| {
        assert es[i].0 !in TextKeys;
      }
    }
  }

  /** A field holding non-blank text loads into its input as that text. */
  lemma NonBlankIsOwnInput(g: Roster.Guest, k: string)
    requires k in g.fields && g.fields[k].Str? && NonBlank(g.fields[k].s)
    ensures TextInput(g, k) == g.fields[k].s
  {
    assert Text.Trim("") == "";
  }

  lemma TextKeysDistinct()
    ensures forall i, j :: 0 <= i < j < |TextKeys| ==> TextKeys[i] != TextKeys[j]
  {
  }

  /** A guest without any of the fields loads as an empty form. */
  lemma MissingFieldsLoadEmpty(id: int)
    ensures CargarParaEdicion(Roster.Guest(id, map[])).fields == Fields("", "", "", "", "", "", false, false, false)
  {
  }

  /** What a submit does. */
  datatype Action = Create | Update(id: int)

  /** `isEditMode && invitadoEnEdicion`: update the held guest, else create. */
  function SubmitAction(st: EditState): (a: Action)
    ensures a.Update? <==> st.editMode && st.held.Some?
    ensures a.Update? ==> a.id == st.held.value.id
  {
    if st.editMode && st.held.Some? then Update(st.held.value.id) else Create
  }

  /** The result of a submit: the state afterwards and the one request sent. */
  datatype Submission = Submission(state: EditState, request: Api.Request, payload: Dict)

  /** The submit handler followed by `crearInvitado` or `actualizarInvitado`:
      a success leaves edit mode (the create path through the form reset,
      the update path directly); a failure only notifies. */
  function Submit(st: EditState, entries: seq<Entry>, resp: Api.Response<Dict>): (o: Submission)
    ensures o.payload == BuildPayload(entries)
    ensures SubmitAction(st).Update? ==> o.request == Api.Request(Api.PUT, Api.RecordUrl(SubmitAction(st).id), true)
    ensures SubmitAction(st).Create? ==> o.request == Api.Request(Api.POST, Api.InvitadosUrl(), true)
    ensures resp.Ok? ==> o.state == LimpiarModoEdicion(st)
    ensures !resp.Ok? ==> o.state == st
  {
    var data := BuildPayload(entries);
    match SubmitAction(st)
    case Update(id) =>
      var x := Api.ActualizarInvitado(id, resp);
      Submission(if x.reply.Resolved? then LimpiarModoEdicion(st) else st, x.requests[0], data)
    case Create =>
      var x := Api.CrearInvitado(resp);
      Submission(if x.reply.Resolved? then ResetForm(st) else st, x.requests[0], data)
  }

  /** Loading a guest for editing makes the next submit update that guest;
      once it succeeds, the submit after it creates again. */
  lemma EditRoundTrip(g: Roster.Guest, entries: seq<Entry>, resp: Api.Response<Dict>)
    requires resp.Ok?
    ensures var st := CargarParaEdicion(g).state;
            && SubmitAction(st) == Update(g.id)
            && Submit(st, entries, resp).request.url == Api.RecordUrl(g.id)
            && SubmitAction(Submit(st, entries, resp).state) == Create
  {
  }

  /** A failed update keeps the guest held, so submitting again retries the
      same update. */
  lemma FailedUpdateStaysInEditMode(g: Roster.Guest, entries: seq<Entry>, resp: Api.Response<Dict>)
    requires !resp.Ok?
    ensures var st := CargarParaEdicion(g).state;
            Submit(st, entries, resp).state == st && SubmitAction(Submit(st, entries, resp).state) == Update(g.id)
  {
  }
}

=== FILE: invitaciones.dfy ===
/** The invitation workflow of frontend/js/invitaciones.js: staging the
    three base files, the reset, the ordered checks and the dispatch of
    `generarInvitaciones`, the output folder display and the generation
    mode. Server replies are parameters; the upload and generate-all
    routes are not part of the backend this model covers. */
module Invitaciones {
  import opened Json
  import Api
  import Dossier

  /** The server handles of the three staged files. */
  datatype Archivos = Archivos(plantillaDocx: Value, convocatoria: Value, cronograma: Value)

  const NoArchivos: Archivos := Archivos(Null, Null, Null)

  /** `invitacionesState`. */
  datatype State = State(archivos: Archivos, archivosSubidos: bool, generationMode: string)

  const Initial: State := State(NoArchivos, false, "todos")

  /** The modal a handler ends with. */
  datatype Modal =
    | Warning(title: string)
    | Uploaded
    | UploadError(message: string)
    | Completed(resultMessage: Value, outputFolder: Value)
    | GenerationError(message: string)

  const ArchivosIncompletos: string := "⚠️ Archivos Incompletos"
  const ArchivosNoCargados: string := "⚠️ Archivos no cargados"
  const CamposIncompletos: string := "⚠️ Campos Incompletos"
  const InvitadoNoSeleccionado: string := "⚠️ Invitado no seleccionado"

  /** What a handler did to the page, in order. */
  datatype UiEvent = Disable | Enable | OpenOverlay | CloseOverlay | Send

  /** Which file inputs hold a file. */
  datatype Chosen = Chosen(plantillaDocx: bool, convocatoria: bool, cronograma: bool)

  /** The upload reply: the parsed `result` object (`files` may be
      missing), or the error of a fetch or parse that failed. */
  datatype UploadReply = Parsed(success: Value, error: Value, files: Option<Dict>) | Failed(message: string)

  const UploadUrl: string := Api.BaseUrl + "/api/upload-files"
  const UploadDefaultError: string := "Error al cargar archivos"

  /** The engine's message for `result.files.plantilla_docx` when `files`
      is missing. */
  const FilesTypeError: string := "Cannot read properties of undefined (reading 'plantilla_docx')"

  /** The end of a handler: the state, the requests sent, the page events
      and the modal. */
  datatype Outcome = Outcome(state: State, requests: seq<Api.Request>, trace: seq<UiEvent>, modal: Modal)

  /** The trace of a handler that locked the page and sent one request:
      locked, sent, then unlocked. */
  const UploadTrace: seq<UiEvent> := [Disable, OpenOverlay, Send, CloseOverlay, Enable]

  /** `cargarArchivos`: without all three files only a warning; otherwise
      one POST, after which a reply with a truthy `success` stores the three
      handles and marks the files uploaded, and anything else leaves the
      state as it was. The button and overlay are restored either way. */
  function CargarArchivos(st: State, chosen: Chosen, reply: UploadReply): (o: Outcome)
    ensures !(chosen.plantillaDocx && chosen.convocatoria && chosen.cronograma) ==>
              o == Outcome(st, [], [], Warning(ArchivosIncompletos))
    ensures chosen.plantillaDocx && chosen.convocatoria && chosen.cronograma ==>
              o.requests == [Api.Request(Api.POST, UploadUrl, false)] && o.trace == UploadTrace
    ensures o.modal == Uploaded <==>
              chosen.plantillaDocx && chosen.convocatoria && chosen.cronograma &&
              reply.Parsed? && Truthy(reply.success) && reply.files.Some?
    ensures o.modal == Uploaded ==>
              o.state == st.(archivos := Archivos(Get(reply.files.value, "plantilla_docx"),
                                                  Get(reply.files.value, "convocatoria_pdf"),
                                                  Get(reply.files.value, "cronograma_pdf")),
                             archivosSubidos := true)
    ensures o.modal != Uploaded ==> o.state == st
  {
    if !(chosen.plantillaDocx && chosen.convocatoria && chosen.cronograma) then
      Outcome(st, [], [], Warning(ArchivosIncompletos))
    else
      var req := [Api.Request(Api.POST, UploadUrl, false)];
      match reply
      case Failed(m) => Outcome(st, req, UploadTrace, UploadError(m))
      case Parsed(success, error, files) =>
        if !Truthy(success) then
          Outcome(st, req, UploadTrace, UploadError(JsStr(Or(error, Str(UploadDefaultError)))))
        else if files.None? then
          Outcome(st, req, UploadTrace, UploadError(FilesTypeError))
        else
          var f := files.value;
          var staged := Archivos(Get(f, "plantilla_docx"), Get(f, "convocatoria_pdf"), Get(f, "cronograma_pdf"));
          Outcome(st.(archivos := staged, archivosSubidos := true), req, UploadTrace, Uploaded)
  }

  /** A refused upload reports the server's error, or the default text
      when the server gave none. */
  lemma RefusedUploadReportsError(st: State, error: Value, files: Option<Dict>)
    ensures var o := CargarArchivos(st, Chosen(true, true, true), Parsed(Bool(false), error, files));
            && o.state == st
            && (Truthy(error) ==> o.modal == UploadError(JsStr(error)))
            && (!Truthy(error) ==> o.modal == UploadError(UploadDefaultError))
  {
  }

  /** The configuration inputs of the page. */
  datatype EventForm = EventForm(anio: string, periodo: string, edicionEvento: string,
                                 fechaEvento: string, fechaCarta: string, selector: string)

  /** `limpiarFormularioInvitaciones`: the edition and both dates are
      emptied (year and period stay) and the staged files are forgotten. */
  function LimpiarFormulario(st: State, f: EventForm): (r: (State, EventForm))
    ensures r.0 == st.(archivos := NoArchivos, archivosSubidos := false)
    ensures r.1 == f.(edicionEvento := "", fechaEvento := "", fechaCarta := "")
  {
    (State(NoArchivos, false, st.generationMode), EventForm(f.anio, f.periodo, "", "", "", f.selector))
  }

  /** The event data posted for generation. */
  datatype EventData = EventData(anio: string, periodo: string, edicionEvento: string,
                                 fechaEvento: string, fechaCarta: string)

  function EventDataOf(f: EventForm): EventData {
    EventData(f.anio, f.periodo, f.edicionEvento, f.fechaEvento, f.fechaCarta)
  }

  predicate Complete(e: EventData) {
    e.anio != "" && e.periodo != "" && e.edicionEvento != "" && e.fechaEvento != "" && e.fechaCarta != ""
  }

  const Individual: string := "individual"

  /** The first failed check of `generarInvitaciones`, in its order: files
      staged, then the five event fields, then (individual mode only) a
      selected guest. */
  function FirstProblem(st: State, f: EventForm): (w: Option<string>)
    ensures w == Some(ArchivosNoCargados) <==> !st.archivosSubidos
    ensures w == Some(CamposIncompletos) <==> st.archivosSubidos && !Complete(EventDataOf(f))
    ensures w == Some(InvitadoNoSeleccionado) <==>
              st.archivosSubidos && Complete(EventDataOf(f)) && st.generationMode == Individual && f.selector == ""
    ensures w.None? <==>
              st.archivosSubidos && Complete(EventDataOf(f)) && (st.generationMode == Individual ==> f.selector != "")
  {
    if !st.archivosSubidos then Some(ArchivosNoCargados)
    else if !Complete(EventDataOf(f)) then Some(CamposIncompletos)
    else if st.generationMode == Individual && f.selector == "" then Some(InvitadoNoSeleccionado)
    else None
  }

  /** The generate-all reply: the HTTP status flag and the parsed body, or
      the error of a fetch or parse that failed. */
  datatype AllReply = Answered(ok: bool, body: Dict) | Unreachable(message: string)

  const GenerateAllUrl: string := Api.BaseUrl + "/api/generate-all-invitations"
  const ServerDefaultError: string := "Error en el servidor"

  /** The call a generation makes: the generate-all POST with the event
      data. */
  datatype Call = AllCall(request: Api.Request, data: EventData)

  /** The end of a generation: the calls made, the page events, the modal. */
  datatype Generation = Generation(calls: seq<Call>, trace: seq<UiEvent>, modal: Modal)

  const GenerateTrace: seq<UiEvent> := [Disable, OpenOverlay, Send, Enable, CloseOverlay]

  /** The trace of an individual-mode generation: locked and unlocked
      again without anything being sent. */
  const SingleTrace: seq<UiEvent> := [Disable, OpenOverlay, Enable, CloseOverlay]

  /** The engine's message for calling `window.API.generateSingleInvitation`,
      which the `window.API` object of frontend/js/api.js does not define. */
  const SingleNotAFunction: string := "window.API.generateSingleInvitation is not a function"

  /** The modal after the generate-all call. */
  function AllModal(reply: AllReply): (m: Modal)
    ensures reply.Unreachable? ==> m == GenerationError(reply.message)
    ensures reply.Answered? && !reply.ok && Truthy(Get(reply.body, "error")) ==>
              m == GenerationError(JsStr(Get(reply.body, "error")))
    ensures reply.Answered? && !reply.ok && !Truthy(Get(reply.body, "error")) ==>
              m == GenerationError(ServerDefaultError)
    ensures reply.Answered? && reply.ok ==> m == Completed(Get(reply.body, "message"), Get(reply.body, "output_folder"))
  {
    match reply
    case Unreachable(msg) => GenerationError(msg)
    case Answered(ok, body) =>
      if ok then Completed(Get(body, "message"), Get(body, "output_folder"))
      else GenerationError(JsStr(Or(Get(body, "error"), Str(ServerDefaultError))))
  }

  /** `generarInvitaciones`: a failed check shows its warning and calls
      nothing; otherwise the page is locked, individual mode throws at the
      call of the undefined single-guest function and ends in the error
      modal with nothing sent, any other mode posts the event data, and the
      page is unlocked on every path. The staging state is not touched. */
  function GenerarInvitaciones(st: State, f: EventForm, all: AllReply): (g: Generation)
    ensures FirstProblem(st, f).Some? ==> g == Generation([], [], Warning(FirstProblem(st, f).value))
    ensures FirstProblem(st, f).None? && st.generationMode == Individual ==>
              g == Generation([], SingleTrace, GenerationError(SingleNotAFunction))
    ensures FirstProblem(st, f).None? && st.generationMode != Individual ==>
              g.calls == [AllCall(Api.Request(Api.POST, GenerateAllUrl, true), EventDataOf(f))] &&
              g.trace == GenerateTrace && g.modal == AllModal(all)
  {
    match FirstProblem(st, f)
    case Some(w) => Generation([], [], Warning(w))
    case None =>
      if st.generationMode == Individual then
        Generation([], SingleTrace, GenerationError(SingleNotAFunction))
      else
        Generation([AllCall(Api.Request(Api.POST, GenerateAllUrl, true), EventDataOf(f))], GenerateTrace, AllModal(all))
  }

  /** Individual mode never completes: with every check passed it still
      ends in the error modal and sends nothing, whatever the server would
      have answered. */
  lemma IndividualModeAlwaysFails(st: State, f: EventForm, all: AllReply)
    requires st.generationMode == Individual
    ensures var g := GenerarInvitaciones(st, f, all);
            !g.modal.Completed? && g.calls == [] && Send !in g.trace
  {
  }

  /** Whenever a generation locks the page, it ends unlocked: the button is
      re-enabled and the overlay closed after the call, whatever its
      outcome. */
  lemma GenerationAlwaysUnlocks(st: State, f: EventForm, all: AllReply)
    ensures var g := GenerarInvitaciones(st, f, all);
            Disable in g.trace ==> |g.trace| >= 2 && g.trace[|g.trace| - 2..] == [Enable, CloseOverlay]
    ensures var g := GenerarInvitaciones(st, f, all);
            Disable in g.trace <==> FirstProblem(st, f).None?
    ensures var g := GenerarInvitaciones(st, f, all);
            g.calls != [] <==> FirstProblem(st, f).None? && st.generationMode != Individual
  {
  }

  /** After the reset the next generation stops at the first check, even
      with all other inputs in place. */
  lemma ResetBlocksGeneration(st: State, f: EventForm, all: AllReply)
    ensures var (st2, f2) := LimpiarFormulario(st, f);
            GenerarInvitaciones(st2, f2, all) == Generation([], [], Warning(ArchivosNoCargados))
  {
  }

  /** A successful upload clears the first check: with a complete form in
      "todos" mode the next generation posts the event data. */
  lemma UploadEnablesGeneration(st: State, f: EventForm, files: Dict, all: AllReply)
    requires Complete(EventDataOf(f)) && st.generationMode == "todos"
    ensures var o := CargarArchivos(st, Chosen(true, true, true), Parsed(Bool(true), Null, Some(files)));
            GenerarInvitaciones(o.state, f, all).calls ==
              [AllCall(Api.Request(Api.POST, GenerateAllUrl, true), EventDataOf(f))]
  {
  }

  const FolderPlaceholder: string := "Configurar año y periodo primero"

  /** `actualizarFolderName`. */
  function FolderName(anio: string, periodo: string): (s: string)
    ensures anio == "" || periodo == "" ==> s == FolderPlaceholder
    ensures anio != "" && periodo != "" ==> s == anio + "." + periodo + "-invitaciones"
  {
    if anio != "" && periodo != "" then anio + "." + periodo + "-invitaciones" else FolderPlaceholder
  }

  /** With both values filled in, the page names the same folder the
      document generator writes to. */
  lemma FolderMatchesGenerator(anio: string, periodo: string)
    requires anio != "" && periodo != ""
    ensures FolderName(anio, periodo) == Dossier.OutputFolder(Str(anio), Str(periodo))
  {
  }

  /** The `change` listener of the mode radios: the mode is stored and the
      guest selector is hidden iff the mode is not individual. */
  function CambiarModo(st: State, mode: string): (r: (State, bool))
    ensures r.0 == st.(generationMode := mode)
    ensures r.1 <==> mode != Individual
  {
    (st.(generationMode := mode), mode != Individual)
  }

  /** In any mode other than individual the selector is ignored: an empty
      selection does not stop the generation. */
  lemma SelectorOnlyMattersInIndividualMode(st: State, f: EventForm, mode: string)
    requires st.archivosSubidos && Complete(EventDataOf(f))
    requires mode != Individual
    ensures FirstProblem(CambiarModo(st, mode).0, f.(selector := "")).None?
    ensures CambiarModo(st, mode).1
  {
  }
}

=== FILE: json.dfy ===
/** The dynamically typed values that travel between the Flask backend and the
    browser front end, restricted to the kinds the guest records use: JSON
    `null` (Python `None`, JavaScript `null`/`undefined`), booleans and strings.
    On these kinds Python's `bool(v)` and JavaScript's `Boolean(v)` agree, so
    one truthiness predicate serves both sides. */
module Json {
  import Text

  datatype Option<+T> = None | Some(value: T)

  datatype Value = Null | Bool(b: bool) | Str(s: string)

  /** Python `bool(v)` / JavaScript `Boolean(v)`: only `null`, `false` and `""` are falsy. */
  predicate Truthy(v: Value) {
    match v
    case Null => false
    case Bool(b) => b
    case Str(s) => s != ""
  }

  /** Python `a or b` / JavaScript `a || b`: the first operand if it is truthy, else the second. */
  function Or(a: Value, b: Value): (r: Value)
    ensures Truthy(a) ==> r == a
    ensures !Truthy(a) ==> r == b
    ensures Truthy(r) <==> Truthy(a) || Truthy(b)
  {
    if Truthy(a) then a else b
  }

  /** A JSON object / Python dict with string keys. */
  type Dict = map<string, Value>

  /** Python `d.get(k)` / JavaScript `d[k]`: a missing key reads as `null`. */
  function Get(d: Dict, k: string): (v: Value)
    ensures k !in d ==> v == Null
    ensures k in d ==> v == d[k]
  {
    if k in d then d[k] else Null
  }

  /** Python `d.get(k, default)`: the default only for a missing key, not for a stored `None`. */
  function GetOr(d: Dict, k: string, default: Value): (v: Value)
    ensures k !in d ==> v == default
    ensures k in d ==> v == d[k]
  {
    if k in d then d[k] else default
  }

  /** Python `f"{v}"`. */
  function PyStr(v: Value): string {
    match v
    case Null => "None"
    case Bool(b) => if b then "True" else "False"
    case Str(s) => s
  }

  /** JavaScript `${v}` inside a template literal. */
  function JsStr(v: Value): string {
    match v
    case Null => "null"
    case Bool(b) => if b then "true" else "false"
    case Str(s) => s
  }

  /** One `{cargo, organizacion}` position entry of a guest. */
  datatype Puesto = Puesto(cargo: Value, organizacion: Value)

  /** A position slot with either half filled in. */
  predicate Occupied(p: Puesto) {
    Truthy(p.cargo) || Truthy(p.organizacion)
  }
}

=== FILE: lista.dfy ===
/** The guest list page of frontend/js/invitados-lista.js: loading through
    the retrying fetch, the cards with their badges, note and position
    lines, the counter, and the edit and delete actions. Filtering, the
    counter text, the role badges and the error text are shared with
    frontend/js/app.js and live in `Roster`. */
module Lista {
  import Text
  import opened Json
  import Roster
  import Form
  import Api
  import Seqs

  /** The note line of a card. `invitado.nota.trim()` throws when the note
      is truthy but not a string. */
  datatype NotaView = NoNota | ShowNota(text: string) | NotaTypeError

  /** `invitado.nota && invitado.nota.trim() !== ""`. */
  function NotaOf(g: Roster.Guest): (n: NotaView)
    ensures n.ShowNota? ==> Get(g.fields, "nota") == Str(n.text) && Text.Trim(n.text) != ""
    ensures Get(g.fields, "nota").Str? && Text.Trim(Get(g.fields, "nota").s) != "" ==> n == ShowNota(Get(g.fields, "nota").s)
    ensures n.NotaTypeError? <==> Truthy(Get(g.fields, "nota")) && !Get(g.fields, "nota").Str?
  {
    match Get(g.fields, "nota")
    case Str(s) => if Text.Trim(s) != "" then ShowNota(s) else NoNota
    case Bool(b) => if b then NotaTypeError else NoNota
    case Null => NoNota
  }

  /** A blank note, however many spaces it holds, is never shown. */
  lemma BlankNoteHidden(g: Roster.Guest)
    requires Get(g.fields, "nota").Str? && Text.Blank(Get(g.fields, "nota").s)
    ensures NotaOf(g) == NoNota
  {
    Text.TrimEmptyIffBlank(Get(g.fields, "nota").s);
  }

  /** The position block: present when either field is truthy, with a line
      for each truthy one. */
  datatype PuestoBlock = NoPuesto | PuestoLines(puesto: Option<Value>, institucion: Option<Value>)

  function Line(v: Value): (r: Option<Value>)
    ensures r.Some? <==> Truthy(v)
    ensures r.Some? ==> r.value == v
  {
    if Truthy(v) then Some(v) else None
  }

  function PuestoOf(g: Roster.Guest): (b: PuestoBlock)
    ensures b.NoPuesto? <==> !Truthy(Get(g.fields, "puesto_completo")) && !Truthy(Get(g.fields, "institucion"))
    ensures b.PuestoLines? ==> b.puesto.Some? || b.institucion.Some?
    ensures b.PuestoLines? ==>
              b.puesto == Line(Get(g.fields, "puesto_completo")) &&
              b.institucion == Line(Get(g.fields, "institucion"))
  {
    var p := Get(g.fields, "puesto_completo");
    var i := Get(g.fields, "institucion");
    if Truthy(p) || Truthy(i) then PuestoLines(Line(p), Line(i)) else NoPuesto
  }

  const SinEspecificar: string := "Sin especificar"

  /** What a card shows. */
  datatype Card = Card(
    id: int, nombre: Value, especial: bool, badges: seq<Roster.Badge>,
    puesto: PuestoBlock, caracter: Value, nota: Option<string>)

  /** `crearCardInvitado`, or None when building it throws. */
  function CrearCard(g: Roster.Guest): (c: Option<Card>)
    ensures c.None? <==> NotaOf(g).NotaTypeError?
    ensures c.Some? ==>
              && c.value.id == g.id
              && c.value.nombre == Get(g.fields, "nombre_completo")
              && c.value.badges == Roster.RoleBadges(g)
              && c.value.especial == Roster.Flag(g, "es_invitado_especial")
              && c.value.puesto == PuestoOf(g)
              && (Truthy(Get(g.fields, "caracter_invitacion")) ==> c.value.caracter == g.fields["caracter_invitacion"])
              && (!Truthy(Get(g.fields, "caracter_invitacion")) ==> c.value.caracter == Str(SinEspecificar))
              && (c.value.nota.Some? <==> NotaOf(g).ShowNota?)
              && (c.value.nota.Some? ==> NotaOf(g) == ShowNota(c.value.nota.value))
  {
    match NotaOf(g)
    case NotaTypeError => None
    case NoNota => Some(CardWith(g, None))
    case ShowNota(t) => Some(CardWith(g, Some(t)))
  }

  /** The card of a guest once its note line is decided. */
  function CardWith(g: Roster.Guest, nota: Option<string>): Card {
    Card(
      g.id, Get(g.fields, "nombre_completo"), Roster.Flag(g, "es_invitado_especial"),
      Roster.RoleBadges(g), PuestoOf(g),
      Or(Get(g.fields, "caracter_invitacion"), Str(SinEspecificar)),
      nota)
  }

  /** The special-guest badge sits beside the role badges and does not
      replace the "Sin roles asignados" default. */
  lemma EspecialKeepsDefaultBadge(g: Roster.Guest)
    requires Roster.Flag(g, "es_invitado_especial")
    requires forall r :: !Roster.HasRole(g, r)
    requires !NotaOf(g).NotaTypeError?
    ensures CrearCard(g).value.especial && CrearCard(g).value.badges == [Roster.SinRoles]
  {
  }

  /** The list container. `Aborted` holds the cards appended before one
      threw. */
  datatype View = Loading | EmptyState | Cards(cards: seq<Card>) | Aborted(cards: seq<Card>) | ErrorView(text: string)

  /** A `forEach` whose body may throw: the items built before the first
      element that throws, and whether every element was built. */
  datatype Appended<B> = Appended(items: seq<B>, complete: bool)

  function AppendAll<A, B>(xs: seq<A>, build: A -> Option<B>): (r: Appended<B>)
    ensures r.complete <==> forall i :: 0 <= i < |xs| ==> build(xs[i]).Some?
    ensures r.complete ==> |r.items| == |xs|
    ensures !r.complete ==> |r.items| < |xs| && build(xs[|r.items|]).None?
    ensures forall i :: 0 <= i < |r.items| ==> build(xs[i]) == Some(r.items[i])
  {
    if xs == [] then Appended([], true)
    else
      match build(xs[0])
      case None => Appended([], false)
      case Some(c) =>
        var rest := AppendAll(xs[1..], build);
        assert forall i :: 1 <= i < |xs| ==> xs[1..][i - 1] == xs[i];
        Appended([c] + rest.items, rest.complete)
  }

  /** The loop that appends one card per guest, stopping at the first that
      throws. */
  function RenderAll(gs: seq<Roster.Guest>): (v: View)
    ensures v.Cards? || v.Aborted?
    ensures v.Cards? <==> forall i :: 0 <= i < |gs| ==> CrearCard(gs[i]).Some?
    ensures v.Cards? ==> |v.cards| == |gs| && forall i :: 0 <= i < |gs| ==> CrearCard(gs[i]) == Some(v.cards[i])
    ensures v.Aborted? ==>
              && |v.cards| < |gs| && CrearCard(gs[|v.cards|]).None?
              && forall i :: 0 <= i < |v.cards| ==> CrearCard(gs[i]) == Some(v.cards[i])
  {
    var a := AppendAll(gs, CrearCard);
    if a.complete then Cards(a.items) else Aborted(a.items)
  }

  /** What `mostrarInvitados` leaves: the container and the counter text. */
  datatype Shown = Shown(view: View, counter: string)

  /** `mostrarInvitados` with the counter text it finds. An empty filtered
      list shows the empty state and returns before the counter is touched;
      `fixed` instead sets the counter for that empty list. */
  function MostrarWith(guests: seq<Roster.Guest>, filtro: string, counter: string, fixed: bool): (s: Shown)
    ensures var f := Roster.FiltrarInvitados(guests, filtro);
            && (s.view.EmptyState? <==> f == [])
            && (f == [] && !fixed ==> s.counter == counter)
            && (f == [] && fixed ==> s.counter == Roster.CounterText(0))
            && (f != [] ==> s.view == RenderAll(f))
            && (s.view.Cards? ==> s.counter == Roster.CounterText(|f|))
            && (s.view.Aborted? ==> s.counter == counter)
  {
    var f := Roster.FiltrarInvitados(guests, filtro);
    if f == [] then Shown(EmptyState, if fixed then Roster.CounterText(0) else counter)
    else
      var v := RenderAll(f);
      if v.Cards? then Shown(v, Roster.CounterText(|f|)) else Shown(v, counter)
  }

  /** `mostrarInvitados` as written: an empty filtered list shows the empty
      state and keeps the counter text it found; a fully rendered list has
      one card per shown guest and a counter counting them. */
  function MostrarInvitados(guests: seq<Roster.Guest>, filtro: string, counter: string): (s: Shown)
    ensures var f := Roster.FiltrarInvitados(guests, filtro);
            && (s.view.EmptyState? <==> f == [])
            && (f == [] ==> s.counter == counter)
            && (s.view.Cards? ==> |s.view.cards| == |f| && s.counter == Roster.CounterText(|f|))
            && (f != [] ==> s.view == RenderAll(f))
  {
    MostrarWith(guests, filtro, counter, false)
  }

  /** As written, a filter that matches nothing leaves the previous count on
      screen: two guests are counted, a T1 filter empties the list, and the
      counter still reads "Total: 2 invitados". */
  lemma EmptyFilterLeavesStaleCounter()
    ensures var gs := [Roster.Guest(1, map[]), Roster.Guest(2, map[])];
            var s := MostrarInvitados(gs, "asesor_t1", Roster.CounterText(2));
            s.view == EmptyState && s.counter == Roster.CounterText(2) && s.counter != Roster.CounterText(0)
  {
    var gs := [Roster.Guest(1, map[]), Roster.Guest(2, map[])];
    var f := Roster.FiltrarInvitados(gs, "asesor_t1");
    assert f == Seqs.Filter(gs, Roster.RoleTest(Roster.AsesorT1));
    Seqs.FilterDropsAll(gs, Roster.RoleTest(Roster.AsesorT1));
    Roster.CounterTextInjective(2, 0);
  }

  /** With the correction, whenever the list renders without an error the
      counter counts exactly the guests the filter shows. */
  lemma FixedCounterMatchesShownList(guests: seq<Roster.Guest>, filtro: string, counter: string)
    ensures var s := MostrarWith(guests, filtro, counter, true);
            !s.view.Aborted? ==> s.counter == Roster.CounterText(|Roster.FiltrarInvitados(guests, filtro)|)
  {
  }

  /** The page: `invitadosData`, `filtroActual`, the container and the
      counter. */
  datatype Page = Page(data: seq<Roster.Guest>, filtro: string, view: View, counter: string)

  const EmptyCounter: string := ""

  /** `nota.trim is not a function`, the engine's message for the throwing
      note. */
  const NotaTypeErrorMessage: string := "invitado.nota.trim is not a function"

  /** The outcome of `cargarInvitados`: the page afterwards, the fetches made,
      and the list handed to the statistics module (None when it is not
      called). */
  datatype Loaded = Loaded(page: Page, fetches: nat, stats: Option<seq<Roster.Guest>>)

  /** `cargarInvitados`: fetch with retries; on success store and show the
      list and count all of it; on a thrown error show the error text. A
      card that throws while rendering lands in the same error view. */
  function CargarInvitados(p: Page, outcome: nat -> Api.Response<seq<Roster.Guest>>): (l: Loaded)
    ensures var a := Api.ObtenerInvitados(outcome, 0);
            && l.fetches == a.fetches && 1 <= l.fetches <= Api.MaxRetries + 1
            && l.page.filtro == p.filtro
            && (a.reply.Thrown? ==> l.page == p.(view := ErrorView(Roster.ErrorText(a.reply.message))) && l.stats.None?)
            && (a.reply.Resolved? ==> l.page.data == a.reply.value)
            && (a.reply.Resolved? ==>
                  (l.page.view.ErrorView? <==> MostrarInvitados(a.reply.value, p.filtro, p.counter).view.Aborted?))
            && (a.reply.Resolved? && !l.page.view.ErrorView? ==>
                  l.page.view == MostrarInvitados(a.reply.value, p.filtro, p.counter).view)
            && (a.reply.Resolved? && !l.page.view.ErrorView? ==>
                  l.page.counter == Roster.CounterText(|a.reply.value|) && l.stats == Some(a.reply.value))
            && (a.reply.Resolved? && l.page.view.ErrorView? ==>
                  l.page.view.text == Roster.ErrorText(NotaTypeErrorMessage) && l.page.counter == p.counter && l.stats.None?)
  {
    var a := Api.ObtenerInvitados(outcome, 0);
    match a.reply
    case Thrown(m) => Loaded(p.(view := ErrorView(Roster.ErrorText(m))), a.fetches, None)
    case Resolved(gs) =>
      var s := MostrarInvitados(gs, p.filtro, p.counter);
      if s.view.Aborted? then
        Loaded(Page(gs, p.filtro, ErrorView(Roster.ErrorText(NotaTypeErrorMessage)), p.counter), a.fetches, None)
      else
        Loaded(Page(gs, p.filtro, s.view, Roster.CounterText(|gs|)), a.fetches, Some(gs))
  }

  /** After a load the counter counts the whole list, even when a filter
      shows only part of it. */
  lemma LoadCountsWholeList(p: Page, outcome: nat -> Api.Response<seq<Roster.Guest>>, k: nat)
    requires k <= Api.MaxRetries && outcome(k).Ok?
    requires forall j :: 0 <= j < k ==> !outcome(j).Ok?
    requires forall i :: 0 <= i < |outcome(k).body| ==> CrearCard(outcome(k).body[i]).Some?
    ensures CargarInvitados(p, outcome).page.data == outcome(k).body
    ensures CargarInvitados(p, outcome).page.counter == Roster.CounterText(|outcome(k).body|)
  {
    Api.RetryFindsFirstOk(outcome, 0, Api.MaxRetries, Api.HttpErrorMessage, k);
    var f := Roster.FiltrarInvitados(outcome(k).body, p.filtro);
    if f != [] {
      forall i | 0 <= i < |f| ensures CrearCard(f[i]).Some? {
        assert f[i] in outcome(k).body;
      }
    }
  }

  /** An HTTP status error is shown without the connection hint. */
  lemma HttpFailureHasNoHint(p: Page, outcome: nat -> Api.Response<seq<Roster.Guest>>)
    requires forall k :: 0 <= k <= Api.MaxRetries ==> outcome(k).HttpError?
    ensures CargarInvitados(p, outcome).page.view ==
              ErrorView(Roster.ErrorPrefix + Api.HttpErrorMessage(outcome(Api.MaxRetries).status))
  {
    var m := Api.HttpErrorMessage(outcome(Api.MaxRetries).status);
    Api.ObtenerInvitadosGivesUp(outcome);
    Api.HttpErrorMessageHasNoCapitals(outcome(Api.MaxRetries).status);
    Roster.NoHintWithoutCapitals(m);
  }

  /** The index of the first guest with the given id. */
  function FindIndex(data: seq<Roster.Guest>, id: int): (r: Option<nat>)
    ensures r.None? <==> forall i :: 0 <= i < |data| ==> data[i].id != id
    ensures r.Some? ==> r.value < |data| && data[r.value].id == id &&
                        forall j :: 0 <= j < r.value ==> data[j].id != id
  {
    if data == [] then None
    else if data[0].id == id then Some(0)
    else
      var r := FindIndex(data[1..], id);
      assert forall i :: 1 <= i < |data| ==> data[1..][i - 1] == data[i];
      if r.Some? then Some(r.value + 1) else None
  }

  /** `invitadosData.find((inv) => inv.id === id)`: the first guest with
      that id. */
  function FindById(data: seq<Roster.Guest>, id: int): (r: Option<Roster.Guest>)
    ensures r.None? <==> forall i :: 0 <= i < |data| ==> data[i].id != id
    ensures r.Some? ==> exists i :: 0 <= i < |data| && data[i] == r.value && r.value.id == id &&
                                    forall j :: 0 <= j < i ==> data[j].id != id
  {
    match FindIndex(data, id)
    case None => None
    case Some(i) => Some(data[i])
  }

  const EditLoadError: string := "❌ Error al cargar datos del invitado"

  /** The form state after an edit click, the inputs it filled, and the
      error notification it raised. */
  datatype EditOutcome = EditOutcome(state: Form.EditState, fields: Option<Form.Fields>, notice: Option<string>)

  /** `editarInvitado`: a known id loads that guest into the form; an
      unknown one throws "Invitado no encontrado", which ends in the error
      notification with the form untouched. */
  function EditarInvitado(data: seq<Roster.Guest>, id: int, st: Form.EditState): (e: EditOutcome)
    ensures (exists i :: 0 <= i < |data| && data[i].id == id) <==> e.notice.None?
    ensures e.notice.Some? ==> e.notice.value == EditLoadError && e.state == st && e.fields.None?
    ensures e.notice.None? ==> e.state.held.Some? && e.state.held.value.id == id && e.state.held.value in data &&
                               Form.SubmitAction(e.state) == Form.Update(id)
  {
    match FindById(data, id)
    case None => EditOutcome(st, None, Some(EditLoadError))
    case Some(g) =>
      var x := Form.CargarParaEdicion(g);
      EditOutcome(x.state, Some(x.fields), None)
  }

  /** Editing the first guest of a list loads exactly that guest. */
  lemma EditFindsFirstMatch(data: seq<Roster.Guest>, st: Form.EditState)
    requires data != []
    ensures EditarInvitado(data, data[0].id, st).state.held == Some(data[0])
  {
  }

  const DeletedNotice: string := "✅ Invitado eliminado correctamente"
  const DeleteErrorPrefix: string := "❌ Error al eliminar invitado: "

  /** The requests a delete click issued, whether the list was reloaded, and
      its notification. */
  datatype Deletion = Deletion(requests: seq<Api.Request>, reloads: bool, notice: Option<string>)

  /** `eliminarInvitado`: nothing without confirmation; otherwise one DELETE,
      then a reload and a success notice, or the error notice. */
  function EliminarInvitado<T>(confirmed: bool, id: int, resp: Api.Response<T>): (d: Deletion)
    ensures !confirmed ==> d == Deletion([], false, None)
    ensures confirmed ==> d.requests == [Api.Request(Api.DELETE, Api.RecordUrl(id), false)]
    ensures confirmed ==> (d.reloads <==> resp.Ok?)
    ensures confirmed && resp.Ok? ==> d.notice == Some(DeletedNotice)
    ensures confirmed && !resp.Ok? ==> d.notice.Some? && Text.StartsWith(d.notice.value, DeleteErrorPrefix)
    ensures confirmed && resp.HttpError? ==> d.notice == Some(DeleteErrorPrefix + Api.HttpErrorMessage(resp.status))
    ensures confirmed && resp.Rejected? ==> d.notice == Some(DeleteErrorPrefix + resp.message)
  {
    if !confirmed then Deletion([], false, None)
    else
      var x := Api.EliminarInvitado(id, resp);
      match x.reply
      case Resolved(_) => Deletion(x.requests, true, Some(DeletedNotice))
      case Thrown(m) => Deletion(x.requests, false, Some(DeleteErrorPrefix + m))
  }

  /** A confirmed delete addresses exactly the guest that was clicked: two
      clicks send the same request iff they name the same id. */
  lemma DeleteTargetsClickedGuest<T>(m: int, n: int, rm: Api.Response<T>, rn: Api.Response<T>)
    ensures EliminarInvitado(true, m, rm).requests == EliminarInvitado(true, n, rn).requests <==> m == n
  {
    Api.RecordUrlsDistinct(m, n);
  }

  /** `configurarFiltros`: a filter click stores the filter and redraws the
      stored list. */
  function ClickFilter(p: Page, filtro: string): (q: Page)
    ensures q.data == p.data && q.filtro == filtro
    ensures q.view == MostrarInvitados(p.data, filtro, p.counter).view
    ensures Roster.FiltrarInvitados(p.data, filtro) != [] && q.view.Cards? ==>
              |q.view.cards| == |Roster.FiltrarInvitados(p.data, filtro)| &&
              q.counter == Roster.CounterText(|q.view.cards|)
  {
    var s := MostrarInvitados(p.data, filtro, p.counter);
    Page(p.data, filtro, s.view, s.counter)
  }

  /** Clicking "todos" shows a card for every stored guest. */
  lemma TodosShowsEveryGuest(p: Page)
    requires p.data != []
    requires forall i :: 0 <= i < |p.data| ==> CrearCard(p.data[i]).Some?
    ensures ClickFilter(p, "todos").view.Cards? && |ClickFilter(p, "todos").view.cards| == |p.data|
    ensures forall i :: 0 <= i < |p.data| ==> ClickFilter(p, "todos").view.cards[i] == CrearCard(p.data[i]).value
  {
    assert Roster.ParseFilter("todos").None?;
    assert Roster.FiltrarInvitados(p.data, "todos") == p.data;
    var v := RenderAll(p.data);
    assert v.Cards?;
    assert MostrarInvitados(p.data, "todos", p.counter).view == v;
  }
}

=== FILE: migration.dfy ===
/** The one-shot SQLite migration of backend/migrate_db_puesto_completo.py:
    the `invitado` table with separate position columns (`cargo`,
    `organizacion`, or the older `cargo_1`, `organizacion_1`) is rebuilt with
    one `puesto_completo` column and the new `es_invitado_especial` flag.
    The file system, the backup copy, the console prompt and a stale
    `invitado_new` table are parameters. */
module Migration {
  import Text
  import Json

  /** An SQLite value as the script reads it back. */
  datatype Cell = Null | Txt(s: string) | Integer(i: int)

  /** Python truthiness of a fetched SQLite value, which unlike the JSON
      values of the other modules may be an integer. */
  predicate Truthy(c: Cell) {
    match c
    case Null => false
    case Txt(s) => s != ""
    case Integer(i) => i != 0
  }

  /** Python `f"{c}"` of a fetched value. */
  function PyStr(c: Cell): string {
    match c
    case Null => "None"
    case Txt(s) => s
    case Integer(i) => Text.IntToString(i)
  }

  /** A row of the old table by column name. */
  type Row = map<string, Cell>

  /** The old `invitado` table: its columns (`PRAGMA table_info`) and rows. */
  datatype Table = Table(columns: set<string>, rows: seq<Row>)

  /** A column that is not there reads as the `NULL` the SELECT puts in its place. */
  function Read(r: Row, col: Json.Option<string>): (c: Cell)
    ensures col.None? ==> c == Null
  {
    match col
    case None => Null
    case Some(k) => if k in r then r[k] else Null
  }

  /** The columns both SELECTs read unconditionally. */
  const BaseColumns: set<string> := {"id", "nombre_completo", "caracter_invitacion", "nota",
    "es_asesor_t1", "es_asesor_t2", "puede_ser_jurado_protocolo", "puede_ser_jurado_informe"}

  /** The columns of `invitado_new`. */
  const NewColumns: set<string> := {"id", "nombre_completo", "caracter_invitacion", "nota",
    "puesto_completo", "abreviacion_org", "es_invitado_especial",
    "es_asesor_t1", "es_asesor_t2", "puede_ser_jurado_protocolo", "puede_ser_jurado_informe"}

  /** `puesto_completo` from a cargo and an organisation: `"{cargo} del {org}"`
      when both are truthy, else whichever is truthy, else `""`. */
  function CombinePuesto(cargo: Cell, org: Cell): (r: Cell)
    ensures Truthy(r) <==> Truthy(cargo) || Truthy(org)
    ensures !Truthy(org) ==> r == (if Truthy(cargo) then cargo else Txt(""))
    ensures !Truthy(cargo) ==> r == (if Truthy(org) then org else Txt(""))
    ensures Truthy(cargo) && Truthy(org) ==>
              r.Txt? && Text.StartsWith(r.s, PyStr(cargo)) && Text.EndsWith(r.s, " del " + PyStr(org))
    ensures Truthy(cargo) && Truthy(org) ==> |r.s| == |PyStr(cargo)| + |" del "| + |PyStr(org)|
  {
    if Truthy(cargo) && Truthy(org) then
      var s := PyStr(cargo) + " del " + PyStr(org);
      assert Text.StartsWith(s, PyStr(cargo)) && Text.EndsWith(s, " del " + PyStr(org)) by {
        Text.JoinAffixes(PyStr(cargo), " del ", PyStr(org));
      }
      Txt(s)
    else if Truthy(cargo) then cargo
    else if Truthy(org) then org
    else Txt("")
  }

  /** The contract of `CombinePuesto` pins the combined text: with both
      halves truthy it is exactly `"{cargo} del {org}"`. */
  lemma CombineIsCargoDelOrg(cargo: Cell, org: Cell)
    requires Truthy(cargo) && Truthy(org)
    ensures CombinePuesto(cargo, org) == Txt(PyStr(cargo) + " del " + PyStr(org))
  {
    var r := CombinePuesto(cargo, org);
    Text.AffixesDetermine(r.s, PyStr(cargo), " del " + PyStr(org));
    assert PyStr(cargo) + (" del " + PyStr(org)) == PyStr(cargo) + " del " + PyStr(org);
  }

  /** The combined position is never NULL, even when both halves are. */
  lemma CombineNeverNull(cargo: Cell, org: Cell)
    ensures CombinePuesto(cargo, org) != Null
  {
  }

  /** TEXT affinity of the new table: an integer written to a text column is
      stored as its decimal text. */
  function TextAffinity(c: Cell): (r: Cell)
    ensures c.Integer? ==> r == Txt(Text.IntToString(c.i))
    ensures !c.Integer? ==> r == c
    ensures PyStr(r) == PyStr(c)
  {
    match c
    case Integer(i) => Txt(Text.IntToString(i))
    case _ => c
  }

  /** A row of `invitado_new`. */
  datatype NewRow = NewRow(
    id: Cell, nombreCompleto: Cell, caracterInvitacion: Cell, nota: Cell,
    puestoCompleto: Cell, abreviacionOrg: Cell, esInvitadoEspecial: Cell,
    esAsesorT1: Cell, esAsesorT2: Cell, juradoProtocolo: Cell, juradoInforme: Cell)

  /** Which old columns stand in for cargo, organisation and abbreviation;
      `None` is the literal `NULL` of the SELECT. */
  datatype Selection = Selection(cargo: Json.Option<string>, org: Json.Option<string>, abrev: Json.Option<string>)

  /** Case 1 of the script: `cargo`, `organizacion` and, if present, `abreviacion_org`. */
  function FlatSelection(columns: set<string>): Selection {
    Selection(Json.Some("cargo"), Json.Some("organizacion"),
              if "abreviacion_org" in columns then Json.Some("abreviacion_org") else Json.None)
  }

  /** The abbreviation column each branch reads: `abreviacion_org` in the flat
      layout and `abreviacion_org_1` in the older one, each only when the
      table has it. */
  lemma AbbreviationSource(columns: set<string>)
    ensures FlatSelection(columns).abrev.Some? <==> "abreviacion_org" in columns
    ensures FlatSelection(columns).abrev.Some? ==> FlatSelection(columns).abrev.value == "abreviacion_org"
    ensures LegacySelection(columns).abrev.Some? <==> "abreviacion_org_1" in columns
    ensures LegacySelection(columns).abrev.Some? ==> LegacySelection(columns).abrev.value == "abreviacion_org_1"
  {
  }

  /** Case 2: each of `cargo_1`, `organizacion_1`, `abreviacion_org_1` if present. */
  function LegacySelection(columns: set<string>): Selection {
    Selection(if "cargo_1" in columns then Json.Some("cargo_1") else Json.None,
              if "organizacion_1" in columns then Json.Some("organizacion_1") else Json.None,
              if "abreviacion_org_1" in columns then Json.Some("abreviacion_org_1") else Json.None)
  }

  /** The INSERT of one old row: copied fields, the combined position, the
      abbreviation, and `es_invitado_especial = 0`. */
  function MigrateRow(r: Row, sel: Selection): (n: NewRow)
    ensures n.esInvitadoEspecial == Integer(0)
    ensures n.id == Read(r, Json.Some("id"))
    ensures PyStr(n.nombreCompleto) == PyStr(Read(r, Json.Some("nombre_completo")))
    ensures PyStr(n.caracterInvitacion) == PyStr(Read(r, Json.Some("caracter_invitacion")))
    ensures PyStr(n.nota) == PyStr(Read(r, Json.Some("nota")))
    ensures n.nombreCompleto == Null <==> Read(r, Json.Some("nombre_completo")) == Null
    ensures n.caracterInvitacion == Null <==> Read(r, Json.Some("caracter_invitacion")) == Null
    ensures PyStr(n.puestoCompleto) == PyStr(CombinePuesto(Read(r, sel.cargo), Read(r, sel.org)))
    ensures PyStr(n.abreviacionOrg) == PyStr(Read(r, sel.abrev))
    ensures sel.abrev.None? ==> n.abreviacionOrg == Null
    ensures n.nota == Null <==> Read(r, Json.Some("nota")) == Null
    ensures n.abreviacionOrg == Null <==> Read(r, sel.abrev) == Null
    ensures n.puestoCompleto != Null
    ensures !n.nombreCompleto.Integer? && !n.caracterInvitacion.Integer? && !n.nota.Integer?
    ensures !n.puestoCompleto.Integer? && !n.abreviacionOrg.Integer?
    ensures n.esAsesorT1 == Read(r, Json.Some("es_asesor_t1")) && n.esAsesorT2 == Read(r, Json.Some("es_asesor_t2"))
    ensures n.juradoProtocolo == Read(r, Json.Some("puede_ser_jurado_protocolo"))
    ensures n.juradoInforme == Read(r, Json.Some("puede_ser_jurado_informe"))
  {
    NewRow(
      Read(r, Json.Some("id")),
      TextAffinity(Read(r, Json.Some("nombre_completo"))),
      TextAffinity(Read(r, Json.Some("caracter_invitacion"))),
      TextAffinity(Read(r, Json.Some("nota"))),
      TextAffinity(CombinePuesto(Read(r, sel.cargo), Read(r, sel.org))),
      TextAffinity(Read(r, sel.abrev)),
      Integer(0),
      Read(r, Json.Some("es_asesor_t1")),
      Read(r, Json.Some("es_asesor_t2")),
      Read(r, Json.Some("puede_ser_jurado_protocolo")),
      Read(r, Json.Some("puede_ser_jurado_informe")))
  }

  /** The NOT NULL columns of `invitado_new` reject the row. */
  predicate ViolatesNotNull(n: NewRow) {
    n.nombreCompleto == Null || n.caracterInvitacion == Null
  }

  /** The INSERT loop over any row mapping: one new row per old row in
      order, or None as soon as one INSERT raises. */
  function InsertEach<R>(rows: seq<R>, f: R -> NewRow): (r: Json.Option<seq<NewRow>>)
    ensures r.None? <==> exists j :: 0 <= j < |rows| && ViolatesNotNull(f(rows[j]))
    ensures r.Some? ==> |r.value| == |rows| && forall j :: 0 <= j < |rows| ==> r.value[j] == f(rows[j])
  {
    if rows == [] then Json.Some([])
    else if ViolatesNotNull(f(rows[0])) then Json.None
    else
      var rest := InsertEach(rows[1..], f);
      assert forall j :: 1 <= j < |rows| ==> rows[1..][j - 1] == rows[j];
      if rest.None? then Json.None else Json.Some([f(rows[0])] + rest.value)
  }

  /** The INSERT loop of the script, with the row mapping of the branch. */
  function MigrateRows(rows: seq<Row>, sel: Selection): (r: Json.Option<seq<NewRow>>)
    ensures r.None? <==> exists j :: 0 <= j < |rows| && ViolatesNotNull(MigrateRow(rows[j], sel))
    ensures r.Some? ==> |r.value| == |rows| && forall j :: 0 <= j < |rows| ==> r.value[j] == MigrateRow(rows[j], sel)
  {
    InsertEach(rows, (x: Row) => MigrateRow(x, sel))
  }

  /** What the script finds on disk and at the console. */
  datatype Env = Env(
    dbExists: bool,       // os.path.exists(db_path)
    backupOk: bool,       // shutil.copy2 to the backup path succeeds
    answer: string,       // the reply to "¿Continuar de todas formas? (s/n)"
    staleNewTable: bool)  // an `invitado_new` table left by an earlier run

  /** `respuesta.lower() == 's'`: only "s" and "S" lower-case to "s". */
  predicate Confirms(answer: string) {
    answer == "s" || answer == "S"
  }

  /** The script's return value and the table it leaves: `None` when the
      database is as it was (never touched, or rolled back and restored from
      the backup), `Some(rows)` when `invitado` was replaced by these rows. */
  datatype Outcome = Outcome(returned: bool, replaced: Json.Option<seq<NewRow>>)

  predicate AlreadyMigrated(columns: set<string>) {
    "puesto_completo" in columns && "cargo" !in columns
  }

  /** Every row has a name and a caracter, so no INSERT breaks a NOT NULL
      column. */
  predicate NamesPresent(rows: seq<Row>) {
    forall j :: 0 <= j < |rows| ==>
      Read(rows[j], Json.Some("nombre_completo")) != Null && Read(rows[j], Json.Some("caracter_invitacion")) != Null
  }

  /** `out` holds the rows `rows` map to under `sel`, one for one, in order. */
  predicate RowsMapped(out: seq<NewRow>, rows: seq<Row>, sel: Selection) {
    |out| == |rows| && forall j :: 0 <= j < |rows| ==> out[j] == MigrateRow(rows[j], sel)
  }

  /** Case 1 of the script: separate `cargo` and `organizacion` columns. */
  predicate FlatLayout(columns: set<string>) {
    "cargo" in columns && "organizacion" in columns
  }

  /** Case 2: not case 1, but `cargo_1` or `organizacion_1` is there. */
  predicate LegacyLayout(columns: set<string>) {
    !FlatLayout(columns) && ("cargo_1" in columns || "organizacion_1" in columns)
  }

  /** The INSERT loop succeeds exactly when every row has a name and a
      caracter, and then maps every row. */
  lemma MigrateRowsSucceeds(rows: seq<Row>, sel: Selection)
    ensures MigrateRows(rows, sel).Some? <==> NamesPresent(rows)
    ensures MigrateRows(rows, sel).Some? ==> RowsMapped(MigrateRows(rows, sel).value, rows, sel)
  {
    if !NamesPresent(rows) {
      var j :| 0 <= j < |rows| &&
        !(Read(rows[j], Json.Some("nombre_completo")) != Null && Read(rows[j], Json.Some("caracter_invitacion")) != Null);
      assert ViolatesNotNull(MigrateRow(rows[j], sel));
    }
  }

  /** The rows migrated once the new table exists and the old table has rows.
      `fixed` selects the corrected handling of a table without any position
      column (see `Migrate`). The flat layout copies through `cargo` and
      `organizacion`, the older one through `cargo_1` and `organizacion_1`;
      the copy fails when a base column is missing or a row lacks a name or
      a caracter. As written, a table with neither layout copies nothing. */
  function CopyRows(t: Table, fixed: bool): (r: Json.Option<seq<NewRow>>)
    ensures FlatLayout(t.columns) ==>
              && (r.Some? <==> BaseColumns <= t.columns && NamesPresent(t.rows))
              && (r.Some? ==> RowsMapped(r.value, t.rows, FlatSelection(t.columns)))
    ensures !FlatLayout(t.columns) && (LegacyLayout(t.columns) || fixed) ==>
              && (r.Some? <==> BaseColumns <= t.columns && NamesPresent(t.rows))
              && (r.Some? ==> RowsMapped(r.value, t.rows, LegacySelection(t.columns)))
    ensures !FlatLayout(t.columns) && !LegacyLayout(t.columns) && !fixed ==> r == Json.Some([])
  {
    MigrateRowsSucceeds(t.rows, FlatSelection(t.columns));
    MigrateRowsSucceeds(t.rows, LegacySelection(t.columns));
    if "cargo" in t.columns && "organizacion" in t.columns then
      if !(BaseColumns <= t.columns) then Json.None else MigrateRows(t.rows, FlatSelection(t.columns))
    else if "cargo_1" in t.columns || "organizacion_1" in t.columns || fixed then
      if !(BaseColumns <= t.columns) then Json.None else MigrateRows(t.rows, LegacySelection(t.columns))
    else Json.Some([])
  }

  /** `migrate_database` with the script's own handling (`fixed == false`) or
      with a table lacking every position column migrated like the older
      layout instead of being emptied (`fixed == true`). */
  function MigrateWith(db: Json.Option<Table>, env: Env, fixed: bool): (o: Outcome)
    ensures !env.dbExists || !env.backupOk ==> o == Outcome(false, Json.None)
    ensures !o.returned ==> o.replaced.None?
    ensures o.replaced.Some? ==> o.returned && db.Some? && !env.staleNewTable
    ensures o.returned && o.replaced.None? ==> db.Some? && AlreadyMigrated(db.value.columns)
  {
    if !env.dbExists then Outcome(false, Json.None)
    else if !env.backupOk then Outcome(false, Json.None)
    else
      var columns := if db.Some? then db.value.columns else {};
      if AlreadyMigrated(columns) then Outcome(true, Json.None)
      else if "puesto_completo" in columns && !Confirms(env.answer) then Outcome(false, Json.None)
      else if db.None? then Outcome(false, Json.None)             // SELECT COUNT(*) raises
      else if env.staleNewTable then Outcome(false, Json.None)   // CREATE TABLE raises
      else if |db.value.rows| == 0 then Outcome(true, Json.Some([]))
      else
        match CopyRows(db.value, fixed)
        case None => Outcome(false, Json.None)                    // rolled back, backup restored
        case Some(rows) => Outcome(true, Json.Some(rows))
  }

  /** The script as written. */
  function Migrate(db: Json.Option<Table>, env: Env): (o: Outcome)
    ensures !env.dbExists || !env.backupOk ==> o == Outcome(false, Json.None)
    ensures !o.returned ==> o.replaced.None?
    ensures o.replaced.Some? ==> o.returned && db.Some? && !env.staleNewTable
    ensures o.returned && o.replaced.None? ==> db.Some? && AlreadyMigrated(db.value.columns)
  {
    MigrateWith(db, env, false)
  }

  /** The success direction for the flat layout: with the database and its
      backup in place, no stale `invitado_new`, a confirmed or absent
      `puesto_completo`, the base columns present and every row named, the
      script returns True and replaces the table with every row mapped. */
  lemma FlatTableIsMigrated(t: Table, env: Env)
    requires env.dbExists && env.backupOk && !env.staleNewTable
    requires FlatLayout(t.columns) && BaseColumns <= t.columns && NamesPresent(t.rows)
    requires "puesto_completo" in t.columns ==> Confirms(env.answer)
    ensures var o := Migrate(Json.Some(t), env);
            o.returned && o.replaced.Some? && RowsMapped(o.replaced.value, t.rows, FlatSelection(t.columns))
  {
    var o := Migrate(Json.Some(t), env);
    if |t.rows| == 0 {
      assert o.replaced == Json.Some([]);
    } else {
      assert o.replaced == CopyRows(t, false);
    }
  }

  /** The same for the older layout, through `cargo_1` and `organizacion_1`;
      a table of that layout that also has `puesto_completo` counts as
      already migrated and is left alone. */
  lemma LegacyTableIsMigrated(t: Table, env: Env)
    requires env.dbExists && env.backupOk && !env.staleNewTable
    requires LegacyLayout(t.columns) && BaseColumns <= t.columns && NamesPresent(t.rows)
    requires !AlreadyMigrated(t.columns) && ("puesto_completo" in t.columns ==> Confirms(env.answer))
    ensures var o := Migrate(Json.Some(t), env);
            o.returned && o.replaced.Some? && RowsMapped(o.replaced.value, t.rows, LegacySelection(t.columns))
  {
    var o := Migrate(Json.Some(t), env);
    if |t.rows| == 0 {
      assert o.replaced == Json.Some([]);
    } else {
      assert o.replaced == CopyRows(t, false);
    }
  }

  /** A table without rows that is not yet migrated is rebuilt empty in the
      new layout, whatever its columns. */
  lemma EmptyTableIsRebuilt(t: Table, env: Env)
    requires env.dbExists && env.backupOk && !env.staleNewTable && !AlreadyMigrated(t.columns)
    requires "puesto_completo" in t.columns ==> Confirms(env.answer)
    requires t.rows == []
    ensures Migrate(Json.Some(t), env) == Outcome(true, Json.Some([]))
  {
  }

  /** A table already in the new layout is left alone and reported as done,
      whatever the prompt answer. */
  lemma AlreadyMigratedIsNoOp(t: Table, env: Env)
    requires env.dbExists && env.backupOk
    requires AlreadyMigrated(t.columns)
    ensures Migrate(Json.Some(t), env) == Outcome(true, Json.None)
  {
  }

  /** The table the script leaves carries the new layout, so a second run
      finds it already migrated and changes nothing. */
  lemma SecondRunIsNoOp(rows: seq<Row>, env: Env)
    requires env.dbExists && env.backupOk
    ensures Migrate(Json.Some(Table(NewColumns, rows)), env) == Outcome(true, Json.None)
  {
    assert "puesto_completo" in NewColumns && "cargo" !in NewColumns;
  }

  /** A half-applied table (`puesto_completo` next to `cargo`) is migrated
      only after the console answer confirms it. */
  lemma PartialNeedsConfirmation(t: Table, env: Env)
    requires env.dbExists && env.backupOk
    requires "puesto_completo" in t.columns && "cargo" in t.columns
    ensures !Confirms(env.answer) ==> Migrate(Json.Some(t), env) == Outcome(false, Json.None)
  {
  }

  /** In both layouts every old row becomes exactly one new row, in order,
      with its position combined from the selected columns and the special
      flag cleared. */
  lemma MigratedRowsMatchSource(t: Table, env: Env)
    requires ("cargo" in t.columns && "organizacion" in t.columns) || "cargo_1" in t.columns || "organizacion_1" in t.columns
    ensures var o := Migrate(Json.Some(t), env);
            o.replaced.Some? && |t.rows| > 0 ==>
              var sel := if "cargo" in t.columns && "organizacion" in t.columns then FlatSelection(t.columns)
                         else LegacySelection(t.columns);
              && |o.replaced.value| == |t.rows|
              && forall j :: 0 <= j < |t.rows| ==> o.replaced.value[j] == MigrateRow(t.rows[j], sel)
  {
    var o := Migrate(Json.Some(t), env);
    if o.replaced.Some? && |t.rows| > 0 {
      var sel := if "cargo" in t.columns && "organizacion" in t.columns then FlatSelection(t.columns)
                 else LegacySelection(t.columns);
      assert o.replaced == CopyRows(t, false);
      assert BaseColumns <= t.columns;
      assert CopyRows(t, false) == MigrateRows(t.rows, sel);
    }
  }

  /** A guest whose name is NULL aborts the whole migration: the database is
      restored and the script returns False. */
  lemma NullNameAbortsMigration(t: Table, env: Env, j: int)
    requires env.dbExists && env.backupOk && !env.staleNewTable && !AlreadyMigrated(t.columns)
    requires "puesto_completo" !in t.columns
    requires "cargo" in t.columns && "organizacion" in t.columns && BaseColumns <= t.columns
    requires 0 <= j < |t.rows| && Read(t.rows[j], Json.Some("nombre_completo")) == Null
    ensures Migrate(Json.Some(t), env) == Outcome(false, Json.None)
  {
    assert ViolatesNotNull(MigrateRow(t.rows[j], FlatSelection(t.columns)));
  }

  /** The script as written empties a populated table that has neither
      layout's position columns and still reports success. */
  lemma MigrateDropsGuestsWithoutPositionColumns()
    ensures var row: Row := map["id" := Integer(1), "nombre_completo" := Txt("Ana"), "caracter_invitacion" := Txt("Jurado")];
            var t := Table(BaseColumns, [row]);
            Migrate(Json.Some(t), Env(true, true, "", false)) == Outcome(true, Json.Some([]))
  {
    assert "puesto_completo" !in BaseColumns && "cargo" !in BaseColumns && "cargo_1" !in BaseColumns;
    assert "organizacion_1" !in BaseColumns;
  }

  /** The corrected migration keeps every guest: whenever it replaces a
      populated table, the new table has exactly as many rows. */
  lemma FixedMigrationKeepsEveryGuest(t: Table, env: Env)
    ensures var o := MigrateWith(Json.Some(t), env, true);
            o.replaced.Some? && |t.rows| > 0 ==> |o.replaced.value| == |t.rows|
  {
  }
}

=== FILE: roster.dfy ===
/** List logic that frontend/js/app.js and frontend/js/invitados-lista.js
    share word for word: the role filter, the counter text, the role badges
    and the connection hint of the error view. A guest is the JSON object the
    backend returned, with its numeric id kept apart. */
module Roster {
  import Text
  import Seqs
  import opened Json

  /** A guest as the browser holds it. */
  datatype Guest = Guest(id: int, fields: Dict)

  /** `inv.<key>` read as a condition. */
  predicate Flag(g: Guest, key: string) {
    Truthy(Get(g.fields, key))
  }

  /** The four role flags, in badge order. */
  datatype Role = AsesorT1 | AsesorT2 | JuradoProtocolo | JuradoInforme

  function FlagKey(r: Role): string {
    match r
    case AsesorT1 => "es_asesor_t1"
    case AsesorT2 => "es_asesor_t2"
    case JuradoProtocolo => "puede_ser_jurado_protocolo"
    case JuradoInforme => "puede_ser_jurado_informe"
  }

  predicate HasRole(g: Guest, r: Role) {
    Flag(g, FlagKey(r))
  }

  /** The `switch (filtroActual)`: a role, or None for "todos" and for any
      value no case names. */
  function ParseFilter(filtro: string): (r: Option<Role>)
    ensures r == Some(AsesorT1) <==> filtro == "asesor_t1"
    ensures r == Some(AsesorT2) <==> filtro == "asesor_t2"
    ensures r == Some(JuradoProtocolo) <==> filtro == "jurado_protocolo"
    ensures r == Some(JuradoInforme) <==> filtro == "jurado_informe"
  {
    if filtro == "asesor_t1" then Some(AsesorT1)
    else if filtro == "asesor_t2" then Some(AsesorT2)
    else if filtro == "jurado_protocolo" then Some(JuradoProtocolo)
    else if filtro == "jurado_informe" then Some(JuradoInforme)
    else None
  }

  /** The callback of `invitados.filter` for a role. */
  function RoleTest(r: Role): Guest -> bool {
    g => HasRole(g, r)
  }

  /** `filtrarInvitados`: the guests holding the selected role, in their
      order; every guest for "todos" or an unknown filter. */
  function FiltrarInvitados(guests: seq<Guest>, filtro: string): (r: seq<Guest>)
    ensures ParseFilter(filtro).None? ==> r == guests
    ensures ParseFilter(filtro).Some? ==>
              forall g :: g in r <==> g in guests && HasRole(g, ParseFilter(filtro).value)
    ensures Seqs.IsSubsequence(r, guests) && |r| <= |guests|
  {
    match ParseFilter(filtro)
    case None =>
      assert Seqs.IsSubsequence(guests, guests) by { SubsequenceRefl(guests); }
      guests
    case Some(role) =>
      assert Seqs.IsSubsequence(Seqs.Filter(guests, RoleTest(role)), guests) by {
        Seqs.FilterPreserves(guests, RoleTest(role));
      }
      Seqs.Filter(guests, RoleTest(role))
  }

  lemma {:induction false} SubsequenceRefl<T>(s: seq<T>)
    ensures Seqs.IsSubsequence(s, s)
    decreases |s|
  {
    if |s| > 0 {
      SubsequenceRefl(s[1..]);
    }
  }

  /** A role filter keeps each guest exactly as often as the input holds it. */
  lemma FilterKeepsMultiplicity(guests: seq<Guest>, role: Role)
    ensures forall g :: multiset(Seqs.Filter(guests, RoleTest(role)))[g] ==
                        if HasRole(g, role) then multiset(guests)[g] else 0
  {
    Seqs.FilterPreserves(guests, RoleTest(role));
  }

  /** Applying the same filter twice equals applying it once. */
  lemma FiltrarIdempotent(guests: seq<Guest>, filtro: string)
    ensures FiltrarInvitados(FiltrarInvitados(guests, filtro), filtro) == FiltrarInvitados(guests, filtro)
  {
    if ParseFilter(filtro).Some? {
      Seqs.FilterIdempotent(guests, RoleTest(ParseFilter(filtro).value));
    }
  }

  /** `Total: ${count} invitado${count !== 1 ? "s" : ""}`. */
  function CounterText(count: int): (r: string)
    ensures Text.StartsWith(r, "Total: ")
    ensures Text.EndsWith(r, "invitados") <==> count != 1
    ensures !Text.EndsWith(r, "invitados") ==> Text.EndsWith(r, " invitado")
  {
    var r := "Total: " + Text.IntToString(count) + " invitado" + (if count != 1 then "s" else "");
    assert r[..7] == "Total: ";
    assert count != 1 ==> r[|r| - 9..] == "invitados";
    assert count == 1 ==> r[|r| - 9..] == " invitado" && r[|r| - 9] != "invitados"[0];
    r
  }

  predicate NumberChar(c: char) {
    Text.IsDigit(c) || c == '-'
  }

  /** Length of the run of digits and minus signs that starts `t`. */
  function NumberRun(t: string): (n: nat)
    ensures n <= |t|
  {
    if |t| > 0 && NumberChar(t[0]) then 1 + NumberRun(t[1..]) else 0
  }

  /** A rendered number followed by a space is read back whole. */
  lemma {:induction false} NumberRunOf(a: string, rest: string)
    requires forall i :: 0 <= i < |a| ==> NumberChar(a[i])
    requires |rest| > 0 && rest[0] == ' '
    ensures NumberRun(a + rest) == |a|
    decreases |a|
  {
    if |a| > 0 {
      assert (a + rest)[1..] == a[1..] + rest;
      NumberRunOf(a[1..], rest);
    } else {
      assert (a + rest)[0] == ' ';
    }
  }

  /** The text after "Total: " is the rendered count, then a suffix that
      starts with a space. */
  lemma CounterTextBody(count: int)
    ensures CounterText(count)[7..] == Text.IntToString(count) + (" invitado" + (if count != 1 then "s" else ""))
  {
  }

  /** A number followed by a space-led suffix is determined by the text. */
  lemma NumberPrefixDetermined(a: string, sa: string, b: string, sb: string)
    requires forall i :: 0 <= i < |a| ==> NumberChar(a[i])
    requires forall i :: 0 <= i < |b| ==> NumberChar(b[i])
    requires |sa| > 0 && sa[0] == ' ' && |sb| > 0 && sb[0] == ' '
    requires a + sa == b + sb
    ensures a == b
  {
    NumberRunOf(a, sa);
    NumberRunOf(b, sb);
    assert a == (a + sa)[..|a|];
    assert b == (b + sb)[..|b|];
  }

  /** The counter tells counts apart: distinct counts give distinct texts. */
  lemma CounterTextInjective(m: int, n: int)
    ensures CounterText(m) == CounterText(n) ==> m == n
  {
    if CounterText(m) == CounterText(n) {
      CounterTextBody(m);
      CounterTextBody(n);
      NumberPrefixDetermined(Text.IntToString(m), " invitado" + (if m != 1 then "s" else ""),
                             Text.IntToString(n), " invitado" + (if n != 1 then "s" else ""));
      Text.IntToStringInjective(m, n);
    }
  }

  /** `actualizarContador(cantidad = null)`: the given count, or the length
      of the whole list when called without one. */
  function ActualizarContador(cantidad: Option<int>, invitadosData: seq<Guest>): (r: string)
    ensures cantidad.None? ==> r == CounterText(|invitadosData|)
    ensures cantidad.Some? ==> r == CounterText(cantidad.value)
  {
    CounterText(match cantidad case Some(n) => n case None => |invitadosData|)
  }

  /** The badge row of a card. */
  datatype Badge = T1 | T2 | Protocolo | Informe | SinRoles

  function BadgeOf(r: Role): Badge {
    match r
    case AsesorT1 => T1
    case AsesorT2 => T2
    case JuradoProtocolo => Protocolo
    case JuradoInforme => Informe
  }

  /** Position of a badge in the row. */
  function Rank(b: Badge): nat {
    match b
    case T1 => 0
    case T2 => 1
    case Protocolo => 2
    case Informe => 3
    case SinRoles => 4
  }

  /** The four role flags of a guest, read once. */
  datatype RoleSet = RoleSet(t1: bool, t2: bool, protocolo: bool, informe: bool)

  function RolesOf(g: Guest): RoleSet {
    RoleSet(HasRole(g, AsesorT1), HasRole(g, AsesorT2), HasRole(g, JuradoProtocolo), HasRole(g, JuradoInforme))
  }

  predicate Holds(rs: RoleSet, r: Role) {
    match r
    case AsesorT1 => rs.t1
    case AsesorT2 => rs.t2
    case JuradoProtocolo => rs.protocolo
    case JuradoInforme => rs.informe
  }

  lemma RolesOfHolds(g: Guest)
    ensures forall r :: Holds(RolesOf(g), r) <==> HasRole(g, r)
  {
    forall r ensures Holds(RolesOf(g), r) <==> HasRole(g, r) {
      match r
      case AsesorT1 => assert Holds(RolesOf(g), r) == HasRole(g, AsesorT1);
      case AsesorT2 => assert Holds(RolesOf(g), r) == HasRole(g, AsesorT2);
      case JuradoProtocolo => assert Holds(RolesOf(g), r) == HasRole(g, JuradoProtocolo);
      case JuradoInforme => assert Holds(RolesOf(g), r) == HasRole(g, JuradoInforme);
    }
  }

  predicate Ascending(s: seq<Badge>) {
    forall i, j :: 0 <= i < j < |s| ==> Rank(s[i]) < Rank(s[j])
  }

  /** One `if (invitado.<flag>)` of the badge code: the badge is appended
      when its role is held. */
  function Push(s: seq<Badge>, held: bool, b: Badge): (r: seq<Badge>)
    requires Ascending(s) && forall i :: 0 <= i < |s| ==> Rank(s[i]) < Rank(b)
    ensures Ascending(r) && |r| <= |s| + 1
    ensures forall x :: x in r <==> x in s || (held && x == b)
    ensures forall i :: 0 <= i < |r| ==> Rank(r[i]) <= Rank(b)
  {
    if held then s + [b] else s
  }

  /** The role badges alone, before the default applies. */
  function HeldBadges(rs: RoleSet): (r: seq<Badge>)
    ensures (T1 in r <==> rs.t1) && (T2 in r <==> rs.t2)
    ensures (Protocolo in r <==> rs.protocolo) && (Informe in r <==> rs.informe)
    ensures SinRoles !in r
    ensures Ascending(r) && |r| <= 4
  {
    var r1 := Push([], rs.t1, T1);
    assert T1 in r1 <==> rs.t1;
    var r2 := Push(r1, rs.t2, T2);
    assert (T1 in r2 <==> rs.t1) && (T2 in r2 <==> rs.t2) && Protocolo !in r2 && Informe !in r2;
    var r3 := Push(r2, rs.protocolo, Protocolo);
    assert (T1 in r3 <==> rs.t1) && (T2 in r3 <==> rs.t2) && (Protocolo in r3 <==> rs.protocolo) && Informe !in r3;
    Push(r3, rs.informe, Informe)
  }

  /** A role's badge is in the row exactly when the role is held. */
  lemma HeldBadgesRoles(rs: RoleSet)
    ensures forall role :: BadgeOf(role) in HeldBadges(rs) <==> Holds(rs, role)
  {
    forall role ensures BadgeOf(role) in HeldBadges(rs) <==> Holds(rs, role) {
      match role
      case AsesorT1 =>
      case AsesorT2 =>
      case JuradoProtocolo =>
      case JuradoInforme =>
    }
  }

  /** The role a role badge stands for. */
  function RoleOf(b: Badge): Role
    requires b != SinRoles
  {
    match b
    case T1 => AsesorT1
    case T2 => AsesorT2
    case Protocolo => JuradoProtocolo
    case Informe => JuradoInforme
  }

  /** `rolesHTML || "Sin roles asignados"`: one badge per role held, in the
      order T1, T2, Protocolo, Informe, or the default badge alone. */
  function RoleBadges(g: Guest): (r: seq<Badge>)
    ensures r == [SinRoles] <==> forall role :: !HasRole(g, role)
    ensures SinRoles in r <==> forall role :: !HasRole(g, role)
    ensures forall role :: BadgeOf(role) in r <==> HasRole(g, role)
    ensures Ascending(r) && 1 <= |r| <= 4
  {
    var held := HeldBadges(RolesOf(g));
    HeldRowOf(g);
    if held == [] then [SinRoles] else held
  }

  /** The role badges of a guest are those of its roles, and there are none
      exactly when it holds no role. */
  lemma HeldRowOf(g: Guest)
    ensures var held := HeldBadges(RolesOf(g));
            && (forall role :: BadgeOf(role) in held <==> HasRole(g, role))
            && (held == [] <==> forall role :: !HasRole(g, role))
  {
    RolesOfHolds(g);
    HeldBadgesRoles(RolesOf(g));
    var held := HeldBadges(RolesOf(g));
    if held != [] {
      assert held[0] in held;
      assert BadgeOf(RoleOf(held[0])) == held[0];
    }
  }

  /** The first badge of a row in badge order has the lowest rank. */
  lemma HeadRanksLowest(a: seq<Badge>, x: Badge)
    requires Ascending(a) && x in a
    ensures Rank(a[0]) <= Rank(x)
  {
  }

  /** The rest of a row in badge order holds every badge but the first. */
  lemma TailMembers(a: seq<Badge>, x: Badge)
    requires Ascending(a) && a != []
    ensures x in a[1..] <==> x in a && x != a[0]
  {
    if x in a && x != a[0] {
      var j :| 0 <= j < |a| && a[j] == x;
      assert a[1..][j - 1] == x;
    }
    if x in a[1..] {
      var j :| 0 <= j < |a[1..]| && a[1..][j] == x;
      assert a[j + 1] == x;
    }
  }

  /** Two rows in badge order with the same badges are the same row. */
  lemma {:induction false} AscendingRowsEqual(a: seq<Badge>, b: seq<Badge>)
    requires Ascending(a) && Ascending(b)
    requires forall x :: x in a <==> x in b
    ensures a == b
    decreases |a|
  {
    if a != [] {
      assert a[0] in a;
      assert b != [] && b[0] in b;
      HeadRanksLowest(a, b[0]);
      HeadRanksLowest(b, a[0]);
      assert a[0] == b[0];
      forall x ensures x in a[1..] <==> x in b[1..] {
        TailMembers(a, x);
        TailMembers(b, x);
      }
      AscendingRowsEqual(a[1..], b[1..]);
      assert a == [a[0]] + a[1..] && b == [b[0]] + b[1..];
    } else {
      NoMembersIsEmpty(b);
    }
  }

  lemma NoMembersIsEmpty(s: seq<Badge>)
    ensures (forall x :: x !in s) ==> s == []
  {
    if s != [] {
      assert s[0] in s;
    }
  }

  /** The contract of `RoleBadges` fixes the row: any row in badge order
      that holds exactly the held roles' badges, or the default alone when
      none is held, is the row the card shows. */
  lemma RoleBadgesUnique(g: Guest, row: seq<Badge>)
    requires Ascending(row)
    requires forall role :: BadgeOf(role) in row <==> HasRole(g, role)
    requires SinRoles in row <==> forall role :: !HasRole(g, role)
    ensures row == RoleBadges(g)
  {
    var r := RoleBadges(g);
    forall x ensures x in row <==> x in r {
      match x
      case T1 => assert BadgeOf(AsesorT1) == T1;
      case T2 => assert BadgeOf(AsesorT2) == T2;
      case Protocolo => assert BadgeOf(JuradoProtocolo) == Protocolo;
      case Informe => assert BadgeOf(JuradoInforme) == Informe;
      case SinRoles =>
    }
    AscendingRowsEqual(row, r);
  }

  /** A guest holding every role shows the four badges in full order. */
  lemma AllRolesShowFourBadges(g: Guest)
    requires forall role :: HasRole(g, role)
    ensures RoleBadges(g) == [T1, T2, Protocolo, Informe]
  {
    assert RolesOf(g) == RoleSet(true, true, true, true) by {
      assert HasRole(g, AsesorT1) && HasRole(g, AsesorT2) && HasRole(g, JuradoProtocolo) && HasRole(g, JuradoInforme);
    }
    assert Push([], true, T1) == [T1];
    assert Push([T1], true, T2) == [T1, T2];
    assert Push([T1, T2], true, Protocolo) == [T1, T2, Protocolo];
    assert Push([T1, T2, Protocolo], true, Informe) == [T1, T2, Protocolo, Informe];
  }

  const HintSuffix: string := " — No se pudo conectar al servidor. El backend Flask puede estar iniciándose."
  const ErrorPrefix: string := "Error al cargar los datos: "

  /** The message looks like a connection failure. */
  predicate ConnectionFailure(message: string) {
    Text.Contains(message, "Failed to fetch") || Text.Contains(message, "NetworkError")
  }

  /** `mostrarError`: the message after the fixed prefix, with the
      connection hint appended iff the message looks like a connection
      failure. */
  function ErrorText(message: string): (r: string)
    ensures Text.StartsWith(r, ErrorPrefix + message)
    ensures |r| > |ErrorPrefix + message| <==> ConnectionFailure(message)
    ensures ConnectionFailure(message) ==> Text.EndsWith(r, HintSuffix)
    ensures |r| == |ErrorPrefix + message| + (if ConnectionFailure(message) then |HintSuffix| else 0)
  {
    var base := ErrorPrefix + message;
    var r := if ConnectionFailure(message) then base + HintSuffix else base;
    assert r[..|base|] == base;
    assert ConnectionFailure(message) ==> r[|r| - |HintSuffix|..] == HintSuffix;
    r
  }

  /** The contract of `ErrorText` pins the text: the prefix, the message,
      then the hint exactly when the message looks like a connection
      failure. */
  lemma ErrorTextIsPrefixMessageHint(message: string)
    ensures ErrorText(message) == ErrorPrefix + message + (if ConnectionFailure(message) then HintSuffix else "")
  {
    var r := ErrorText(message);
    var base := ErrorPrefix + message;
    if ConnectionFailure(message) {
      assert Text.EndsWith(r, HintSuffix);
      Text.AffixesDetermine(r, base, HintSuffix);
    } else {
      assert r == r[..|base|];
    }
  }

  /** A message without any 'F' or 'N' never gets the hint. */
  lemma NoHintWithoutCapitals(message: string)
    requires forall i :: 0 <= i < |message| ==> message[i] != 'F' && message[i] != 'N'
    ensures ErrorText(message) == ErrorPrefix + message
  {
    var f: string := "Failed to fetch";
    var n: string := "NetworkError";
    Text.NotContainsWithoutFirstChar(message, f);
    Text.NotContainsWithoutFirstChar(message, n);
  }
}

=== FILE: seqs.dfy ===
/** Order-preserving filtering of sequences (JavaScript `Array.prototype.filter`,
    Python list comprehensions with a condition). */
module Seqs {

  /** `a` can be obtained from `b` by deleting elements. */
  ghost predicate IsSubsequence<T>(a: seq<T>, b: seq<T>)
    decreases |b|
  {
    |a| == 0 ||
    (|b| > 0 && ((a[0] == b[0] && IsSubsequence(a[1..], b[1..])) || IsSubsequence(a, b[1..])))
  }

  /** The elements of `s` that satisfy `p`, in their original order. */
  function Filter<T(!new)>(s: seq<T>, p: T -> bool): (r: seq<T>)
    ensures |r| <= |s|
    ensures forall x :: x in r <==> x in s && p(x)
  {
    if |s| == 0 then []
    else
      assert s == [s[0]] + s[1..];
      if p(s[0]) then [s[0]] + Filter(s[1..], p) else Filter(s[1..], p)
  }

  /** Together with the contract of `Filter` this determines the result: the
      only subsequence of `s` holding every `p`-element as often as `s` does
      and nothing else. */
  lemma {:induction false} FilterPreserves<T(!new)>(s: seq<T>, p: T -> bool)
    ensures forall x :: multiset(Filter(s, p))[x] == if p(x) then multiset(s)[x] else 0
    ensures IsSubsequence(Filter(s, p), s)
    decreases |s|
  {
    if |s| > 0 {
      FilterPreserves(s[1..], p);
      assert s == [s[0]] + s[1..];
      assert multiset(s) == multiset{s[0]} + multiset(s[1..]);
    }
  }

  /** Filtering twice with the same predicate equals filtering once. */
  lemma {:induction false} FilterIdempotent<T(!new)>(s: seq<T>, p: T -> bool)
    ensures Filter(Filter(s, p), p) == Filter(s, p)
  {
    if |s| > 0 {
      FilterIdempotent(s[1..], p);
    }
  }

  /** A predicate every element satisfies keeps the whole sequence. */
  lemma {:induction false} FilterKeepsAll<T(!new)>(s: seq<T>, p: T -> bool)
    requires forall i :: 0 <= i < |s| ==> p(s[i])
    ensures Filter(s, p) == s
  {
    if |s| > 0 {
      FilterKeepsAll(s[1..], p);
    }
  }

  /** A weaker predicate keeps at least as many elements. */
  lemma {:induction false} FilterMonotone<T(!new)>(s: seq<T>, p: T -> bool, q: T -> bool)
    requires forall x :: p(x) ==> q(x)
    ensures |Filter(s, p)| <= |Filter(s, q)|
  {
    if |s| > 0 {
      FilterMonotone(s[1..], p, q);
    }
  }

  /** A predicate no element satisfies keeps nothing. */
  lemma {:induction false} FilterDropsAll<T(!new)>(s: seq<T>, p: T -> bool)
    requires forall i :: 0 <= i < |s| ==> !p(s[i])
    ensures Filter(s, p) == []
  {
    if |s| > 0 {
      FilterDropsAll(s[1..], p);
    }
  }

  /** Inclusion and exclusion: the elements kept by `p` or by `q` are no
      more than all of them, where `both` keeps those kept by both. */
  lemma {:induction false} FilterUnionBound<T(!new)>(s: seq<T>, p: T -> bool, q: T -> bool, both: T -> bool)
    requires forall x :: both(x) <==> p(x) && q(x)
    ensures |Filter(s, p)| + |Filter(s, q)| - |Filter(s, both)| <= |s|
  {
    if |s| > 0 {
      FilterUnionBound(s[1..], p, q, both);
    }
  }
}

=== FILE: text.dfy ===
/** String helpers shared by the backend and front-end models: the whitespace
    trimming of JavaScript's `String.prototype.trim`, decimal rendering of
    integers (Python `str(int)` and JavaScript number-to-string agree on
    integers), and prefix/substring tests. */
module Text {

  /** The characters `trim` removes: ECMAScript WhiteSpace and LineTerminator. */
  predicate IsSpace(c: char) {
    c in {'\t', '\n', '\U{000B}', '\U{000C}', '\r', ' ', '\U{00A0}', '\U{1680}',
          '\U{2000}', '\U{2001}', '\U{2002}', '\U{2003}', '\U{2004}', '\U{2005}',
          '\U{2006}', '\U{2007}', '\U{2008}', '\U{2009}', '\U{200A}', '\U{2028}',
          '\U{2029}', '\U{202F}', '\U{205F}', '\U{3000}', '\U{FEFF}'}
  }

  /** Every character is whitespace (the empty string is blank). */
  predicate Blank(s: string) {
    forall i :: 0 <= i < |s| ==> IsSpace(s[i])
  }

  /** Number of leading whitespace characters of `s`. */
  function LeadingSpaces(s: string): (n: nat)
    ensures n <= |s|
    ensures forall k :: 0 <= k < n ==> IsSpace(s[k])
    ensures n == |s| || !IsSpace(s[n])
    decreases |s|
  {
    if |s| > 0 && IsSpace(s[0]) then
      assert forall k :: 1 <= k < |s| ==> s[1..][k - 1] == s[k];
      1 + LeadingSpaces(s[1..])
    else 0
  }

  /** Length of `s` without its trailing whitespace. */
  function ContentEnd(s: string): (m: nat)
    ensures m <= |s|
    ensures forall k :: m <= k < |s| ==> IsSpace(s[k])
    ensures m == 0 || !IsSpace(s[m - 1])
    decreases |s|
  {
    if |s| > 0 && IsSpace(s[|s| - 1]) then
      assert forall k :: 0 <= k < |s| - 1 ==> s[..|s| - 1][k] == s[k];
      ContentEnd(s[..|s| - 1])
    else |s|
  }

  /** JavaScript `s.trim()`: `s` without its blank prefix and blank suffix;
      what remains neither starts nor ends with whitespace. */
  function Trim(s: string): (r: string)
    ensures LeadingSpaces(s) + |r| <= |s|
    ensures r == s[LeadingSpaces(s)..LeadingSpaces(s) + |r|]
    ensures forall k :: LeadingSpaces(s) + |r| <= k < |s| ==> IsSpace(s[k])
    ensures r == [] || (!IsSpace(r[0]) && !IsSpace(r[|r| - 1]))
  {
    var n := LeadingSpaces(s);
    var m := ContentEnd(s);
    if m <= n then [] else s[n..m]
  }

  /** `s.trim() !== ""` exactly when `s` has a non-whitespace character. */
  lemma TrimEmptyIffBlank(s: string)
    ensures Trim(s) == [] <==> Blank(s)
  {
    if Trim(s) != [] {
      assert s[LeadingSpaces(s)] == Trim(s)[0];
    }
  }

  /** Trimming twice equals trimming once. */
  lemma TrimIdempotent(s: string)
    ensures Trim(Trim(s)) == Trim(s)
  {
    var r := Trim(s);
    assert LeadingSpaces(r) == 0;
    assert ContentEnd(r) == |r|;
  }

  function DigitChar(d: nat): (c: char)
    requires d < 10
    ensures '0' <= c <= '9'
  {
    "0123456789"[d]
  }

  predicate IsDigit(c: char) { '0' <= c <= '9' }

  function DigitValue(c: char): (d: nat)
    requires IsDigit(c)
    ensures d < 10
  {
    (c as int) - ('0' as int)
  }

  /** Decimal rendering of a natural number, most significant digit first,
      without leading zeros. */
  function NatToString(n: nat): (r: string)
    ensures |r| > 0
    ensures forall i :: 0 <= i < |r| ==> IsDigit(r[i])
    ensures r[0] == '0' ==> n == 0
    decreases n
  {
    if n < 10 then [DigitChar(n)] else NatToString(n / 10) + [DigitChar(n % 10)]
  }

  /** Value of a string of decimal digits. */
  function ParseDigits(s: string): nat
    requires forall i :: 0 <= i < |s| ==> IsDigit(s[i])
  {
    if |s| == 0 then 0 else ParseDigits(s[..|s| - 1]) * 10 + DigitValue(s[|s| - 1])
  }

  /** Reading the rendered digits back gives the number. */
  lemma {:induction false} ParseNatToString(n: nat)
    ensures ParseDigits(NatToString(n)) == n
    decreases n
  {
    var r := NatToString(n);
    if n >= 10 {
      ParseNatToString(n / 10);
      assert r[..|r| - 1] == NatToString(n / 10);
    }
  }

  /** Distinct numbers render as distinct strings. */
  lemma NatToStringInjective(m: nat, n: nat)
    ensures NatToString(m) == NatToString(n) ==> m == n
  {
    ParseNatToString(m);
    ParseNatToString(n);
  }

  /** Python `str(i)` / JavaScript `String(i)` of an integer. */
  function IntToString(i: int): (r: string)
    ensures |r| > 0
    ensures r[0] == '-' <==> i < 0
    ensures i >= 0 ==> r == NatToString(i)
    ensures forall k :: 0 <= k < |r| ==> IsDigit(r[k]) || r[k] == '-'
  {
    if i < 0 then "-" + NatToString(-i) else NatToString(i)
  }

  /** Distinct integers render as distinct strings. */
  lemma IntToStringInjective(m: int, n: int)
    ensures IntToString(m) == IntToString(n) ==> m == n
  {
    if IntToString(m) == IntToString(n) {
      NegativeDigits(m);
      NegativeDigits(n);
      if m < 0 {
        NegativeInjective(m, n);
      } else {
        NatToStringInjective(m, n);
      }
    }
  }

  /** Negative integers with the same digits after the sign are equal. */
  lemma NegativeInjective(m: int, n: int)
    requires m < 0 && n < 0
    requires IntToString(m)[1..] == IntToString(n)[1..]
    ensures m == n
  {
    NegativeDigits(m);
    NegativeDigits(n);
    NatToStringInjective(-m, -n);
  }

  /** After the minus sign a negative integer's text is its magnitude's. */
  lemma NegativeDigits(i: int)
    ensures i < 0 <==> IntToString(i)[0] == '-'
    ensures i < 0 ==> IntToString(i)[1..] == NatToString(-i)
  {
  }

  predicate StartsWith(s: string, prefix: string) {
    |prefix| <= |s| && s[..|prefix|] == prefix
  }

  predicate EndsWith(s: string, suffix: string) {
    |suffix| <= |s| && s[|s| - |suffix|..] == suffix
  }

  /** A string that starts with `a`, ends with `b` and is exactly as long
      as both is their concatenation. */
  lemma AffixesDetermine(s: string, a: string, b: string)
    requires StartsWith(s, a) && EndsWith(s, b) && |s| == |a| + |b|
    ensures s == a + b
  {
    assert s == s[..|a|] + s[|a|..];
    assert s[|a|..] == s[|s| - |b|..];
  }

  /** `a + sep + b` starts with `a` and ends with `sep + b`. */
  lemma JoinAffixes(a: string, sep: string, b: string)
    ensures StartsWith(a + sep + b, a) && EndsWith(a + sep + b, sep + b)
  {
    var s := a + sep + b;
    assert s[..|a|] == a;
    assert s == a + (sep + b);
    assert s[|s| - |sep + b|..] == sep + b;
  }

  /** JavaScript `s.includes(t)`: `t` occurs at some offset of `s`. */
  predicate Contains(s: string, t: string)
    decreases |s|
  {
    StartsWith(s, t) || (|s| > 0 && Contains(s[1..], t))
  }

  /** A string in which the first character of `t` never occurs cannot contain `t`. */
  lemma {:induction false} NotContainsWithoutFirstChar(s: string, t: string)
    requires |t| > 0
    requires forall i :: 0 <= i < |s| ==> s[i] != t[0]
    ensures !Contains(s, t)
    decreases |s|
  {
    if |s| > 0 {
      assert s[0] != t[0];
      NotContainsWithoutFirstChar(s[1..], t);
    }
  }

  /** No character of `s` is `c`. */
  predicate Lacks(s: string, c: char) {
    forall j :: 0 <= j < |s| ==> s[j] != c
  }

  /** A concatenation lacks whatever both parts lack. */
  lemma LacksConcat(a: string, b: string, c: char)
    requires Lacks(a, c) && Lacks(b, c)
    ensures Lacks(a + b, c)
  {
    forall j | 0 <= j < |a + b| ensures (a + b)[j] != c {
      if j >= |a| {
        assert (a + b)[j] == b[j - |a|];
      }
    }
  }
}
